=== FILE: README.md ===
# A Dafny model of the team_claude shared-state core

team_claude coordinates a team of agents through one JSON state file managed by `SharedState`. The
file holds six collections: task buckets per branch, registered agents, messages, branches, pull
requests and reasoning logs. Every public operation of `SharedState` is a closure run inside a
locked transaction.

This project models those closures as pure state transitions. Each takes a `Document`, the
arguments, the clock reading `now` and any fresh uuid suffixes, and returns the document to persist
with the value returned to the caller. The model also covers:

- the capability scheduler;
- the commit/rollback core of the transaction and its retry backoff;
- four small helpers: the `.env` loader, the reasoning extractor of the Claude API wrapper, the
  task-type classifier with its breakdown commands, and the agent-output parser and active-task
  filter of the activity viewer.

Python dictionaries are insertion-ordered association lists (`OrderedMaps.OMap`). The order matters
for the scheduler's tie-break, for broadcast recipients and for which task a search finds first.
Assigning an existing key keeps its position; a new key goes at the end. Ids are built exactly as
the code builds them. The model does not assume they are unique, and several lemmas show where they
collide.

Modules, one per file:

| module | models |
|---|---|
| `Wrappers`, `Text`, `Seqs`, `OrderedMaps` | `Option`/`Result`; Python string and list operations (`strip`, `find`, `split`, `join`, `lower`, a stable descending sort); ordered dictionaries |
| `StateSchema` | the document, its entities, `MAX_AGENTS`, the configured roster, `int()` truncation |
| `Transaction` | commit/rollback of `_with_file_lock`, `get_retry_delay` |
| `AgentRepo`, `Scheduler` | agent registration, status, listing; `find_best_agent_for_task` |
| `TaskRepo` | `add_task`, `create_subtask`, `update_task_status`, `delete_task`, `delete_all_tasks`, `get_tasks` |
| `MessageRepo` | `add_message`, `broadcast_message`, `get_messages`, `mark_message_read` |
| `BranchRepo` | `register_branch`, pull requests |
| `ReasoningRepo` | `log_reasoning`, `get_reasoning_logs` |
| `EnvLoader` | `find_dotenv`, the line loop of `load_env` |
| `ReasoningExtractor` | `ClaudeAPI.extract_reasoning` |
| `TaskAnalyzer` | `TaskAnalyzer.analyze_task` and its helpers |
| `AgentActivity` | `parse_agent_output`, `get_active_tasks` |

## Model

| member | source | states |
|---|---|---|
| Transaction.Run | src/core/state_manager.py:143-164 | a transform that returns persists its document and its value; one that raises persists the loaded snapshot and propagates the error |
| Transaction.Atomic | src/core/state_manager.py:143-164 | the persisted document is either the snapshot (exactly when the transform raised) or the transform's complete result; a raising transform's partial document is persisted only when it equals the snapshot |
| Transaction.RollbackAfterEdit | tests/test_state_manager.py:162-184 | a transform that edits a task description and then raises leaves the stored document exactly as it was loaded |
| Transaction.RetryDelay | src/core/state_manager.py:104-105 | the backoff is the smaller of 60 s and `base * 2**attempt`: at most each, and equal to one of them |
| Transaction.RetryDelayDoubles | src/core/state_manager.py:104-105 | each retry waits twice the previous delay until the cap, and never less than before |
| AgentRepo.RegisterAgent | src/core/state_manager.py:216-233 | with `maxAgents` (the configured `MAX_AGENTS`) or more agents registration is refused and nothing changes, even for a known id; otherwise the id is bound to a fresh active record with no tasks, every other agent is kept and a new id goes last |
| AgentRepo.RegisterAgentBounded | src/core/state_manager.py:220-222 | registration never takes a registry within the limit past `maxAgents` |
| AgentRepo.UpdateAgentStatus | src/core/state_manager.py:250-256 | an unknown id is refused with nothing changed; otherwise only that agent's status and last-active time change |
| AgentRepo.GetAgents | src/core/state_manager.py:273-285 | exactly the registered agents passing both filters, in registry order, each entry as often as the registry holds it (once, for distinct keys) and never more than are registered |
| AgentRepo.RegisteredAgentListed | tests/test_state_manager.py:125-135 | a successful registration is listed by `get_agents` with the record written; registered into an empty registry, it is the one agent listed |
| Scheduler.MatchScore | src/core/state_manager.py:313-321 | the match lies in [0, 1]; it is 1 for no requirements, otherwise the fraction of required capabilities the agent has |
| Scheduler.Score | src/core/state_manager.py:323-327 | every score lies in (0, 1], so any active agent beats the initial best of -1 |
| Scheduler.BestAmong | src/core/state_manager.py:305-331 | the loop's best so far over the first n agents, starting from -1: none exactly when none of them is active; otherwise an active one scoring at least as well as all of them and strictly better than those before it |
| Scheduler.FindBestAgentForTask | src/core/state_manager.py:301-334 | None exactly when no agent is active; otherwise an active agent scoring at least as well as every active agent and strictly better than every active agent before it |
| Scheduler.ChoiceUnique | src/core/state_manager.py:329-331 | only one position meets that description, so the scores determine the choice |
| Scheduler.WorkloadDecreasing | src/core/state_manager.py:323-325 | more current tasks give a strictly smaller workload score |
| Scheduler.NoRequirementsPrefersLeastLoaded | src/core/state_manager.py:316-331 | with no requirements the chosen agent has no more current tasks than any other active agent |
| Scheduler.PythonTaskGoesToA1 | src/core/state_manager.py:301-334 | of two idle active agents, the one with the python capability wins a python task |
| TaskRepo.AssignTo | src/core/state_manager.py:382-385 | only a non-empty assignee that is registered gets the id appended to its current tasks; otherwise the registry is unchanged |
| TaskRepo.AddTask | src/core/state_manager.py:361-387 | one pending task is appended to the branch's bucket, which is created last if missing; every other bucket is unchanged; the id is built from the clock and the bucket's old length |
| TaskRepo.TaskIndex | src/core/state_manager.py:414-418 | -1 exactly when no task in the bucket has the id; otherwise the first position holding it |
| TaskRepo.FindTask | src/core/state_manager.py:413-420 | None exactly when no scanned bucket holds the id; otherwise the first match in scan order |
| TaskRepo.FindTaskIsFirst | src/core/state_manager.py:413-420 | any location with the id and no earlier match in scan order is exactly what the search returns |
| TaskRepo.WithSubtask | src/core/state_manager.py:440-445 | the subtask goes last in the bucket and only the parent's `subtasks` list gains its id |
| TaskRepo.CreateSubtask | src/core/state_manager.py:408-453 | None with nothing changed exactly when no bucket holds the parent; otherwise the subtask is appended to the bucket of the first matching parent, that parent records it and nothing else changes |
| TaskRepo.CreateSubtaskValid | src/core/state_manager.py:408-453 | `create_subtask` keeps every dictionary free of duplicate keys |
| TaskRepo.SubtaskListedUnderParent | tests/test_state_manager.py:62-74 | a created subtask is reported by `get_tasks` filtered on its parent; when the parent had no children yet, that listing is exactly the new subtask, once |
| TaskRepo.ScopesCompared | src/core/state_manager.py:557-560 | a non-empty branch that has no bucket makes the status update search every bucket, while `get_tasks` then sees no bucket at all; otherwise the two search the same buckets (the given one, or all) |
| TaskRepo.CreditCompletion | src/core/state_manager.py:579-589 | only a completion with a registered assignee changes the registry: its completed count grows by one and, when present, one occurrence of the id leaves its current tasks |
| TaskRepo.UpdateTaskStatus | src/core/state_manager.py:555-600 | false with nothing changed exactly when no searched bucket holds the id; otherwise only the first match changes, gaining a history entry only for a non-empty message |
| TaskRepo.UpdateTaskStatusValid | src/core/state_manager.py:555-600 | `update_task_status` keeps every dictionary free of duplicate keys |
| TaskRepo.FirstMatchKept | src/core/state_manager.py:563-594 | replacing the first match by a task with the same id keeps it the first match |
| TaskRepo.UpdateFindsSameTask | src/core/state_manager.py:563-594 | a second update with the same id and branch finds the same task again, now carrying the first update |
| TaskRepo.CompletionCountsEveryCall | src/core/state_manager.py:579-584 | completing the same task twice credits its assignee twice |
| TaskRepo.WithoutId | src/core/state_manager.py:479-482 | exactly the tasks without the id are kept, in bucket order and each as often as the bucket holds it; the bucket shrinks exactly when it held the id and is unchanged otherwise |
| TaskRepo.WithoutChildren | src/core/state_manager.py:496-500 | exactly the tasks whose parent is not the id are kept, in bucket order and each as often as the bucket holds it |
| TaskRepo.DropId | src/core/state_manager.py:475-493 | each scoped bucket loses the tasks with the id and the others are untouched; the flag is true exactly when some scoped bucket held the id |
| TaskRepo.DropChildren | src/core/state_manager.py:496-500 | every bucket loses the direct children of the id, and the keys are kept |
| TaskRepo.DeleteTask | src/core/state_manager.py:471-502 | true exactly when a scoped bucket held the id; the task is removed from the scoped buckets and its direct children from every bucket, even when the task was not found |
| TaskRepo.DeleteAllTasks | src/core/state_manager.py:519-534 | true exactly when some scoped bucket held a task; every scoped bucket is emptied with its key kept and the others are untouched |
| TaskRepo.Collect | src/core/state_manager.py:644-652 | exactly the tasks of the scoped buckets passing every filter, each paired with its bucket name |
| TaskRepo.CollectListing | src/core/state_manager.py:644-652 | the result keeps the passing entries of the full listing (bucket by bucket in scope order, bucket order within each) in that order, each as often as the listing holds it |
| TaskRepo.ListingCount | src/core/state_manager.py:644-647 | over distinct bucket names, the listing holds a tagged task exactly as often as its bucket holds the task |
| TaskRepo.GetTasks | src/core/state_manager.py:633-654 | exactly the tasks of the scoped buckets that pass every given filter, annotated with their bucket, bucket by bucket in dictionary order and in bucket order within each, each as often as stored |
| TaskRepo.AddTaskIsolation | src/core/state_manager.py:365-379 | adding a task to one branch leaves `get_tasks` for every other named branch unchanged |
| TaskRepo.AddedTaskListed | tests/test_state_manager.py:51-60 | a task added to a branch that had no bucket is the only task `get_tasks` reports for it, carrying the description, assignee and priority given |
| TaskRepo.Listed | src/core/state_manager.py:644-652 | every scoped task passing the filters is reported |
| TaskRepo.DeletedTaskNotListed | tests/test_state_manager.py:137-148 | after `delete_task`, `get_tasks` over the same scope reports neither the task nor its direct children |
| TaskRepo.NothingListedAfterDeleteAll | src/core/state_manager.py:519-534 | after `delete_all_tasks`, `get_tasks` over the same scope reports nothing |
| TaskRepo.SameSecondIdsCollide | src/core/state_manager.py:368 | the first tasks of two new branches added within one second get the same id |
| TaskRepo.IdReusedAfterDelete | src/core/state_manager.py:368 | after deleting the first of two tasks, the next task added in the same second repeats the id of the remaining one |
| TaskRepo.DeleteFirstOfTwo | src/core/state_manager.py:471-502 | deleting the first of two unrelated tasks leaves the second |
| MessageRepo.AddMessage | src/core/state_manager.py:679-701 | exactly one unread message is appended with the returned id, and nothing else changes |
| MessageRepo.ActiveOthers | src/core/state_manager.py:724-728 | exactly the active agents other than the sender, in registry order and, for distinct keys, each once |
| MessageRepo.RosterOthers | src/core/state_manager.py:731-734 | exactly the configured roster without the sender, in roster order, without repeats when the roster has none |
| MessageRepo.Recipients | src/core/state_manager.py:724-734 | never the sender; the active others when there are any, otherwise the roster without the sender; no agent twice for distinct keys and a repeat-free roster |
| MessageRepo.BroadcastMessage | src/core/state_manager.py:720-758 | one unread "broadcast" message per recipient, in recipient order, all with one timestamp; the ids are returned in the same order and nothing else changes |
| MessageRepo.BroadcastReachesActiveAgents | src/core/state_manager.py:724-755 | a broadcast never addresses the sender and reaches every active agent other than the sender |
| MessageRepo.BroadcastFallsBackToRoster | src/core/state_manager.py:731-734 | with no other active agent, every configured agent except the sender is addressed |
| MessageRepo.BroadcastOncePerAgent | src/core/state_manager.py:724-755 | for distinct registry keys and a repeat-free roster, no agent receives two messages of one broadcast |
| MessageRepo.GetMessages | src/core/state_manager.py:780-806 | the matching messages, and only those, as a permutation sorted newest first; messages with equal timestamps keep their stored order, as Python's stable sort does |
| MessageRepo.AddedMessageIsUnread | tests/test_state_manager.py:91-100 | a message just added is among its receiver's unread messages on its channel and priority |
| MessageRepo.MessageIndex | src/core/state_manager.py:826-828 | -1 exactly when no message has the id; otherwise the first one that has it |
| MessageRepo.MarkMessageRead | src/core/state_manager.py:822-829 | false with nothing changed exactly when no message has the id; otherwise only the first such message is marked read |
| MessageRepo.MarkMessageReadIdempotent | src/core/state_manager.py:822-829 | marking a message read twice is the same as marking it once |
| BranchRepo.RegisterBranch | src/core/state_manager.py:857-869 | refused with nothing changed exactly when the name is taken; otherwise an active branch is added last |
| BranchRepo.CreatePullRequest | src/core/state_manager.py:896-916 | refused with nothing changed exactly when the id is taken; otherwise an open pull request with no comments or approvals is added |
| BranchRepo.Approvers | src/core/state_manager.py:963 | the authors of the approvals, in order |
| BranchRepo.Revise | src/core/state_manager.py:951-968 | a non-empty status replaces the old one; a comment is appended; an approval is appended only for an author with none yet; the update time is set; authors stay distinct |
| BranchRepo.UpdatePullRequest | src/core/state_manager.py:945-970 | false with nothing changed exactly for an unknown id; otherwise only that pull request is revised, in place |
| BranchRepo.ApprovalIdempotent | src/core/state_manager.py:962-967 | a second identical approval adds nothing |
| BranchRepo.ApprovalsStayUnique | src/core/state_manager.py:896-970 | creating and updating pull requests keep at most one approval per author |
| BranchRepo.GetPullRequests | src/core/state_manager.py:987-998 | exactly the pull requests with the requested status, in stored order, each as often as stored and never more than are stored |
| BranchRepo.CreatedPullRequestListed | src/core/state_manager.py:904-916 | a pull request just created is listed among the open ones |
| ReasoningRepo.ParseTags | src/core/state_manager.py:1033 | a non-empty tag string splits into comma-free pieces that join back to it; no tags give an empty list |
| ReasoningRepo.LogReasoning | src/core/state_manager.py:1022-1038 | the entry is stored under `log_<second>_<agent>`, replacing any entry there; every other log is unchanged |
| ReasoningRepo.SameSecondLogOverwrites | src/core/state_manager.py:1027 | two logs by one agent within one second share an id, and the second replaces the first |
| ReasoningRepo.Matching | src/core/state_manager.py:1075-1080 | exactly the stored logs passing every filter, in `.values()` order and each as often as stored; the tag filter keeps a log carrying any requested tag |
| ReasoningRepo.GetReasoningLogs | src/core/state_manager.py:1070-1085 | newest first, only matching logs, `limit` of them under Python slice rules (all when fewer match, a negative limit dropping that many), and no match left out is newer than one returned; among logs with one timestamp, those returned are the earliest stored, in stored order |
| ReasoningRepo.NewestMatchFirst | src/core/state_manager.py:1082-1084 | a stored log of the agent newer than every other log heads the agent's query for any positive limit |
| ReasoningRepo.NewestLogListedFirst | tests/test_state_manager.py:115-123 | a log newer than every stored log heads its agent's query |
| EnvLoader.Unquote | src/utils/env_loader.py:88-90 | a value with the same quote at both ends loses exactly one outer pair, and a lone quote becomes empty; other values are kept |
| EnvLoader.UnquoteRoundTrip | src/utils/env_loader.py:88-90 | quoting with either quote character and unquoting gives the value back |
| EnvLoader.Body | src/utils/env_loader.py:71-79 | the stripped line with one leading "export " removed |
| EnvLoader.ParseBody | src/utils/env_loader.py:82-90 | the key is the stripped text before the first '=', and the value the stripped, unquoted text after it |
| EnvLoader.AssignsIffEquals | src/utils/env_loader.py:82 | a body is an assignment exactly when it holds an '=' |
| EnvLoader.ParsedKeyHasNoEquals | src/utils/env_loader.py:83-84 | a parsed key never holds '=', so values may |
| EnvLoader.ParseLine | src/utils/env_loader.py:71-90 | blank and comment lines ask for nothing; any other line is parsed from its body |
| EnvLoader.FormatRoundTrip | src/utils/env_loader.py:71-90 | the line `KEY="value"` parses back to that key and value, whatever the value holds |
| EnvLoader.ExportPrefixIgnored | src/utils/env_loader.py:78-79 | a leading "export " does not change what such a line assigns |
| EnvLoader.ApplyAssignments | src/utils/env_loader.py:93 | the assignments are written in order; the result is true exactly when the environment accepts them all |
| EnvLoader.StopsAtFirstRefusal | src/utils/env_loader.py:93-107 | after a refused write, the environment holds exactly the writes made before it |
| EnvLoader.ApplyLines | src/utils/env_loader.py:69-93 | the lines' assignments apply in file order |
| EnvLoader.SetAllLastWins | src/utils/env_loader.py:93 | after the writes, a key holds its last assigned value, or its old value when never assigned |
| EnvLoader.LastAssignmentWins | src/utils/env_loader.py:69-93 | after a successful load, a later line for a key overrides earlier ones and unassigned keys keep their values |
| EnvLoader.AssignmentsAppend | src/utils/env_loader.py:70 | the assignments of two pieces of a file are those of the first followed by those of the second |
| EnvLoader.ApplyLinesAppend | src/utils/env_loader.py:69-93 | loading two pieces is loading the first and then, if that succeeded, the second |
| EnvLoader.IgnoredLinesChangeNothing | src/utils/env_loader.py:71-75 | blank and comment lines leave the environment as it is |
| EnvLoader.FindDotenv | src/utils/env_loader.py:37-46 | the first ".env" found in the start directory or an ancestor, nearest first; None exactly when no directory short of the root has one |
| EnvLoader.RootNeverChecked | src/utils/env_loader.py:40 | a ".env" at the filesystem root is never found |
| EnvLoader.LoadEnv | src/utils/env_loader.py:48-107 | without a given path the file is searched for from the working directory; no file, or a given file that does not exist, gives false with nothing changed; otherwise the file's lines are applied |
| ReasoningExtractor.Between | src/utils/claude_api.py:170-175 | text exists exactly when both tags occur and the first opening tag ends before the first closing tag; it is a trimmed substring holding no closing tag |
| ReasoningExtractor.FirstMarker | src/utils/claude_api.py:190-191 | the first phrase in list order that occurs anywhere, or -1 exactly when none does |
| ReasoningExtractor.MarkerText | src/utils/claude_api.py:193-194 | the 2000-character window opened at the phrase's first occurrence with only whitespace cut from either end, a trimmed piece of the response |
| ReasoningExtractor.FallbackText | src/utils/claude_api.py:197 | the first 1000 characters (or fewer) with only whitespace cut from either end, leaving no whitespace at either end; `Text.StrippedFromUnique` makes this `response[:1000].strip()` |
| ReasoningExtractor.ExtractReasoning | src/utils/claude_api.py:159-197 | in every branch the result is a trimmed substring of the response |
| ReasoningExtractor.ThinkingTagsUsed | src/utils/claude_api.py:170-175 | with thinking tags in order, the result is the trimmed text between the first opening and first closing tag |
| ReasoningExtractor.MisorderedThinkingSkipsReasoning | src/utils/claude_api.py:170-182 | thinking tags present but out of order send the search to the phrases, never to the reasoning tags |
| ReasoningExtractor.ReasoningTagsUsed | src/utils/claude_api.py:177-182 | without a thinking pair, reasoning tags in order give the trimmed text between them |
| ReasoningExtractor.NoTagTextUsesMarkers | src/utils/claude_api.py:170-184 | when neither tag pair is present in order, the result is the phrase search, whichever tags are missing or misordered |
| ReasoningExtractor.MisorderedReasoningUsesMarkers | src/utils/claude_api.py:177-184 | without a thinking pair, reasoning tags present but out of order fall through to the phrase search |
| ReasoningExtractor.MarkerSearchFound | src/utils/claude_api.py:190-194 | the first phrase in list order that occurs yields the stripped 2000-character window opened at that phrase's first occurrence, which starts with the phrase |
| ReasoningExtractor.MarkerBranch | src/utils/claude_api.py:185-194 | with a phrase present, the result is `response[marker_pos:marker_pos + 2000].strip()` for the first listed phrase that occurs, at its first occurrence: at most 2000 characters, starting with that phrase |
| ReasoningExtractor.FallbackBranch | src/utils/claude_api.py:196-197 | with no phrase present, the result is `response[:1000].strip()` |
| TaskAnalyzer.MatchCount | src/utils/task_analyzer.py:206-208 | the number of matching patterns: zero exactly when none matches, all exactly when all do |
| TaskAnalyzer.Scores | src/utils/task_analyzer.py:203-215 | each type scores its matching patterns, at 2 each for self-enhancement and 1 otherwise |
| TaskAnalyzer.ArgMax | src/utils/task_analyzer.py:219 | a greatest score, with every earlier score strictly smaller |
| TaskAnalyzer.FirstBestUnique | src/utils/task_analyzer.py:219 | only one position is the first greatest, so ties go to the earliest type |
| TaskAnalyzer.Classify | src/utils/task_analyzer.py:217-224 | "general" when no score is positive; otherwise the type of the first greatest score |
| TaskAnalyzer.ClassifyGeneralIffNoMatch | src/utils/task_analyzer.py:218-224 | over types not named "general", the result is "general" exactly when no pattern matches |
| TaskAnalyzer.IdentifyTaskType | src/utils/task_analyzer.py:192-224 | "general" exactly when no pattern of any type matches; otherwise the first type with the greatest score |
| TaskAnalyzer.SuggestedBreakdown | src/utils/task_analyzer.py:236-238 | the template of a type that has one, and no subtasks otherwise |
| TaskAnalyzer.GenerateBreakdownCommands | src/utils/task_analyzer.py:249-254 | exactly one command per subtask, in order |
| TaskAnalyzer.AnalyzeTask | src/utils/task_analyzer.py:159-190 | the explicit indicators force self-enhancement, else the scores decide; subtasks and commands follow that type |
| TaskAnalyzer.CommandRoundTrip | src/utils/task_analyzer.py:251 | a command whose fields hold no double quote reads back as the task id and subtask it embeds |
| TaskAnalyzer.CommandsReadBack | src/utils/task_analyzer.py:250-254 | the generated commands read back, in order, as their subtasks |
| TaskAnalyzer.QuotedFieldsAmbiguous | src/utils/task_analyzer.py:251 | fields are not escaped, so two different subtasks can render the same command |
| TaskAnalyzer.HintForcesSelfEnhancement | src/utils/task_analyzer.py:169-174 | with an explicit indicator the type is self-enhancement and its template subtasks are proposed, whatever the scores |
| TaskAnalyzer.NoMatchIsGeneral | src/utils/task_analyzer.py:218-238 | with no indicator and no match the task is "general" with no subtasks and no commands |
| AgentActivity.StatusFrom | src/agents/view_agent_activity.py:953-962 | the status of the first phrase, in precedence order, that occurs; "unknown" when none does |
| AgentActivity.StatusPrecedence | src/agents/view_agent_activity.py:953-962 | "Sleeping" beats "Working on task", which beats "Waiting for tasks", then "API Error", then "Executing command" |
| AgentActivity.ParseAgentOutput | src/agents/view_agent_activity.py:937-979 | empty output gives unknown with no task or content; otherwise the status follows the precedence, the task is the stripped search result, and the content is absent exactly when the reasoning block is empty, else the block joined by line breaks |
| AgentActivity.LastMarkerIsLast | src/agents/view_agent_activity.py:969-971 | the position found is a marker line and no marker line follows it |
| AgentActivity.CollectIsReference | src/agents/view_agent_activity.py:964-975 | the reasoning loop yields the lines after the last marker line, past leading blank lines and up to the next blank line, each stripped |
| AgentActivity.CollectedLinesClean | src/agents/view_agent_activity.py:972-973 | the collected lines are non-empty, stripped and free of line breaks |
| AgentActivity.ContentSplitsBack | src/agents/view_agent_activity.py:977 | the content splits at line breaks back into exactly the collected lines |
| AgentActivity.ActiveOf | src/agents/view_agent_activity.py:185-190 | exactly the task objects of a bucket that are not completed, in bucket order, each as often as the bucket holds it |
| AgentActivity.GetActiveTasks | src/agents/view_agent_activity.py:165-192 | an entry exactly for the display names of the list buckets, each listing only open task objects |
| AgentActivity.ActiveNamesInFirstOrder | src/agents/view_agent_activity.py:170-184 | the entries come in the order of each display name's first list bucket, each name once, as a reassigned dictionary key keeps its place |
| AgentActivity.LastBucketWins | src/agents/view_agent_activity.py:174-190 | an entry holds the open tasks of the last list bucket shown under its name, so a later bucket with the same display name replaces an earlier one |
| AgentActivity.OpenTaskListed | src/agents/view_agent_activity.py:184-190 | an open task of a list bucket is listed under the bucket's display name unless a later bucket takes that name |
| OrderedMaps.Put | src/core/state_manager.py:225 | dictionary assignment binds the key, keeps every other binding, keeps the key's position when present and appends it otherwise |
| Text.Split | src/core/state_manager.py:1033 | `str.split` pieces hold no separator and join back to the string |
| Text.Strip | src/utils/env_loader.py:71 | `strip` keeps a slice with no whitespace at either end |
| Text.StripIsStrippedFrom | src/utils/env_loader.py:71 | `strip` cuts only whitespace: its result is a slice of the argument with only whitespace before and after it |
| Text.StrippedFromUnique | src/utils/env_loader.py:71 | only one such slice has no whitespace at either end, so that description determines `strip` |
| Seqs.Filter | src/core/state_manager.py:279-283 | a filtering loop keeps exactly the passing elements, in order, each as often as the input holds it |
| Seqs.FilterUnique | src/core/state_manager.py:279-283 | any subsequence holding each passing element as often as the input, and nothing else, is the filter's result |
| Seqs.SortDescStable | src/core/state_manager.py:806 | the descending sort is stable: the elements with any one key keep their input order |
| Seqs.TopDesc | src/core/state_manager.py:1084-1085 | `limit` elements under Python slice rules, sorted by descending key, drawn from the input with no element left out having a larger key than one kept; for each key, the kept elements are a prefix of the input's elements with that key |

## Left out

- File locking, the poll loop and forced proceed, sleeps, the `.bak` copy, JSON (de)serialisation and the IOError/backup recovery loop: these are OS I/O and concurrency. Only the commit/rollback result of the transaction is modelled.
- Legacy dictionary-format messages: only the list format of `messages` is modelled.
- `get_state_data`: a debugging copy of the document.
- The command-line entry points and every file outside the modules listed above: argument parsing, printing, subprocesses, HTTP, SQLite and rendering.
- The clock, `datetime.now()` and `uuid4`: they are parameters. `config.MAX_AGENTS` and the roster `config.AGENTS` are parameters too (`StateSchema` records their configured values). An ISO timestamp of a message is modelled as the same real instant, so messages order by instant.
- Scheduler.Score: scores are exact reals, not IEEE doubles, so near-ties may be decided differently from the running program.
- TaskAnalyzer.IdentifyTaskType: regular-expression matching is an uninterpreted parameter `matches(pattern, text)`, so no pattern semantics are proved.
- AgentActivity.ParseAgentOutput: the task-line regular expression is a parameter returning its stripped-to-be first group, so its match semantics are not modelled.
- Text.Lower: only ASCII letters are lowered; Python's Unicode case table is not modelled. (`Text.IsSpace` does follow Python's full `str.isspace` set.)
- TaskAnalyzer.CommandsReadBack: the built-in templates are not proved quote-free; the read-back lemma is stated for any quote-free subtasks.
- EnvLoader.LoadEnv: of the errors `load_env` catches, only a refused environment write (an empty key or a NUL character) is modelled; unreadable files are not. `Path.absolute()` is taken as already applied to the start path.
- BranchRepo.UpdatePullRequest: the comment and approval dictionaries are modelled as their fields, with None for an argument that is absent or falsy; a dictionary missing "author" or "content" (a KeyError in the code) is not modelled.
- AgentActivity.ParseAgentOutput: a `None` output is modelled as the empty string, which the code treats the same way.
- AgentActivity.GetActiveTasks: a `tasks` value that is not a dictionary makes the code raise; the model takes the dictionary as given. JSON values other than strings, lists and objects are one opaque case.
- AddTask: one clock reading `now` stands for the three `time.time()` calls of `add_task` (the id's second, `created_at`, `updated_at`), so tasks whose calls straddle a second boundary are not modelled.
- RegisterAgent: one reading stands for the two `time.time()` calls behind `last_active` and `created_at`.
- BroadcastMessage: one reading stands for the ISO timestamp and for every message's `int(time.time())` in the id, so a broadcast whose loop crosses a second boundary, giving ids with different seconds, is not modelled.
- CreateSubtask: one reading stands for the three `time.time()` calls of `create_subtask` (the id's second, `created_at`, `updated_at`), so the model has the id's second equal to the floor of `created_at`, which the code does not promise across a second boundary.
- UpdateTaskStatus: one reading stands for the two `time.time()` calls behind the task's `updated_at` and the history entry's `timestamp`, so the model has them equal.
- AddMessage: one reading stands for the `int(time.time())` in the id and the separate `datetime.now()` behind the ISO timestamp, so the model has the id's second equal to the floor of the timestamp.
- CreatePullRequest: one reading stands for the two `time.time()` calls behind `created_at` and `updated_at`, so the model has them equal.
- UpdatePullRequest: one reading stands for the `time.time()` calls behind `updated_at`, the comment's `timestamp` and the approval's `timestamp`, so the model has them equal.
- LogReasoning: one reading stands for the `int(time.time())` in the id and the stored `timestamp`, so the model has the id's second equal to the floor of the timestamp, which the code does not promise when the two calls straddle a second.

=== FILE: agent_activity.dfy ===
/** The two pure helpers of the activity viewer (src/agents/view_agent_activity.py):
    `parse_agent_output`, which reads an agent's terminal output, and `get_active_tasks`,
    which lists the unfinished tasks of each branch of the shared state. */
module AgentActivity {
  import opened Wrappers
  import opened OrderedMaps
  import opened Text
  import Seqs

  // ---------------------------------------------------------------------------------------
  // parse_agent_output

  /** What `parse_agent_output` reports about one agent. */
  datatype AgentView = AgentView(status: string, task: Option<string>, content: Option<string>)

  /** The status phrases, by precedence, and the status each one yields. */
  const StatusPhrases: seq<(string, string)> := [
    ("Sleeping", "sleeping"), ("Working on task", "working"), ("Waiting for tasks", "waiting"),
    ("API Error", "error"), ("Executing command", "executing")
  ]

  /** The status of the first phrase, in precedence order, that occurs in the output. */
  function StatusFrom(output: string, phrases: seq<(string, string)>): (r: string)
    ensures r == "unknown" || exists k :: 0 <= k < |phrases| && r == phrases[k].1
    ensures forall k :: (0 <= k < |phrases| && Contains(output, phrases[k].0)
                         && forall j :: 0 <= j < k ==> !Contains(output, phrases[j].0)) ==> r == phrases[k].1
    ensures (forall k :: 0 <= k < |phrases| ==> !Contains(output, phrases[k].0)) ==> r == "unknown"
    decreases |phrases|
  {
    if |phrases| == 0 then "unknown"
    else if Contains(output, phrases[0].0) then phrases[0].1
    else
      var r := StatusFrom(output, phrases[1..]);
      assert forall k :: 1 <= k < |phrases| ==> phrases[k] == phrases[1..][k - 1];
      r
  }

  /** A line that starts a reasoning block. */
  predicate IsMarker(line: string) {
    Contains(line, "THINKING:") || Contains(line, "REASONING:")
  }

  /** A line with nothing but whitespace: Python's `not line.strip()`. */
  predicate Blank(line: string) {
    Strip(line) == []
  }

  /** How the reasoning loop reads a line: whether it is a marker line, whether it is blank,
      and how it is trimmed. The loop and its direct statement below are written over these so
      that their agreement holds whatever the three tests are. */
  datatype LineRules = LineRules(marker: string -> bool, blank: string -> bool, trim: string -> string)

  /** The tests `parse_agent_output` uses. */
  const Lines := LineRules(IsMarker, Blank, Strip)

  /** The state of the reasoning loop: the lines collected so far and whether it is collecting. */
  datatype Collector = Collector(lines: seq<string>, active: bool)

  /** One iteration of the reasoning loop. */
  function Step(rules: LineRules, c: Collector, line: string): Collector {
    if rules.marker(line) then Collector([], true)
    else if c.active && !rules.blank(line) then Collector(c.lines + [rules.trim(line)], true)
    else if c.active && rules.blank(line) && c.lines != [] then Collector(c.lines, false)
    else c
  }

  /** The reasoning loop after the lines `ls`, processed first to last. */
  function Collect(rules: LineRules, ls: seq<string>): Collector
    decreases |ls|
  {
    if |ls| == 0 then Collector([], false) else Step(rules, Collect(rules, ls[..|ls| - 1]), ls[|ls| - 1])
  }

  // The reasoning block, stated directly: the lines after the last marker line, with the
  // leading blank lines skipped, up to the next blank line, each trimmed.

  /** The position of the last marker line, or -1. */
  function LastMarker(rules: LineRules, ls: seq<string>): (r: int)
    ensures -1 <= r < |ls|
    decreases |ls|
  {
    if |ls| == 0 then -1
    else if rules.marker(ls[|ls| - 1]) then |ls| - 1
    else LastMarker(rules, ls[..|ls| - 1])
  }

  /** `LastMarker` finds a marker line, and no marker line comes after it. */
  lemma {:induction false} LastMarkerIsLast(rules: LineRules, ls: seq<string>)
    ensures var r := LastMarker(rules, ls);
      && (r >= 0 ==> rules.marker(ls[r]))
      && forall j :: r < j < |ls| ==> !rules.marker(ls[j])
    decreases |ls|
  {
    if |ls| > 0 && !rules.marker(ls[|ls| - 1]) {
      LastMarkerIsLast(rules, ls[..|ls| - 1]);
    }
  }

  /** `ls` without its leading blank lines. */
  function DropBlank(rules: LineRules, ls: seq<string>): (r: seq<string>)
    ensures |r| <= |ls|
    decreases |ls|
  {
    if |ls| == 0 then []
    else if rules.blank(ls[0]) then DropBlank(rules, ls[1..])
    else ls
  }

  /** `DropBlank` keeps a suffix, and drops blank lines only. */
  lemma {:induction false} DropBlankIsSuffix(rules: LineRules, ls: seq<string>)
    ensures var r := DropBlank(rules, ls);
      && r == ls[|ls| - |r|..]
      && (r == [] || !rules.blank(r[0]))
      && forall j :: 0 <= j < |ls| - |r| ==> rules.blank(ls[j])
    decreases |ls|
  {
    if |ls| > 0 && rules.blank(ls[0]) {
      DropBlankIsSuffix(rules, ls[1..]);
      assert forall j :: 1 <= j < |ls| ==> ls[j] == ls[1..][j - 1];
    }
  }

  /** The longest prefix of `ls` without a blank line. */
  function TakeNonBlank(rules: LineRules, ls: seq<string>): (r: seq<string>)
    ensures |r| <= |ls|
    decreases |ls|
  {
    if |ls| == 0 || rules.blank(ls[0]) then []
    else [ls[0]] + TakeNonBlank(rules, ls[1..])
  }

  /** `TakeNonBlank` keeps a prefix of non-blank lines, stopping at a blank one. */
  lemma {:induction false} TakeNonBlankIsPrefix(rules: LineRules, ls: seq<string>)
    ensures var r := TakeNonBlank(rules, ls);
      && r == ls[..|r|]
      && (forall j :: 0 <= j < |r| ==> !rules.blank(r[j]))
      && (|r| < |ls| ==> rules.blank(ls[|r|]))
    decreases |ls|
  {
    if |ls| > 0 && !rules.blank(ls[0]) {
      TakeNonBlankIsPrefix(rules, ls[1..]);
      var r := TakeNonBlank(rules, ls[1..]);
      assert ls[..|r| + 1] == [ls[0]] + ls[1..][..|r|];
    }
  }

  /** Each line trimmed. */
  function TrimAll(rules: LineRules, ls: seq<string>): (r: seq<string>)
    ensures |r| == |ls| && forall j :: 0 <= j < |ls| ==> r[j] == rules.trim(ls[j])
  {
    seq(|ls|, j requires 0 <= j < |ls| => rules.trim(ls[j]))
  }

  /** The collector after a marker line followed by the marker-free lines `rest`: the block
      is the first run of non-blank lines, and collecting goes on until a blank line ends it. */
  function AfterMarker(rules: LineRules, rest: seq<string>): Collector {
    var d := DropBlank(rules, rest);
    var t := TakeNonBlank(rules, d);
    Collector(TrimAll(rules, t), t == d)
  }

  /** The collector the loop should end with on `ls`. */
  function Expected(rules: LineRules, ls: seq<string>): Collector {
    var m := LastMarker(rules, ls);
    if m < 0 then Collector([], false) else AfterMarker(rules, ls[m + 1..])
  }

  /** Appending a line to a list whose leading blanks are dropped. */
  lemma {:induction false} DropBlankSnoc(rules: LineRules, ls: seq<string>, x: string)
    ensures DropBlank(rules, ls + [x]) ==
      if DropBlank(rules, ls) == [] then (if rules.blank(x) then [] else [x]) else DropBlank(rules, ls) + [x]
    decreases |ls|
  {
    if |ls| > 0 {
      assert (ls + [x])[1..] == ls[1..] + [x];
      if rules.blank(ls[0]) {
        DropBlankSnoc(rules, ls[1..], x);
      }
    }
  }

  /** Appending a line to a list whose first non-blank run is taken. */
  lemma {:induction false} TakeNonBlankSnoc(rules: LineRules, d: seq<string>, x: string)
    ensures TakeNonBlank(rules, d + [x]) ==
      if TakeNonBlank(rules, d) == d then (if rules.blank(x) then d else d + [x]) else TakeNonBlank(rules, d)
    decreases |d|
  {
    if |d| > 0 {
      assert (d + [x])[1..] == d[1..] + [x];
      if !rules.blank(d[0]) {
        TakeNonBlankSnoc(rules, d[1..], x);
        assert d == [d[0]] + d[1..];
        assert d + [x] == [d[0]] + (d[1..] + [x]);
      }
    }
  }

  /** Trimming distributes over appending a line. */
  lemma TrimAllSnoc(rules: LineRules, d: seq<string>, x: string)
    ensures TrimAll(rules, d + [x]) == TrimAll(rules, d) + [rules.trim(x)]
  {
  }

  /** After a marker, the loop's step agrees with the direct statement line by line. */
  lemma AfterMarkerSnoc(rules: LineRules, rest: seq<string>, x: string)
    requires !rules.marker(x)
    ensures AfterMarker(rules, rest + [x]) == Step(rules, AfterMarker(rules, rest), x)
  {
    var d := DropBlank(rules, rest);
    var t := TakeNonBlank(rules, d);
    var c := AfterMarker(rules, rest);
    assert c == Collector(TrimAll(rules, t), t == d);
    var d' := DropBlank(rules, rest + [x]);
    DropBlankSnoc(rules, rest, x);
    if d == [] {
      assert TakeNonBlank(rules, [x]) == if rules.blank(x) then [] else [x];
      assert TrimAll(rules, [x]) == [rules.trim(x)];
    } else {
      assert d' == d + [x];
      TakeNonBlankSnoc(rules, d, x);
      if t == d {
        assert |TrimAll(rules, d)| > 0;
        if !rules.blank(x) {
          TrimAllSnoc(rules, d, x);
        }
      } else {
        TakeNonBlankIsPrefix(rules, d);
        assert |t| < |d|;
      }
    }
  }

  /** The position of the last marker line after one more line. */
  lemma LastMarkerSnoc(rules: LineRules, init: seq<string>, x: string)
    ensures LastMarker(rules, init + [x]) == if rules.marker(x) then |init| else LastMarker(rules, init)
  {
    assert (init + [x])[..|init|] == init;
  }

  /** A marker line restarts the block. */
  lemma ExpectedAfterMarkerLine(rules: LineRules, init: seq<string>, x: string)
    requires rules.marker(x)
    ensures Expected(rules, init + [x]) == Collector([], true)
  {
    var ls := init + [x];
    LastMarkerSnoc(rules, init, x);
    assert ls[|ls|..] == [];
    assert DropBlank(rules, []) == [];
    assert TakeNonBlank(rules, []) == [];
    assert TrimAll(rules, []) == [];
  }

  /** A line that is not a marker moves the direct statement on as one step of the loop. */
  lemma ExpectedAfterPlainLine(rules: LineRules, init: seq<string>, x: string)
    requires !rules.marker(x)
    ensures Expected(rules, init + [x]) == Step(rules, Expected(rules, init), x)
  {
    var ls := init + [x];
    LastMarkerSnoc(rules, init, x);
    var m := LastMarker(rules, init);
    if m >= 0 {
      var rest := init[m + 1..];
      assert Expected(rules, init) == AfterMarker(rules, rest);
      assert ls[m + 1..] == rest + [x];
      assert Expected(rules, ls) == AfterMarker(rules, rest + [x]);
      AfterMarkerSnoc(rules, rest, x);
    }
  }

  /** The direct statement, one line further on, is one step of the loop. */
  lemma ExpectedSnoc(rules: LineRules, init: seq<string>, x: string)
    ensures Expected(rules, init + [x]) == Step(rules, Expected(rules, init), x)
  {
    if rules.marker(x) {
      ExpectedAfterMarkerLine(rules, init, x);
    } else {
      ExpectedAfterPlainLine(rules, init, x);
    }
  }

  /** The reasoning loop computes the block stated directly: only the last marker line counts,
      and its block is the first run of non-blank lines after it, trimmed. */
  lemma {:induction false} CollectIsReference(rules: LineRules, ls: seq<string>)
    ensures Collect(rules, ls) == Expected(rules, ls)
    decreases |ls|
  {
    if |ls| > 0 {
      var init, x := ls[..|ls| - 1], ls[|ls| - 1];
      assert ls == init + [x];
      CollectIsReference(rules, init);
      ExpectedSnoc(rules, init, x);
    }
  }

  /** Every collected line is the trim of a non-blank input line. */
  lemma CollectedFrom(rules: LineRules, ls: seq<string>)
    ensures var c := Expected(rules, ls).lines;
      forall j :: 0 <= j < |c| ==> exists i :: 0 <= i < |ls| && !rules.blank(ls[i]) && c[j] == rules.trim(ls[i])
  {
    var m := LastMarker(rules, ls);
    if m >= 0 {
      var rest := ls[m + 1..];
      var d := DropBlank(rules, rest);
      var t := TakeNonBlank(rules, d);
      var c := TrimAll(rules, t);
      DropBlankIsSuffix(rules, rest);
      TakeNonBlankIsPrefix(rules, d);
      forall j | 0 <= j < |c|
        ensures exists i :: 0 <= i < |ls| && !rules.blank(ls[i]) && c[j] == rules.trim(ls[i])
      {
        var i := m + 1 + |rest| - |d| + j;
        assert t[j] == ls[i];
      }
    }
  }

  /** `parse_agent_output`. The task is the stripped first group of the search for a
      "Working on task" line, which is given as `taskSearch` (None when nothing matches). */
  function ParseAgentOutput(output: string, taskSearch: string -> Option<string>): (r: AgentView)
    ensures output == "" ==> r == AgentView("unknown", None, None)
    ensures output != "" ==> r.status == StatusFrom(output, StatusPhrases)
    ensures output != "" ==> r.task == (if taskSearch(output).Some? then Some(Strip(taskSearch(output).value)) else None)
    ensures output != "" ==> (r.content.None? <==> Expected(Lines, Split(output, '\n')).lines == [])
    ensures r.content.Some? ==> r.content.value == Join(Expected(Lines, Split(output, '\n')).lines, "\n")
  {
    if output == "" then AgentView("unknown", None, None)
    else
      var found := taskSearch(output);
      var task := if found.Some? then Some(Strip(found.value)) else None;
      var lines := Collect(Lines, Split(output, '\n')).lines;
      CollectIsReference(Lines, Split(output, '\n'));
      AgentView(StatusFrom(output, StatusPhrases), task, if lines == [] then None else Some(Join(lines, "\n")))
  }

  /** The status precedence: "Sleeping" wins over everything, then "Working on task", then
      "Waiting for tasks", then "API Error", then "Executing command". */
  lemma StatusPrecedence(output: string, taskSearch: string -> Option<string>)
    requires output != ""
    ensures var s := ParseAgentOutput(output, taskSearch).status;
      && (Contains(output, "Sleeping") ==> s == "sleeping")
      && ((!Contains(output, "Sleeping") && Contains(output, "Working on task")) ==> s == "working")
      && ((!Contains(output, "Sleeping") && !Contains(output, "Working on task")
           && Contains(output, "Waiting for tasks")) ==> s == "waiting")
      && ((!Contains(output, "Sleeping") && !Contains(output, "Working on task")
           && !Contains(output, "Waiting for tasks") && Contains(output, "API Error")) ==> s == "error")
      && ((!Contains(output, "Sleeping") && !Contains(output, "Working on task")
           && !Contains(output, "Waiting for tasks") && !Contains(output, "API Error")
           && Contains(output, "Executing command")) ==> s == "executing")
      && ((!Contains(output, "Sleeping") && !Contains(output, "Working on task")
           && !Contains(output, "Waiting for tasks") && !Contains(output, "API Error")
           && !Contains(output, "Executing command")) ==> s == "unknown")
  {
    var p := StatusPhrases;
    assert p[0].0 == "Sleeping" && p[1].0 == "Working on task" && p[2].0 == "Waiting for tasks";
    assert p[3].0 == "API Error" && p[4].0 == "Executing command";
  }

  /** A piece of a text that lacks `c` lacks `c` too. */
  lemma CharAbsentFromPiece(t: string, r: string, c: char)
    requires IsInfix(r, t) && c !in t
    ensures c !in r
  {
    var i :| OccursAt(t, r, i);
    forall k | 0 <= k < |r| ensures r[k] != c {
      assert r[k] == t[i + k];
    }
  }

  /** The collected lines are stripped, non-empty and free of line breaks when the input
      lines are. */
  lemma CollectedLinesClean(pieces: seq<string>)
    requires forall i :: 0 <= i < |pieces| ==> '\n' !in pieces[i]
    ensures var ls := Expected(Lines, pieces).lines;
      forall j :: 0 <= j < |ls| ==> ls[j] != [] && '\n' !in ls[j] && Strip(ls[j]) == ls[j]
  {
    var ls := Expected(Lines, pieces).lines;
    CollectedFrom(Lines, pieces);
    forall j | 0 <= j < |ls| ensures ls[j] != [] && '\n' !in ls[j] && Strip(ls[j]) == ls[j] {
      var i :| 0 <= i < |pieces| && !Lines.blank(pieces[i]) && ls[j] == Lines.trim(pieces[i]);
      var p := pieces[i];
      assert !Blank(p) && ls[j] == Strip(p);
      CleanLine(p);
    }
  }

  /** A non-blank line without a line break strips to a non-empty, stripped piece without one. */
  lemma CleanLine(p: string)
    requires '\n' !in p && !Blank(p)
    ensures var s := Strip(p); s != [] && '\n' !in s && Strip(s) == s
  {
    StripIsPiece(p);
    CharAbsentFromPiece(p, Strip(p), '\n');
    StripNoop(Strip(p));
  }

  /** The reported content splits back at line breaks into exactly the collected lines. */
  lemma ContentSplitsBack(output: string, taskSearch: string -> Option<string>)
    ensures var r := ParseAgentOutput(output, taskSearch);
      r.content.Some? ==> Split(r.content.value, '\n') == Expected(Lines, Split(output, '\n')).lines
  {
    var r := ParseAgentOutput(output, taskSearch);
    if r.content.Some? {
      var ls := Expected(Lines, Split(output, '\n')).lines;
      CollectedLinesClean(Split(output, '\n'));
      SplitJoin(ls, '\n');
    }
  }

  // ---------------------------------------------------------------------------------------
  // get_active_tasks

  /** A JSON value as loaded from the state file; only the shapes the viewer tests are told
      apart. */
  datatype Json = JString(s: string) | JList(items: seq<Json>) | JObject(fields: seq<(string, Json)>) | JOther

  /** The display name of a branch bucket. */
  function DisplayName(branch: string): string {
    if branch == "login" then "Agent1 (Login)"
    else if branch == "dashboard" then "Agent2 (Dashboard)"
    else if branch == "api" then "Agent3 (API)"
    else if branch == "main" then "Team Lead"
    else branch
  }

  /** A task object whose "status" is the string "completed". */
  predicate Completed(t: Json) {
    t.JObject? && Get(t.fields, "status") == Some(JString("completed"))
  }

  /** A task object that is not completed (a missing or non-string status counts as open). */
  predicate Open(t: Json) {
    t.JObject? && !Completed(t)
  }

  /** The open task objects of a bucket, in bucket order and each as often as the bucket
      holds it; other entries are skipped. */
  function ActiveOf(items: seq<Json>): (r: seq<Json>)
    ensures forall t :: t in r <==> t in items && Open(t)
    ensures Seqs.Subseq(r, items)
    ensures forall t :: multiset(r)[t] == if Open(t) then multiset(items)[t] else 0
  {
    Seqs.Filter(items, Open)
  }

  /** `get_active_tasks` over the state's `tasks` dictionary, entries processed first to last:
      every list bucket is (re)bound, under its display name, to its open task objects;
      buckets that are not lists are skipped. */
  function GetActiveTasks(tasks: OMap<string, Json>): (r: OMap<string, seq<Json>>)
    ensures DistinctKeys(r)
    ensures forall n :: HasKey(r, n) <==> exists b :: b in tasks && b.1.JList? && DisplayName(b.0) == n
    ensures forall n, ts :: (n, ts) in r ==> forall t :: t in ts ==> Open(t)
    decreases |tasks|
  {
    if |tasks| == 0 then []
    else
      var init := tasks[..|tasks| - 1];
      var b := tasks[|tasks| - 1];
      var acc := GetActiveTasks(init);
      assert forall e :: e in tasks <==> e in init || e == b by {
        assert tasks == init + [b];
      }
      if b.1.JList? then
        var name := DisplayName(b.0);
        var r := Put(acc, name, ActiveOf(b.1.items));
        assert forall n :: HasKey(r, n) <==> exists e :: e in tasks && e.1.JList? && DisplayName(e.0) == n by {
          forall n ensures HasKey(r, n) <==> exists e :: e in tasks && e.1.JList? && DisplayName(e.0) == n {
            if n != name {
              assert Get(r, n) == Get(acc, n);
            }
          }
        }
        assert forall n, ts :: (n, ts) in r ==> forall t :: t in ts ==> Open(t) by {
          forall n, ts | (n, ts) in r ensures forall t :: t in ts ==> Open(t) {
            if n != DisplayName(b.0) {
              assert Get(r, n) == Some(ts);
              assert (n, ts) in acc;
            }
          }
        }
        r
      else
        assert forall n :: HasKey(acc, n) <==> exists e :: e in tasks && e.1.JList? && DisplayName(e.0) == n;
        acc
  }

  /** The display names of the list buckets, first to last, repeats included. */
  function ListNames(tasks: OMap<string, Json>): seq<string>
    decreases |tasks|
  {
    if |tasks| == 0 then []
    else
      var b := tasks[|tasks| - 1];
      ListNames(tasks[..|tasks| - 1]) + (if b.1.JList? then [DisplayName(b.0)] else [])
  }

  /** The names come in the order their first list buckets do, each once, as a Python
      dictionary keeps the position of a key's first insertion when the key is assigned again. */
  lemma {:induction false} ActiveNamesInFirstOrder(tasks: OMap<string, Json>)
    ensures Keys(GetActiveTasks(tasks)) == Seqs.Dedup(ListNames(tasks))
    decreases |tasks|
  {
    if |tasks| > 0 {
      var init := tasks[..|tasks| - 1];
      var b := tasks[|tasks| - 1];
      var acc := GetActiveTasks(init);
      ActiveNamesInFirstOrder(init);
      if b.1.JList? {
        var name := DisplayName(b.0);
        assert ListNames(tasks) == ListNames(init) + [name];
        if !HasKey(acc, name) {
          assert Keys(acc + [(name, ActiveOf(b.1.items))]) == Keys(acc) + [name];
        }
      } else {
        assert ListNames(tasks) == ListNames(init) + [] == ListNames(init);
        assert GetActiveTasks(tasks) == acc;
      }
    }
  }

  /** The bucket at position `k` is a list, and no later list bucket has the same display name. */
  predicate LastListNamed(tasks: OMap<string, Json>, n: string, k: int) {
    && 0 <= k < |tasks| && tasks[k].1.JList? && DisplayName(tasks[k].0) == n
    && forall j :: k < j < |tasks| && tasks[j].1.JList? ==> DisplayName(tasks[j].0) != n
  }

  /** The entry for a display name holds the open tasks of the last list bucket shown under
      that name: with two branches shown alike (say "login" and "Agent1 (Login)"), the later
      one replaces the earlier one's tasks. */
  lemma {:induction false} LastBucketWins(tasks: OMap<string, Json>, n: string, k: int)
    requires LastListNamed(tasks, n, k)
    ensures Get(GetActiveTasks(tasks), n) == Some(ActiveOf(tasks[k].1.items))
    decreases |tasks|
  {
    var init := tasks[..|tasks| - 1];
    var b := tasks[|tasks| - 1];
    if k < |tasks| - 1 {
      assert LastListNamed(init, n, k);
      LastBucketWins(init, n, k);
    }
  }

  /** An open task of a list bucket is listed under the bucket's display name when no later
      list bucket has that name. */
  lemma OpenTaskListed(tasks: OMap<string, Json>, k: int, t: Json)
    requires 0 <= k < |tasks|
    requires LastListNamed(tasks, DisplayName(tasks[k].0), k)
    requires t in tasks[k].1.items && Open(t)
    ensures exists ts :: Get(GetActiveTasks(tasks), DisplayName(tasks[k].0)) == Some(ts) && t in ts
  {
    LastBucketWins(tasks, DisplayName(tasks[k].0), k);
  }
}

=== FILE: agent_repo.dfy ===
/** Agent management of `SharedState` (src/core/state_manager.py): register, status update
    and the filtered listing. Each operation maps the loaded document to the document to
    persist and the value returned to the caller. */
module AgentRepo {
  import opened Wrappers
  import opened OrderedMaps
  import opened StateSchema
  import Seqs

  /** The record `register_agent` stores for a new or re-registered agent. */
  function FreshAgent(agentType: string, capabilities: seq<string>, now: real): Agent {
    Agent(agentType, capabilities, "active", now, now, 0, [])
  }

  /** `register_agent`: refused once the registry holds `maxAgents` entries (`config.MAX_AGENTS`,
      `MaxAgents` as configured), even for an id already present; otherwise the id is
      (re)bound to a fresh active record. */
  function RegisterAgent(d: Document, maxAgents: nat, agentId: string, agentType: string, capabilities: seq<string>, now: real)
    : (r: (Document, bool))
    ensures |d.agents| >= maxAgents ==> r == (d, false)
    ensures |d.agents| < maxAgents ==>
      && r.1
      && r.0 == d.(agents := r.0.agents)
      && Get(r.0.agents, agentId) == Some(FreshAgent(agentType, capabilities, now))
      && (forall a :: a != agentId ==> Get(r.0.agents, a) == Get(d.agents, a))
      && Keys(r.0.agents) == (if HasKey(d.agents, agentId) then Keys(d.agents) else Keys(d.agents) + [agentId])
    ensures Valid(d) ==> Valid(r.0)
  {
    if |d.agents| >= maxAgents then (d, false)
    else (d.(agents := Put(d.agents, agentId, FreshAgent(agentType, capabilities, now))), true)
  }

  /** Registration never takes the registry past the limit. */
  lemma RegisterAgentBounded(d: Document, maxAgents: nat, agentId: string, agentType: string, capabilities: seq<string>, now: real)
    requires |d.agents| <= maxAgents
    ensures |RegisterAgent(d, maxAgents, agentId, agentType, capabilities, now).0.agents| <= maxAgents
  {
    var r := RegisterAgent(d, maxAgents, agentId, agentType, capabilities, now).0;
    if |d.agents| < maxAgents {
      assert |Keys(r.agents)| <= |Keys(d.agents)| + 1;
    }
  }

  /** `update_agent_status`: unknown ids are refused; otherwise only that agent's status and
      last-active time change. */
  function UpdateAgentStatus(d: Document, agentId: string, status: string, now: real): (r: (Document, bool))
    ensures r.1 <==> HasKey(d.agents, agentId)
    ensures !r.1 ==> r.0 == d
    ensures r.1 ==>
      && r.0 == d.(agents := r.0.agents)
      && Keys(r.0.agents) == Keys(d.agents)
      && Get(r.0.agents, agentId) == Some(Get(d.agents, agentId).value.(status := status, lastActive := now))
      && (forall a :: a != agentId ==> Get(r.0.agents, a) == Get(d.agents, a))
    ensures Valid(d) ==> Valid(r.0)
  {
    match Get(d.agents, agentId)
    case None => (d, false)
    case Some(a) => (d.(agents := Put(d.agents, agentId, a.(status := status, lastActive := now))), true)
  }

  /** The filters of `get_agents`, each skipped when absent. */
  predicate AgentMatches(a: Agent, status: Option<string>, agentType: Option<string>) {
    (status.None? || a.status == status.value) && (agentType.None? || a.agentType == agentType.value)
  }

  /** `get_agents`: the (id, record) pairs passing both filters, in registry order and each
      as often as the registry holds it (once, as its keys are distinct). */
  function GetAgents(d: Document, status: Option<string>, agentType: Option<string>): (r: seq<(string, Agent)>)
    ensures |r| <= |d.agents|
    ensures forall p :: p in r <==> p in d.agents && AgentMatches(p.1, status, agentType)
    ensures Seqs.Subseq(r, d.agents)
    ensures forall p :: multiset(r)[p] == if AgentMatches(p.1, status, agentType) then multiset(d.agents)[p] else 0
  {
    Seqs.Filter(d.agents, (p: (string, Agent)) => AgentMatches(p.1, status, agentType))
  }

  /** A successful registration is visible to `get_agents` without filters, with the record
      `register_agent` wrote; registered into an empty registry, it is the only agent listed. */
  lemma RegisteredAgentListed(d: Document, maxAgents: nat, agentId: string, agentType: string, capabilities: seq<string>, now: real)
    requires |d.agents| < maxAgents
    ensures var listed := GetAgents(RegisterAgent(d, maxAgents, agentId, agentType, capabilities, now).0, None, None);
      && (agentId, FreshAgent(agentType, capabilities, now)) in listed
      && (d.agents == [] ==> listed == [(agentId, FreshAgent(agentType, capabilities, now))])
  {
    var d' := RegisterAgent(d, maxAgents, agentId, agentType, capabilities, now).0;
    var e := (agentId, FreshAgent(agentType, capabilities, now));
    assert e in d'.agents;
    if d.agents == [] {
      assert d'.agents == [e];
      OnlyListed(d', e);
    }
  }

  /** The one agent of a one-entry registry is all `get_agents` lists without filters. */
  lemma OnlyListed(d: Document, e: (string, Agent))
    requires d.agents == [e]
    ensures GetAgents(d, None, None) == [e]
  {
    var listed := GetAgents(d, None, None);
    assert e in listed;
    assert |listed| <= 1;
    assert listed[0] == e;
  }
}

=== FILE: branch_repo.dfy ===
/** Branch and pull-request management of `SharedState` (src/core/state_manager.py):
    registering a branch, opening, updating and listing pull requests. */
module BranchRepo {
  import opened Wrappers
  import opened OrderedMaps
  import opened StateSchema
  import Seqs

  /** `register_branch`: refused when the name is taken; otherwise the branch is added, as
      "active", after every existing branch. */
  function RegisterBranch(d: Document, name: string, description: string, owner: string, now: real)
    : (r: (Document, bool))
    ensures r.1 <==> !HasKey(d.branches, name)
    ensures !r.1 ==> r.0 == d
    ensures r.1 ==>
      && r.0 == d.(branches := r.0.branches)
      && Keys(r.0.branches) == Keys(d.branches) + [name]
      && Get(r.0.branches, name) == Some(Branch(description, owner, now, "active"))
      && (forall b :: b != name ==> Get(r.0.branches, b) == Get(d.branches, b))
    ensures Valid(d) ==> Valid(r.0)
  {
    if HasKey(d.branches, name) then (d, false)
    else (d.(branches := Put(d.branches, name, Branch(description, owner, now, "active"))), true)
  }

  /** The record `create_pull_request` stores: open, no comments, no approvals. */
  function OpenPullRequest(title: string, description: string, source: string, target: string,
                           author: string, now: real): PullRequest {
    PullRequest(title, description, source, target, author, "open", now, now, [], [])
  }

  /** `create_pull_request`: refused when the id is taken; otherwise an open pull request
      is added under the id and nothing else changes. */
  function CreatePullRequest(d: Document, prId: string, title: string, description: string,
                             source: string, target: string, author: string, now: real): (r: (Document, bool))
    ensures r.1 <==> !HasKey(d.pullRequests, prId)
    ensures !r.1 ==> r.0 == d
    ensures r.1 ==>
      && r.0 == d.(pullRequests := r.0.pullRequests)
      && Keys(r.0.pullRequests) == Keys(d.pullRequests) + [prId]
      && Get(r.0.pullRequests, prId) == Some(OpenPullRequest(title, description, source, target, author, now))
      && (forall p :: p != prId ==> Get(r.0.pullRequests, p) == Get(d.pullRequests, p))
    ensures Valid(d) ==> Valid(r.0)
  {
    if HasKey(d.pullRequests, prId) then (d, false)
    else (d.(pullRequests := Put(d.pullRequests, prId, OpenPullRequest(title, description, source, target, author, now))), true)
  }

  /** The authors of a pull request's approvals, in order. */
  function Approvers(pr: PullRequest): (r: seq<string>)
    ensures |r| == |pr.approvals|
    ensures forall i :: 0 <= i < |r| ==> r[i] == pr.approvals[i].author
  {
    seq(|pr.approvals|, i requires 0 <= i < |pr.approvals| => pr.approvals[i].author)
  }

  /** No author has approved twice. */
  ghost predicate ApproversDistinct(pr: PullRequest) {
    forall i, j :: 0 <= i < j < |pr.approvals| ==> pr.approvals[i].author != pr.approvals[j].author
  }

  /** The change `update_pull_request` makes to a found pull request. The comment is its
      (author, content) pair and the approval its author; None stands for an argument that
      is absent or an empty dictionary. */
  function Revise(pr: PullRequest, status: Option<string>, comment: Option<(string, string)>,
                  approval: Option<string>, now: real): (r: PullRequest)
    ensures r.updatedAt == now
    ensures r.status == (if Truthy(status) then status.value else pr.status)
    ensures r.comments == pr.comments + (if comment.Some? then [Comment(comment.value.0, comment.value.1, now)] else [])
    ensures approval.Some? && approval.value !in Approvers(pr) ==> r.approvals == pr.approvals + [Approval(approval.value, now)]
    ensures approval.None? || approval.value in Approvers(pr) ==> r.approvals == pr.approvals
    ensures r == pr.(updatedAt := now, status := r.status, comments := r.comments, approvals := r.approvals)
    ensures ApproversDistinct(pr) ==> ApproversDistinct(r)
    ensures approval.Some? ==> approval.value in Approvers(r)
  {
    var pr1 := pr.(updatedAt := now);
    var pr2 := if Truthy(status) then pr1.(status := status.value) else pr1;
    var pr3 := if comment.Some? then pr2.(comments := pr2.comments + [Comment(comment.value.0, comment.value.1, now)]) else pr2;
    if approval.Some? && approval.value !in Approvers(pr3) then
      var r := pr3.(approvals := pr3.approvals + [Approval(approval.value, now)]);
      assert Approvers(r)[|pr.approvals|] == approval.value;
      r
    else pr3
  }

  /** `update_pull_request`: false with nothing changed for an unknown id; otherwise only
      that pull request is revised, in place. */
  function UpdatePullRequest(d: Document, prId: string, status: Option<string>, comment: Option<(string, string)>,
                             approval: Option<string>, now: real): (r: (Document, bool))
    ensures r.1 <==> HasKey(d.pullRequests, prId)
    ensures !r.1 ==> r.0 == d
    ensures r.1 ==>
      && r.0 == d.(pullRequests := r.0.pullRequests)
      && Keys(r.0.pullRequests) == Keys(d.pullRequests)
      && Get(r.0.pullRequests, prId) == Some(Revise(Get(d.pullRequests, prId).value, status, comment, approval, now))
      && (forall p :: p != prId ==> Get(r.0.pullRequests, p) == Get(d.pullRequests, p))
    ensures Valid(d) ==> Valid(r.0)
  {
    match Get(d.pullRequests, prId)
    case None => (d, false)
    case Some(pr) => (d.(pullRequests := Put(d.pullRequests, prId, Revise(pr, status, comment, approval, now))), true)
  }

  /** Repeating an approval adds nothing: the approvals after two identical updates are
      those after the first. */
  lemma ApprovalIdempotent(d: Document, prId: string, author: string, now1: real, now2: real)
    ensures var d1 := UpdatePullRequest(d, prId, None, None, Some(author), now1).0;
      var d2 := UpdatePullRequest(d1, prId, None, None, Some(author), now2).0;
      HasKey(d.pullRequests, prId) ==>
        Get(d2.pullRequests, prId).value.approvals == Get(d1.pullRequests, prId).value.approvals
  {
  }

  /** Every pull request the operations produce has at most one approval per author. */
  ghost predicate ApprovalsUnique(d: Document) {
    forall i :: 0 <= i < |d.pullRequests| ==> ApproversDistinct(d.pullRequests[i].1)
  }

  /** Creating and updating pull requests keep approvals unique per author. */
  lemma {:induction false} ApprovalsStayUnique(d: Document, prId: string, title: string, description: string,
                                               source: string, target: string, author: string,
                                               status: Option<string>, comment: Option<(string, string)>,
                                               approval: Option<string>, now: real)
    requires Valid(d) && ApprovalsUnique(d)
    ensures ApprovalsUnique(CreatePullRequest(d, prId, title, description, source, target, author, now).0)
    ensures ApprovalsUnique(UpdatePullRequest(d, prId, status, comment, approval, now).0)
  {
    var c := CreatePullRequest(d, prId, title, description, source, target, author, now).0;
    forall i | 0 <= i < |c.pullRequests| ensures ApproversDistinct(c.pullRequests[i].1) {
      GetAt(c.pullRequests, i);
      var k := c.pullRequests[i].0;
      if k != prId || HasKey(d.pullRequests, prId) {
        var j := IndexOf(d.pullRequests, k);
        assert Get(c.pullRequests, k) == Get(d.pullRequests, k);
        GetAt(d.pullRequests, j);
      }
    }
    var u := UpdatePullRequest(d, prId, status, comment, approval, now).0;
    forall i | 0 <= i < |u.pullRequests| ensures ApproversDistinct(u.pullRequests[i].1) {
      GetAt(u.pullRequests, i);
      var k := u.pullRequests[i].0;
      assert HasKey(d.pullRequests, k) by {
        assert k in Keys(u.pullRequests);
      }
      var j := IndexOf(d.pullRequests, k);
      GetAt(d.pullRequests, j);
    }
  }

  /** The filter of `get_pull_requests`. */
  predicate PullRequestMatches(pr: PullRequest, status: Option<string>) {
    status.None? || pr.status == status.value
  }

  /** `get_pull_requests`: the (id, record) pairs with the requested status, in insertion order
      and each as often as the dictionary holds it. */
  function GetPullRequests(d: Document, status: Option<string>): (r: seq<(string, PullRequest)>)
    ensures |r| <= |d.pullRequests|
    ensures forall p :: p in r <==> p in d.pullRequests && PullRequestMatches(p.1, status)
    ensures Seqs.Subseq(r, d.pullRequests)
    ensures forall p :: multiset(r)[p] == if PullRequestMatches(p.1, status) then multiset(d.pullRequests)[p] else 0
  {
    Seqs.Filter(d.pullRequests, (p: (string, PullRequest)) => PullRequestMatches(p.1, status))
  }

  /** A pull request just created is listed among the open ones. */
  lemma CreatedPullRequestListed(d: Document, prId: string, title: string, description: string,
                                 source: string, target: string, author: string, now: real)
    requires !HasKey(d.pullRequests, prId)
    ensures (prId, OpenPullRequest(title, description, source, target, author, now))
      in GetPullRequests(CreatePullRequest(d, prId, title, description, source, target, author, now).0, Some("open"))
  {
    var d' := CreatePullRequest(d, prId, title, description, source, target, author, now).0;
    assert d'.pullRequests[|d.pullRequests|] == (prId, OpenPullRequest(title, description, source, target, author, now));
  }
}

=== FILE: env_loader.dfy ===
/** The `.env` handling of src/utils/env_loader.py: the per-line parser of `load_env`, the
    in-order application of its assignments to the environment, and the upward search of
    `find_dotenv`. The file's lines and the set of existing files are given as values. */
module EnvLoader {
  import opened Wrappers
  import opened OrderedMaps
  import opened Text
  import Seqs

  /** What one line of a `.env` file asks for. */
  datatype Line = Skip | Assign(key: string, value: string)

  /** The value starts and ends with the same quote character (a lone quote counts). */
  predicate Quoted(v: string) {
    |v| >= 1 && ((v[0] == '"' && v[|v| - 1] == '"') || (v[0] == '\'' && v[|v| - 1] == '\''))
  }

  /** `value[1:-1]` for a quoted value: exactly one outer pair of quotes is removed. */
  function Unquote(v: string): (r: string)
    ensures Quoted(v) && |v| >= 2 ==> r == v[1..|v| - 1]
    ensures Quoted(v) && |v| < 2 ==> r == ""
    ensures !Quoted(v) ==> r == v
  {
    if !Quoted(v) then v
    else if |v| >= 2 then v[1..|v| - 1]
    else ""
  }

  /** Quoting a value with either quote character and unquoting it gives the value back. */
  lemma UnquoteRoundTrip(x: string)
    ensures Unquote("\"" + x + "\"") == x
    ensures Unquote("'" + x + "'") == x
  {
    assert ("\"" + x + "\"")[1..|x| + 1] == x;
    assert ("'" + x + "'")[1..|x| + 1] == x;
  }

  /** The stripped line with one leading "export " removed. */
  function Body(line: string): (r: string)
    ensures StartsWith(Strip(line), "export ") ==> Strip(line) == "export " + r
    ensures !StartsWith(Strip(line), "export ") ==> r == Strip(line)
  {
    var l := Strip(line);
    if StartsWith(l, "export ") then
      assert l == l[..7] + l[7..];
      l[7..]
    else l
  }

  /** The stripped line is blank or a comment. */
  predicate Ignored(line: string) {
    Strip(line) == "" || Strip(line)[0] == '#'
  }

  /** Every character of `s.strip()` occurs in `s`. */
  lemma StripChars(s: string)
    ensures forall c :: c in Strip(s) ==> c in s
  {
    var r := Strip(s);
    var a := |s| - |LStrip(s)|;
    forall c | c in r ensures c in s {
      var j :| 0 <= j < |r| && r[j] == c;
      assert s[a + j] == c;
    }
  }

  /** What the loop of `load_env` takes from the body of a line that is neither blank nor a
      comment: nothing without an '='; otherwise the key is the stripped text before the first
      '=' and the value the stripped, unquoted text after it, so values may contain '='. */
  function ParseBody(b: string): (r: Line)
    ensures r.Assign? ==> var i := IndexOfChar(b, '=');
      && 0 <= i < |b|
      && r.key == Strip(b[..i])
      && r.value == Unquote(Strip(b[i + 1..]))
  {
    var i := IndexOfChar(b, '=');
    if i < 0 then Skip else Assign(Strip(b[..i]), Unquote(Strip(b[i + 1..])))
  }

  /** A body is an assignment exactly when it holds an '='. */
  lemma AssignsIffEquals(b: string)
    ensures ParseBody(b).Assign? <==> '=' in b
  {
  }

  /** A parsed key never holds '=': it comes from the text before the first one. */
  lemma ParsedKeyHasNoEquals(b: string)
    requires ParseBody(b).Assign?
    ensures '=' !in ParseBody(b).key
  {
    var i := IndexOfChar(b, '=');
    StripChars(b[..i]);
  }

  /** One iteration of the loop of `load_env`: blank lines and comments ask for nothing; any
      other line is parsed from its body. */
  function ParseLine(line: string): (r: Line)
    ensures Ignored(line) ==> r == Skip
    ensures !Ignored(line) ==> r == ParseBody(Body(line))
  {
    if Ignored(line) then Skip else ParseBody(Body(line))
  }

  /** The first '=' of `b` ends the key part, which strips to `k`, and the rest strips and
      unquotes to `v`. */
  predicate SplitsInto(b: string, k: string, v: string) {
    && |k| < |b| && IndexOfChar(b, '=') == |k|
    && Strip(b[..|k|]) == k && Unquote(Strip(b[|k| + 1..])) == v
  }

  /** Such a body parses to that assignment. */
  lemma ParseBodySplit(b: string, k: string, v: string)
    requires SplitsInto(b, k, v)
    ensures ParseBody(b) == Assign(k, v)
  {
  }

  /** A key the loader can write: `KEY="value"` with no whitespace or '=' in the key. */
  predicate PlainKey(k: string) {
    k != [] && k[0] != '#' && forall c :: c in k ==> !IsSpace(c) && c != '='
  }

  /** The line `KEY="value"`. */
  function Format(k: string, v: string): string {
    k + "=\"" + v + "\""
  }

  /** A formatted line has nothing to strip. */
  lemma FormatStripped(k: string, v: string)
    requires PlainKey(k)
    ensures Strip(Format(k, v)) == Format(k, v)
  {
    var line := Format(k, v);
    assert line[0] == k[0] && line[|line| - 1] == '"';
    assert k[0] in k;
    StripNoop(line);
  }

  /** A string differing from a prefix at one of its positions does not start with it. */
  lemma DiffersAt(s: string, p: string, i: int)
    requires 0 <= i < |p| && i < |s| && s[i] != p[i]
    ensures !StartsWith(s, p)
  {
    if |p| <= |s| {
      assert s[..|p|][i] == s[i];
    }
  }

  /** A formatted line does not start with "export ": its key holds no space, and a key
      shorter than the prefix meets '=' where the prefix has a letter or a space. */
  lemma FormatNotExport(k: string, v: string)
    requires PlainKey(k)
    ensures !StartsWith(Format(k, v), "export ")
  {
    var line := Format(k, v);
    var p: string := "export ";
    if |k| >= 7 {
      assert line[6] == k[6];
      assert k[6] in k;
      DiffersAt(line, p, 6);
    } else {
      assert line[|k|] == '=';
      assert p[|k|] != '=';
      DiffersAt(line, p, |k|);
    }
  }

  /** A line with nothing to strip, no leading "export " and a first character other than
      '#' is its own body and is neither blank nor a comment. */
  lemma OwnBody(line: string)
    requires line != [] && line[0] != '#'
    requires Strip(line) == line && !StartsWith(line, "export ")
    ensures !Ignored(line) && Body(line) == line
  {
  }

  /** A formatted line is its own body and is neither blank nor a comment. */
  lemma FormatBody(k: string, v: string)
    requires PlainKey(k)
    ensures !Ignored(Format(k, v)) && Body(Format(k, v)) == Format(k, v)
  {
    var line := Format(k, v);
    assert line != [] && line[0] != '#' by {
      assert line[0] == k[0];
    }
    assert Strip(line) == line by {
      FormatStripped(k, v);
    }
    assert !StartsWith(line, "export ") by {
      FormatNotExport(k, v);
    }
    OwnBody(line);
  }

  /** The first '=' of a formatted line is the one after the key. */
  lemma FormatEquals(k: string, v: string)
    requires PlainKey(k)
    ensures IndexOfChar(Format(k, v), '=') == |k|
  {
    var line := Format(k, v);
    assert line[|k|] == '=';
    forall j | 0 <= j < |k| ensures line[j] != '=' {
      assert line[j] == k[j];
      assert k[j] in k;
    }
    IndexOfCharAt(line, '=', |k|);
  }

  /** The key of a formatted line is already stripped. */
  lemma PlainKeyStripped(k: string)
    requires PlainKey(k)
    ensures Strip(k) == k
  {
    assert k[0] in k && k[|k| - 1] in k;
    StripNoop(k);
  }

  /** The value part of a formatted line unquotes to the value. */
  lemma FormatValue(k: string, v: string)
    ensures Unquote(Strip(Format(k, v)[|k| + 1..])) == v
  {
    var rest := Format(k, v)[|k| + 1..];
    assert rest == "\"" + v + "\"";
    assert rest[0] == '"' && rest[|rest| - 1] == '"';
    StripNoop(rest);
    UnquoteRoundTrip(v);
  }

  /** The key part of a formatted line strips to the key. */
  lemma FormatKey(k: string, v: string)
    requires PlainKey(k)
    ensures Strip(Format(k, v)[..|k|]) == k
  {
    assert Format(k, v)[..|k|] == k;
    PlainKeyStripped(k);
  }

  /** A formatted line splits at its first '=' into the key and the quoted value. */
  lemma FormatSplits(k: string, v: string)
    requires PlainKey(k)
    ensures SplitsInto(Format(k, v), k, v)
  {
    FormatEquals(k, v);
    FormatKey(k, v);
    FormatValue(k, v);
  }

  /** The body of a formatted line parses back to the key and the value. */
  lemma FormatParsesBack(k: string, v: string)
    requires PlainKey(k)
    ensures ParseBody(Format(k, v)) == Assign(k, v)
  {
    var line := Format(k, v);
    FormatSplits(k, v);
    ParseBodySplit(line, k, v);
  }

  /** Parsing a formatted line gives back the key and the value, whatever the value holds
      (spaces, '=', quotes). */
  lemma FormatRoundTrip(k: string, v: string)
    requires PlainKey(k)
    ensures ParseLine(Format(k, v)) == Assign(k, v)
  {
    FormatBody(k, v);
    FormatParsesBack(k, v);
  }

  /** "export " followed by a line that needs no stripping needs none either. */
  lemma ExportStripped(f: string)
    requires f != [] && !IsSpace(f[|f| - 1])
    ensures Strip("export " + f) == "export " + f
  {
    var line := "export " + f;
    assert line[0] == 'e';
    assert line[|line| - 1] == f[|f| - 1];
    StripNoop(line);
  }

  /** Such a line is neither blank nor a comment. */
  lemma ExportNotIgnored(f: string)
    requires f != [] && !IsSpace(f[|f| - 1])
    ensures !Ignored("export " + f)
  {
    var line := "export " + f;
    assert Strip(line)[0] == 'e' by {
      ExportStripped(f);
    }
  }

  /** Its body is the line after the prefix. */
  lemma ExportBody(f: string)
    requires f != [] && !IsSpace(f[|f| - 1])
    ensures Body("export " + f) == f
  {
    var line := "export " + f;
    ExportStripped(f);
    StartsWithConcat("export ", f);
    PrefixCancel("export ", f, Body(line));
  }

  /** A leading "export " changes nothing for a formatted line. */
  lemma ExportPrefixIgnored(k: string, v: string)
    requires PlainKey(k)
    ensures ParseLine("export " + Format(k, v)) == Assign(k, v)
  {
    var f := Format(k, v);
    assert f[|f| - 1] == '"';
    ExportNotIgnored(f);
    ExportBody(f);
    FormatParsesBack(k, v);
  }

  /** The environment, as an ordered dictionary of variables. */
  type Env = OMap<string, string>

  /** `os.environ[key] = value` succeeds: the key is non-empty and neither part holds a NUL
      character; otherwise it raises `ValueError`. */
  predicate Settable(key: string, value: string) {
    key != "" && '\0' !in key && '\0' !in value
  }

  /** Every assignment can be written to the environment. */
  predicate AllSettable(assignments: seq<(string, string)>) {
    forall i :: 0 <= i < |assignments| ==> Settable(assignments[i].0, assignments[i].1)
  }

  /** Settability of a concatenation is settability of both parts. */
  lemma AllSettableAppend(a: seq<(string, string)>, b: seq<(string, string)>)
    ensures AllSettable(a + b) <==> AllSettable(a) && AllSettable(b)
  {
    assert forall i :: 0 <= i < |a| ==> (a + b)[i] == a[i];
    assert forall i :: 0 <= i < |b| ==> (a + b)[|a| + i] == b[i];
  }

  /** The assignment one line asks for, if any. */
  function LineAssignment(line: string): (r: seq<(string, string)>)
    ensures |r| <= 1
    ensures ParseLine(line).Skip? ==> r == []
    ensures ParseLine(line).Assign? ==> r == [(ParseLine(line).key, ParseLine(line).value)]
  {
    match ParseLine(line)
    case Skip => []
    case Assign(k, v) => [(k, v)]
  }

  /** The assignments the lines ask for, in file order. */
  function Assignments(lines: seq<string>): seq<(string, string)> {
    Seqs.FlatMap(lines, LineAssignment)
  }

  /** Writes the assignments in order. */
  function SetAll(env: Env, assignments: seq<(string, string)>): (r: Env)
    ensures DistinctKeys(env) ==> DistinctKeys(r)
    decreases |assignments|
  {
    if |assignments| == 0 then env
    else SetAll(Put(env, assignments[0].0, assignments[0].1), assignments[1..])
  }

  /** Settability of a non-empty sequence is settability of its head and of its tail. */
  lemma AllSettableCons(assignments: seq<(string, string)>)
    requires |assignments| > 0
    ensures AllSettable(assignments) <==>
      Settable(assignments[0].0, assignments[0].1) && AllSettable(assignments[1..])
  {
    assert assignments == [assignments[0]] + assignments[1..];
    AllSettableAppend([assignments[0]], assignments[1..]);
  }

  /** `os.environ[key] = value` for each assignment in turn; the first one the environment
      refuses raises, which `load_env` turns into False, with the earlier ones kept. */
  function ApplyAssignments(env: Env, assignments: seq<(string, string)>): (r: (Env, bool))
    ensures r.1 <==> AllSettable(assignments)
    ensures r.1 ==> r.0 == SetAll(env, assignments)
    ensures DistinctKeys(env) ==> DistinctKeys(r.0)
    decreases |assignments|
  {
    if |assignments| == 0 then (env, true)
    else
      AllSettableCons(assignments);
      var a := assignments[0];
      if !Settable(a.0, a.1) then (env, false)
      else ApplyAssignments(Put(env, a.0, a.1), assignments[1..])
  }

  /** Position `k` holds the first refused assignment, and the environment after the loop
      holds exactly the writes of the assignments before it. */
  predicate RefusedAt(env: Env, assignments: seq<(string, string)>, k: int) {
    && 0 <= k < |assignments| && !Settable(assignments[k].0, assignments[k].1)
    && AllSettable(assignments[..k])
    && ApplyAssignments(env, assignments).0 == SetAll(env, assignments[..k])
  }

  /** Writing a non-empty prefix writes its head, then the rest of the prefix. */
  lemma SetAllPrefixStep(env: Env, assignments: seq<(string, string)>, k: nat)
    requires k < |assignments|
    ensures SetAll(env, assignments[..k + 1])
      == SetAll(Put(env, assignments[0].0, assignments[0].1), assignments[1..][..k])
  {
    var pre := assignments[..k + 1];
    assert pre[0] == assignments[0] && pre[1..] == assignments[1..][..k];
  }

  /** A settable head followed by a settable prefix of the tail is a settable prefix. */
  lemma SettablePrefixStep(assignments: seq<(string, string)>, k: nat)
    requires k < |assignments| && Settable(assignments[0].0, assignments[0].1)
    requires AllSettable(assignments[1..][..k])
    ensures AllSettable(assignments[..k + 1])
  {
    var pre := assignments[..k + 1];
    assert pre[0] == assignments[0] && pre[1..] == assignments[1..][..k];
    AllSettableCons(pre);
  }

  /** A refusal in the tail, after a head the environment accepts, is a refusal one place
      further on in the whole sequence. */
  lemma RefusedStep(env: Env, assignments: seq<(string, string)>, k: int)
    requires |assignments| > 0 && Settable(assignments[0].0, assignments[0].1)
    requires RefusedAt(Put(env, assignments[0].0, assignments[0].1), assignments[1..], k)
    ensures RefusedAt(env, assignments, k + 1)
  {
    var env' := Put(env, assignments[0].0, assignments[0].1);
    var tail := assignments[1..];
    SettablePrefixStep(assignments, k);
    SetAllPrefixStep(env, assignments, k);
    assert ApplyAssignments(env, assignments) == ApplyAssignments(env', tail);
    assert assignments[k + 1] == tail[k];
  }

  /** A refused assignment stops the loop: the environment keeps exactly the assignments
      before the first refused one. */
  lemma {:induction false} StopsAtFirstRefusal(env: Env, assignments: seq<(string, string)>)
    requires !ApplyAssignments(env, assignments).1
    ensures exists k :: RefusedAt(env, assignments, k)
    decreases |assignments|
  {
    var a := assignments[0];
    if !Settable(a.0, a.1) {
      assert assignments[..0] == [];
      assert RefusedAt(env, assignments, 0);
    } else {
      var env' := Put(env, a.0, a.1);
      assert ApplyAssignments(env, assignments) == ApplyAssignments(env', assignments[1..]);
      StopsAtFirstRefusal(env', assignments[1..]);
      var k :| RefusedAt(env', assignments[1..], k);
      RefusedStep(env, assignments, k);
    }
  }

  /** The loop of `load_env`: the lines' assignments apply in file order. */
  function ApplyLines(env: Env, lines: seq<string>): (r: (Env, bool))
    ensures r.1 <==> AllSettable(Assignments(lines))
    ensures r.1 ==> r.0 == SetAll(env, Assignments(lines))
    ensures DistinctKeys(env) ==> DistinctKeys(r.0)
  {
    ApplyAssignments(env, Assignments(lines))
  }

  /** No assignment names `key`. */
  predicate Unassigned(assignments: seq<(string, string)>, key: string) {
    forall j :: 0 <= j < |assignments| ==> assignments[j].0 != key
  }

  /** Position `j` holds the last assignment to `key`. */
  predicate LastAt(assignments: seq<(string, string)>, key: string, j: int) {
    && 0 <= j < |assignments| && assignments[j].0 == key
    && forall j' :: j < j' < |assignments| ==> assignments[j'].0 != key
  }

  /** A key whose last assignment is the first one is unassigned in the rest. */
  lemma LastAtHead(a: seq<(string, string)>, key: string)
    requires LastAt(a, key, 0)
    ensures Unassigned(a[1..], key)
  {
    var tail := a[1..];
    forall j' | 0 <= j' < |tail| ensures tail[j'].0 != key {
      assert tail[j'] == a[j' + 1];
    }
  }

  /** A later last assignment stays the last one in the rest, one position earlier. */
  lemma LastAtTail(a: seq<(string, string)>, key: string, j: int)
    requires j > 0 && LastAt(a, key, j)
    ensures LastAt(a[1..], key, j - 1)
  {
    var tail := a[1..];
    assert tail[j - 1] == a[j];
    forall j' | j - 1 < j' < |tail| ensures tail[j'].0 != key {
      assert tail[j'] == a[j' + 1];
    }
  }

  /** An unassigned key is unassigned in the rest, and not the head's key. */
  lemma UnassignedTail(a: seq<(string, string)>, key: string)
    requires |a| > 0 && Unassigned(a, key)
    ensures a[0].0 != key && Unassigned(a[1..], key)
  {
    var tail := a[1..];
    forall j' | 0 <= j' < |tail| ensures tail[j'].0 != key {
      assert tail[j'] == a[j' + 1];
    }
  }

  /** After writing the assignments, a key holds the value of its last assignment, or its
      old value when no assignment names it. */
  lemma {:induction false} SetAllLastWins(env: Env, assignments: seq<(string, string)>, key: string)
    ensures Unassigned(assignments, key) ==> Get(SetAll(env, assignments), key) == Get(env, key)
    ensures forall j :: LastAt(assignments, key, j) ==> Get(SetAll(env, assignments), key) == Some(assignments[j].1)
    decreases |assignments|
  {
    if |assignments| > 0 {
      var a := assignments;
      var tail := a[1..];
      var env' := Put(env, a[0].0, a[0].1);
      assert SetAll(env, a) == SetAll(env', tail);
      SetAllLastWins(env', tail, key);
      forall j | LastAt(a, key, j)
        ensures Get(SetAll(env, a), key) == Some(a[j].1)
      {
        if j == 0 {
          LastAtHead(a, key);
          assert Get(env', key) == Some(a[0].1);
        } else {
          LastAtTail(a, key, j);
          assert tail[j - 1] == a[j];
        }
      }
      if Unassigned(a, key) {
        UnassignedTail(a, key);
        assert Get(env', key) == Get(env, key);
      }
    }
  }

  /** Later lines for a key override earlier ones: after a successful load a key holds the
      value of its last assignment, and keys the file never assigns keep their old value. */
  lemma LastAssignmentWins(env: Env, lines: seq<string>, key: string)
    requires ApplyLines(env, lines).1
    ensures Unassigned(Assignments(lines), key) ==> Get(ApplyLines(env, lines).0, key) == Get(env, key)
    ensures forall j :: LastAt(Assignments(lines), key, j) ==>
      Get(ApplyLines(env, lines).0, key) == Some(Assignments(lines)[j].1)
  {
    SetAllLastWins(env, Assignments(lines), key);
  }

  /** The assignments of two pieces of a file are those of the first, then those of the second. */
  lemma AssignmentsAppend(first: seq<string>, second: seq<string>)
    ensures Assignments(first + second) == Assignments(first) + Assignments(second)
  {
    Seqs.FlatMapAppend(first, second, LineAssignment);
  }

  /** Writing `a + b` is writing `a`, then, if that succeeded, `b`. */
  lemma {:induction false} ApplyAssignmentsAppend(env: Env, a: seq<(string, string)>, b: seq<(string, string)>)
    ensures var r1 := ApplyAssignments(env, a);
      ApplyAssignments(env, a + b) == if r1.1 then ApplyAssignments(r1.0, b) else r1
    decreases |a|
  {
    if |a| == 0 {
      assert a + b == b;
    } else {
      assert (a + b)[0] == a[0];
      assert (a + b)[1..] == a[1..] + b;
      if Settable(a[0].0, a[0].1) {
        ApplyAssignmentsAppend(Put(env, a[0].0, a[0].1), a[1..], b);
      }
    }
  }

  /** Reading continues where it left off: loading `first + second` is loading `first`, then,
      if that succeeded, `second`; once a line fails, no later line is applied. */
  lemma ApplyLinesAppend(env: Env, first: seq<string>, second: seq<string>)
    ensures var r1 := ApplyLines(env, first);
      ApplyLines(env, first + second) == if r1.1 then ApplyLines(r1.0, second) else r1
  {
    AssignmentsAppend(first, second);
    ApplyAssignmentsAppend(env, Assignments(first), Assignments(second));
  }

  /** Blank and comment lines ask for nothing. */
  lemma {:induction false} IgnoredLinesAssignNothing(lines: seq<string>)
    requires forall i :: 0 <= i < |lines| ==> Ignored(lines[i])
    ensures Assignments(lines) == []
    decreases |lines|
  {
    if |lines| > 0 {
      assert Ignored(lines[0]);
      IgnoredLinesAssignNothing(lines[1..]);
    }
  }

  /** Blank and comment lines leave the environment as it is. */
  lemma IgnoredLinesChangeNothing(env: Env, lines: seq<string>)
    requires forall i :: 0 <= i < |lines| ==> Ignored(lines[i])
    ensures ApplyLines(env, lines) == (env, true)
  {
    IgnoredLinesAssignNothing(lines);
  }

  /** A path as its components from the filesystem root; the root itself is []. */
  type Path = seq<string>

  /** The ".env" candidate in the ancestor made of the first `m` components of `path`. */
  function Candidate(path: Path, m: nat): Path
    requires m <= |path|
  {
    path[..m] + [".env"]
  }

  /** `find_dotenv`: looks for ".env" in `path`, then in each ancestor, nearest first, and
      stops before the root, where `path == path.parent`; the root's ".env" is never seen. */
  function FindDotenv(path: Path, files: set<Path>): (r: Option<Path>)
    ensures r.None? <==> forall m :: 1 <= m <= |path| ==> Candidate(path, m) !in files
    ensures r.Some? ==> exists m :: (
      && 1 <= m <= |path| && r.value == Candidate(path, m) && r.value in files
      && forall m' :: m < m' <= |path| ==> Candidate(path, m') !in files)
    decreases |path|
  {
    if |path| == 0 then None
    else if path + [".env"] in files then
      assert Candidate(path, |path|) == path + [".env"] by {
        assert path[..|path|] == path;
      }
      Some(path + [".env"])
    else
      var parent := path[..|path| - 1];
      assert forall m :: 1 <= m <= |parent| ==> Candidate(parent, m) == Candidate(path, m);
      assert Candidate(path, |path|) !in files by {
        assert path[..|path|] == path;
      }
      FindDotenv(parent, files)
  }

  /** A ".env" at the filesystem root is never found, from any starting directory. */
  lemma RootNeverChecked(path: Path)
    ensures FindDotenv(path, {[".env"]}) == None
  {
  }

  /** `load_env`: without a file (none given and none found upward from `cwd`, or the given
      one missing) it returns False and changes nothing; otherwise it applies the file's
      lines. `read` gives a file's lines. */
  function LoadEnv(env: Env, dotenvPath: Option<Path>, cwd: Path, files: set<Path>, read: Path -> seq<string>)
    : (r: (Env, bool))
    ensures var p := if dotenvPath.Some? then dotenvPath else FindDotenv(cwd, files);
      && (p.None? || p.value !in files ==> r == (env, false))
      && (p.Some? && p.value in files ==> r == ApplyLines(env, read(p.value)))
  {
    var p := if dotenvPath.Some? then dotenvPath else FindDotenv(cwd, files);
    if p.None? || p.value !in files then (env, false)
    else ApplyLines(env, read(p.value))
  }
}

=== FILE: message_repo.dfy ===
/** Messaging of `SharedState` (src/core/state_manager.py): direct messages, broadcast, the
    filtered newest-first query and marking a message read. Only the list format of the
    `messages` collection is modelled. */
module MessageRepo {
  import opened Wrappers
  import opened OrderedMaps
  import opened StateSchema
  import opened Text
  import Seqs

  /** `f"msg_{int(time.time())}_{uuid4().hex[:8]}"`, with the hex digits given. */
  function MessageId(now: real, hex: string): string {
    "msg_" + IntToString(Trunc(now)) + "_" + hex
  }

  /** `add_message`: appends one unread message and returns its id; nothing else changes. */
  function AddMessage(d: Document, fromAgent: string, toAgent: string, content: string, channel: string,
                      priority: string, now: real, hex: string): (r: (Document, string))
    ensures r.1 == MessageId(now, hex)
    ensures |r.0.messages| == |d.messages| + 1
    ensures r.0.messages[..|d.messages|] == d.messages
    ensures r.0.messages[|d.messages|] == Message(r.1, fromAgent, toAgent, content, channel, priority, now, false)
    ensures r.0 == d.(messages := r.0.messages)
  {
    var id := MessageId(now, hex);
    (d.(messages := d.messages + [Message(id, fromAgent, toAgent, content, channel, priority, now, false)]), id)
  }

  /** An agent other than the sender with status "active". */
  predicate ActiveOther(p: (string, Agent), sender: string) {
    p.0 != sender && p.1.status == "active"
  }

  /** The ids of the active agents other than the sender, in registry order and, as the
      registry's keys are distinct, each once. */
  function ActiveOthers(agents: OMap<string, Agent>, sender: string): (r: seq<string>)
    ensures forall a :: a in r <==> exists p :: p in agents && p.0 == a && ActiveOther(p, sender)
    ensures Seqs.Subseq(r, Keys(agents))
    ensures DistinctKeys(agents) ==> Seqs.NoDup(r)
  {
    var kept := Seqs.Filter(agents, (p: (string, Agent)) => ActiveOther(p, sender));
    var r := Keys(kept);
    forall a ensures a in r <==> exists p :: p in agents && p.0 == a && ActiveOther(p, sender) {
      if a in r {
        var i :| 0 <= i < |r| && r[i] == a;
        assert kept[i] in kept;
      }
      if exists p :: p in agents && p.0 == a && ActiveOther(p, sender) {
        var p :| p in agents && p.0 == a && ActiveOther(p, sender);
        assert p in kept;
        var i :| 0 <= i < |kept| && kept[i] == p;
        assert r[i] == a;
      }
    }
    SubseqKeys(kept, agents);
    assert DistinctKeys(agents) ==> Seqs.NoDup(r) by {
      if DistinctKeys(agents) {
        assert Seqs.NoDup(Keys(agents));
        Seqs.SubseqNoDup(r, Keys(agents));
      }
    }
    r
  }

  /** The configured roster (the `name` of each entry of `config.AGENTS`, in declaration
      order) without the sender, in roster order. */
  function RosterOthers(roster: seq<string>, sender: string): (r: seq<string>)
    ensures forall a :: a in r <==> a in roster && a != sender
    ensures Seqs.Subseq(r, roster)
    ensures Seqs.NoDup(roster) ==> Seqs.NoDup(r)
  {
    var r := Seqs.Filter(roster, (a: string) => a != sender);
    assert Seqs.NoDup(roster) ==> Seqs.NoDup(r) by {
      if Seqs.NoDup(roster) {
        Seqs.SubseqNoDup(r, roster);
      }
    }
    r
  }

  /** The recipients of a broadcast: the active agents other than the sender, or, when there
      are none, the configured roster without the sender. */
  function Recipients(agents: OMap<string, Agent>, roster: seq<string>, sender: string): (r: seq<string>)
    ensures sender !in r
    ensures (exists p :: p in agents && ActiveOther(p, sender)) ==> r == ActiveOthers(agents, sender)
    ensures (forall p :: p in agents ==> !ActiveOther(p, sender)) ==> r == RosterOthers(roster, sender)
    ensures DistinctKeys(agents) && Seqs.NoDup(roster) ==> Seqs.NoDup(r)
  {
    var active := ActiveOthers(agents, sender);
    if active != [] then
      assert active[0] in active;
      active
    else
      assert forall p :: p in agents ==> !ActiveOther(p, sender) by {
        forall p | p in agents ensures !ActiveOther(p, sender) {
          assert p.0 !in active;
        }
      }
      RosterOthers(roster, sender)
  }

  /** `broadcast_message`: one unread "broadcast" message per recipient, in recipient order,
      all with the same timestamp; the i-th uses the i-th fresh hex suffix. Returns the ids. */
  function BroadcastMessage(d: Document, roster: seq<string>, fromAgent: string, content: string, priority: string,
                            now: real, uuids: nat -> string): (r: (Document, seq<string>))
    ensures var rs := Recipients(d.agents, roster, fromAgent);
      && |r.1| == |rs|
      && |r.0.messages| == |d.messages| + |rs|
      && r.0.messages[..|d.messages|] == d.messages
      && (forall i :: 0 <= i < |rs| ==>
            && r.1[i] == MessageId(now, uuids(i))
            && r.0.messages[|d.messages| + i] == Message(r.1[i], fromAgent, rs[i], content, "broadcast", priority, now, false))
    ensures r.0 == d.(messages := r.0.messages)
  {
    var rs := Recipients(d.agents, roster, fromAgent);
    var sent := seq(|rs|, i requires 0 <= i < |rs| =>
      Message(MessageId(now, uuids(i)), fromAgent, rs[i], content, "broadcast", priority, now, false));
    var ids := seq(|rs|, i requires 0 <= i < |rs| => MessageId(now, uuids(i)));
    (d.(messages := d.messages + sent), ids)
  }

  /** With distinct registry keys and a roster without repetitions, no agent receives two
      messages of one broadcast. */
  lemma BroadcastOncePerAgent(d: Document, roster: seq<string>, fromAgent: string, content: string, priority: string,
                              now: real, uuids: nat -> string)
    requires DistinctKeys(d.agents) && Seqs.NoDup(roster)
    ensures var r := BroadcastMessage(d, roster, fromAgent, content, priority, now, uuids);
      forall i, j :: |d.messages| <= i < j < |r.0.messages| ==> r.0.messages[i].receiver != r.0.messages[j].receiver
  {
    var r := BroadcastMessage(d, roster, fromAgent, content, priority, now, uuids);
    var rs := Recipients(d.agents, roster, fromAgent);
    forall i, j | |d.messages| <= i < j < |r.0.messages|
      ensures r.0.messages[i].receiver != r.0.messages[j].receiver
    {
      assert r.0.messages[i].receiver == rs[i - |d.messages|];
      assert r.0.messages[j].receiver == rs[j - |d.messages|];
    }
  }

  /** Broadcast never addresses the sender, and reaches every active agent other than the sender. */
  lemma BroadcastReachesActiveAgents(d: Document, roster: seq<string>, fromAgent: string, content: string, priority: string,
                                     now: real, uuids: nat -> string)
    ensures var r := BroadcastMessage(d, roster, fromAgent, content, priority, now, uuids);
      && (forall i :: |d.messages| <= i < |r.0.messages| ==> r.0.messages[i].receiver != fromAgent)
      && (forall p :: p in d.agents && ActiveOther(p, fromAgent) ==>
            exists i :: |d.messages| <= i < |r.0.messages| && r.0.messages[i].receiver == p.0)
  {
    var r := BroadcastMessage(d, roster, fromAgent, content, priority, now, uuids);
    var rs := Recipients(d.agents, roster, fromAgent);
    forall i | |d.messages| <= i < |r.0.messages|
      ensures r.0.messages[i].receiver != fromAgent
    {
      assert r.0.messages[i].receiver == rs[i - |d.messages|];
    }
    forall p | p in d.agents && ActiveOther(p, fromAgent)
      ensures exists i :: |d.messages| <= i < |r.0.messages| && r.0.messages[i].receiver == p.0
    {
      assert p.0 in ActiveOthers(d.agents, fromAgent);
      RecipientReached(d, roster, fromAgent, content, priority, now, uuids, p.0);
    }
  }

  /** With no active agent besides the sender, the broadcast goes to the configured roster. */
  lemma BroadcastFallsBackToRoster(d: Document, roster: seq<string>, fromAgent: string, content: string, priority: string,
                                   now: real, uuids: nat -> string)
    requires forall p :: p in d.agents ==> !ActiveOther(p, fromAgent)
    ensures var r := BroadcastMessage(d, roster, fromAgent, content, priority, now, uuids);
      forall a :: a in roster && a != fromAgent ==>
        exists i :: |d.messages| <= i < |r.0.messages| && r.0.messages[i].receiver == a
  {
    assert Recipients(d.agents, roster, fromAgent) == RosterOthers(roster, fromAgent);
    forall a | a in roster && a != fromAgent
      ensures var r := BroadcastMessage(d, roster, fromAgent, content, priority, now, uuids);
        exists i :: |d.messages| <= i < |r.0.messages| && r.0.messages[i].receiver == a
    {
      RecipientReached(d, roster, fromAgent, content, priority, now, uuids, a);
    }
  }

  /** Every recipient receives one of the new messages. */
  lemma RecipientReached(d: Document, roster: seq<string>, fromAgent: string, content: string, priority: string,
                         now: real, uuids: nat -> string, a: string)
    requires a in Recipients(d.agents, roster, fromAgent)
    ensures var r := BroadcastMessage(d, roster, fromAgent, content, priority, now, uuids);
      exists i :: |d.messages| <= i < |r.0.messages| && r.0.messages[i].receiver == a
  {
    var r := BroadcastMessage(d, roster, fromAgent, content, priority, now, uuids);
    var rs := Recipients(d.agents, roster, fromAgent);
    var k :| 0 <= k < |rs| && rs[k] == a;
    assert r.0.messages[|d.messages| + k].receiver == a;
  }

  /** The filters of `get_messages`, each skipped when absent (or false). */
  predicate MessageMatches(m: Message, agent: Option<string>, unreadOnly: bool, channel: Option<string>, priority: Option<string>) {
    && (agent.None? || m.receiver == agent.value)
    && (!unreadOnly || !m.read)
    && (channel.None? || m.channel == channel.value)
    && (priority.None? || m.priority == priority.value)
  }

  /** The sort key of `get_messages`. */
  function Timestamp(m: Message): real {
    m.timestamp
  }

  /** The messages `get_messages` keeps, in storage order. */
  function Inbox(d: Document, agent: Option<string>, unreadOnly: bool, channel: Option<string>,
                 priority: Option<string>): seq<Message> {
    Seqs.Filter(d.messages, (m: Message) => MessageMatches(m, agent, unreadOnly, channel, priority))
  }

  /** `get_messages`: the matching messages, newest first; messages with equal timestamps
      (every message of one broadcast shares one) stay in storage order, as the stable
      `sorted(..., reverse=True)` leaves them. */
  function GetMessages(d: Document, agent: Option<string>, unreadOnly: bool, channel: Option<string>,
                       priority: Option<string>): (r: seq<Message>)
    ensures Seqs.SortedDesc(r, Timestamp)
    ensures multiset(r) == multiset(Inbox(d, agent, unreadOnly, channel, priority))
    ensures forall m :: m in r <==> m in d.messages && MessageMatches(m, agent, unreadOnly, channel, priority)
    ensures forall t :: Seqs.Filter(r, Seqs.KeyIs(Timestamp, t)) == Seqs.Filter(Inbox(d, agent, unreadOnly, channel, priority), Seqs.KeyIs(Timestamp, t))
  {
    var matching := Inbox(d, agent, unreadOnly, channel, priority);
    var r := Seqs.SortDesc(matching, Timestamp);
    Seqs.SameMembers(r, matching);
    forall t ensures Seqs.Filter(r, Seqs.KeyIs(Timestamp, t)) == Seqs.Filter(matching, Seqs.KeyIs(Timestamp, t)) {
      Seqs.SortDescStable(matching, Timestamp, t);
    }
    r
  }

  /** A message just added is among the receiver's unread messages. */
  lemma AddedMessageIsUnread(d: Document, fromAgent: string, toAgent: string, content: string, channel: string,
                             priority: string, now: real, hex: string)
    ensures var r := AddMessage(d, fromAgent, toAgent, content, channel, priority, now, hex);
      Message(r.1, fromAgent, toAgent, content, channel, priority, now, false)
        in GetMessages(r.0, Some(toAgent), true, Some(channel), Some(priority))
  {
    var r := AddMessage(d, fromAgent, toAgent, content, channel, priority, now, hex);
    assert r.0.messages[|d.messages|] in r.0.messages;
  }

  /** The position of the first message with id `id`, or -1. */
  function MessageIndex(ms: seq<Message>, id: string): (r: int)
    ensures r == -1 <==> forall m :: m in ms ==> m.id != id
    ensures r >= 0 ==> r < |ms| && ms[r].id == id && forall j :: 0 <= j < r ==> ms[j].id != id
    decreases |ms|
  {
    if |ms| == 0 then -1
    else if ms[0].id == id then 0
    else
      var i := MessageIndex(ms[1..], id);
      assert forall j :: 1 <= j < |ms| ==> ms[j] == ms[1..][j - 1];
      if i < 0 then -1 else i + 1
  }

  /** `mark_message_read`: false, with nothing changed, when no message has the id; otherwise
      the first such message is marked read and nothing else changes. */
  function MarkMessageRead(d: Document, id: string): (r: (Document, bool))
    ensures r.1 <==> exists m :: m in d.messages && m.id == id
    ensures !r.1 ==> r.0 == d
    ensures r.1 ==> exists i :: (
      && 0 <= i < |d.messages| && d.messages[i].id == id
      && (forall j :: 0 <= j < i ==> d.messages[j].id != id)
      && r.0 == d.(messages := d.messages[i := d.messages[i].(read := true)]))
  {
    var i := MessageIndex(d.messages, id);
    if i < 0 then (d, false)
    else (d.(messages := d.messages[i := d.messages[i].(read := true)]), true)
  }

  /** Marking a message read twice is the same as marking it once. */
  lemma MarkMessageReadIdempotent(d: Document, id: string)
    ensures MarkMessageRead(MarkMessageRead(d, id).0, id) == MarkMessageRead(d, id)
  {
    var d1 := MarkMessageRead(d, id).0;
    var i := MessageIndex(d.messages, id);
    if i >= 0 {
      assert forall j :: 0 <= j < |d.messages| ==> d1.messages[j].id == d.messages[j].id;
      assert MessageIndex(d1.messages, id) == i;
      assert d1.messages[i := d1.messages[i].(read := true)] == d1.messages;
    }
  }
}

=== FILE: ordered_maps.dfy ===
/** Python dictionaries as insertion-ordered association lists.

    The store iterates its dictionaries and depends on their order (which agent wins a
    scheduling tie, the order broadcast recipients are served, which task a search finds
    first), so a dict is modelled as the sequence of its items. Assigning to an existing
    key keeps the key's position; assigning to a new key appends it. */
module OrderedMaps {
  import opened Wrappers
  import Seqs

  /** A dictionary's items in iteration order. */
  type OMap<K, V> = seq<(K, V)>

  /** `list(m.keys())`. */
  function Keys<K, V>(m: OMap<K, V>): (ks: seq<K>)
    ensures |ks| == |m|
    ensures forall i :: 0 <= i < |m| ==> ks[i] == m[i].0
  {
    seq(|m|, i requires 0 <= i < |m| => m[i].0)
  }

  /** `list(m.values())`. */
  function Values<K, V>(m: OMap<K, V>): (vs: seq<V>)
    ensures |vs| == |m|
    ensures forall i :: 0 <= i < |m| ==> vs[i] == m[i].1
  {
    seq(|m|, i requires 0 <= i < |m| => m[i].1)
  }

  /** Dropping items of a dictionary drops their keys: the keys of a subsequence of `m`'s
      items are a subsequence of `m`'s keys. */
  lemma {:induction false} SubseqKeys<K, V>(r: OMap<K, V>, m: OMap<K, V>)
    requires Seqs.Subseq(r, m)
    ensures Seqs.Subseq(Keys(r), Keys(m))
    decreases |m|
  {
    if |r| > 0 {
      assert Keys(m)[1..] == Keys(m[1..]);
      if r[0] == m[0] && Seqs.Subseq(r[1..], m[1..]) {
        SubseqKeys(r[1..], m[1..]);
        assert Keys(r)[1..] == Keys(r[1..]);
      } else {
        SubseqKeys(r, m[1..]);
      }
    }
  }

  /** `k in m`. */
  predicate HasKey<K(==), V>(m: OMap<K, V>, k: K) {
    k in Keys(m)
  }

  /** Every key occurs once, as in any real dictionary. */
  ghost predicate DistinctKeys<K, V>(m: OMap<K, V>) {
    forall i, j :: 0 <= i < j < |m| ==> m[i].0 != m[j].0
  }

  /** The position of `k`, or -1. */
  function IndexOf<K(==), V>(m: OMap<K, V>, k: K): (r: int)
    ensures r == -1 <==> !HasKey(m, k)
    ensures r >= 0 ==> r < |m| && m[r].0 == k && forall i :: 0 <= i < r ==> m[i].0 != k
    decreases |m|
  {
    if |m| == 0 then -1
    else if m[0].0 == k then 0
    else
      var r := IndexOf(m[1..], k);
      assert Keys(m) == [m[0].0] + Keys(m[1..]);
      if r < 0 then -1 else r + 1
  }

  /** `m.get(k)`. */
  function Get<K(==), V>(m: OMap<K, V>, k: K): (r: Option<V>)
    ensures r.None? <==> !HasKey(m, k)
    ensures r.Some? ==> (k, r.value) in m
    ensures DistinctKeys(m) ==> forall i :: 0 <= i < |m| && m[i].0 == k ==> r == Some(m[i].1)
  {
    var i := IndexOf(m, k);
    if i < 0 then None else Some(m[i].1)
  }

  /** Dictionaries whose keys agree position by position find every key at the same place. */
  lemma IndexOfSameKeys<K(!new), V>(a: OMap<K, V>, b: OMap<K, V>)
    requires Keys(a) == Keys(b)
    ensures forall k :: IndexOf(a, k) == IndexOf(b, k)
  {
    forall k
      ensures IndexOf(a, k) == IndexOf(b, k)
    {
    }
  }

  /** Appending a new key does not move any other key. */
  lemma IndexOfAppend<K(!new), V>(m: OMap<K, V>, k: K, v: V)
    ensures forall k' :: k' != k ==> IndexOf(m + [(k, v)], k') == IndexOf(m, k')
  {
    var r := m + [(k, v)];
    assert Keys(r) == Keys(m) + [k];
    forall k' | k' != k
      ensures IndexOf(r, k') == IndexOf(m, k')
    {
      var x, y := IndexOf(r, k'), IndexOf(m, k');
      assert x >= 0 ==> r[x] == m[x];
      assert y >= 0 ==> r[y] == m[y];
    }
  }

  /** `m[k] = v`. */
  function Put<K(==,!new), V>(m: OMap<K, V>, k: K, v: V): (r: OMap<K, V>)
    ensures HasKey(m, k) ==> Keys(r) == Keys(m)
    ensures !HasKey(m, k) ==> r == m + [(k, v)]
    ensures Get(r, k) == Some(v)
    ensures forall k' :: k' != k ==> Get(r, k') == Get(m, k')
    ensures DistinctKeys(m) ==> DistinctKeys(r)
    ensures forall p :: p in r ==> p == (k, v) || p in m
  {
    var i := IndexOf(m, k);
    if i < 0 then
      assert Keys(m + [(k, v)]) == Keys(m) + [k];
      IndexOfAppend(m, k, v);
      m + [(k, v)]
    else
      var r := m[i := (k, v)];
      assert Keys(r) == Keys(m);
      IndexOfSameKeys(r, m);
      r
  }

  /** The values after `Put` are the new value and old values. */
  lemma PutValues<K(!new), V>(m: OMap<K, V>, k: K, v: V)
    ensures forall x :: x in Values(Put(m, k, v)) ==> x == v || x in Values(m)
  {
    var r := Put(m, k, v);
    forall x | x in Values(r) ensures x == v || x in Values(m) {
      var i :| 0 <= i < |r| && Values(r)[i] == x;
      assert r[i] in r;
      if r[i] != (k, v) {
        var j :| 0 <= j < |m| && m[j] == r[i];
        assert Values(m)[j] == x;
      }
    }
  }

  /** Applies `f` to every value, keeping the keys and their order. */
  function MapValues<K(==,!new), V>(m: OMap<K, V>, f: V -> V): (r: OMap<K, V>)
    ensures Keys(r) == Keys(m)
    ensures forall i :: 0 <= i < |m| ==> r[i] == (m[i].0, f(m[i].1))
    ensures forall k :: Get(r, k) == if HasKey(m, k) then Some(f(Get(m, k).value)) else None
    ensures DistinctKeys(m) ==> DistinctKeys(r)
  {
    var r := seq(|m|, i requires 0 <= i < |m| => (m[i].0, f(m[i].1)));
    assert Keys(r) == Keys(m);
    IndexOfSameKeys(r, m);
    r
  }

  /** In a dictionary with distinct keys, the value stored at a position is what `Get` finds. */
  lemma GetAt<K, V>(m: OMap<K, V>, i: int)
    requires DistinctKeys(m) && 0 <= i < |m|
    ensures Get(m, m[i].0) == Some(m[i].1)
  {
  }
}

=== FILE: reasoning_extractor.dfy ===
/** `ClaudeAPI.extract_reasoning` (src/utils/claude_api.py): picks the reasoning part out of a
    model response, trying `<thinking>` tags, then `<reasoning>` tags, then a list of
    reasoning phrases, and finally falling back to the start of the response. */
module ReasoningExtractor {
  import opened Wrappers
  import opened Text

  const ThinkingOpen: string := "<thinking>"
  const ThinkingClose: string := "</thinking>"
  const ReasoningOpen: string := "<reasoning>"
  const ReasoningClose: string := "</reasoning>"

  /** The phrases searched for when there are no usable tags, in the order they are tried. */
  const Markers: seq<string> := [
    "I'm thinking", "Let me think", "Step by step", "Let me analyze",
    "Let me break this down", "Here's my reasoning", "My thought process"
  ]

  /** Characters kept after a marker is found, counting the marker itself. */
  const MarkerWindow: nat := 2000

  /** Characters kept by the fallback. */
  const FallbackWindow: nat := 1000

  /** No whitespace at either end, as `strip` leaves it. */
  predicate Trimmed(s: string) {
    s == [] || (!IsSpace(s[0]) && !IsSpace(s[|s| - 1]))
  }

  /** The guard of a tag branch: `open in s and close in s`. */
  predicate BothTags(s: string, open: string, close: string) {
    Contains(s, open) && Contains(s, close)
  }

  /** A stripped piece of `s` is a trimmed piece of `s`. */
  lemma StrippedPiece(t: string, s: string)
    requires IsInfix(t, s)
    ensures IsInfix(Strip(t), s) && Trimmed(Strip(t))
  {
    StripOfInfix(t, s);
  }

  /** A piece of a text that lacks `c` lacks `c` too. */
  lemma AbsentFromPiece(t: string, r: string, c: string)
    requires IsInfix(r, t) && !Contains(t, c)
    ensures !Contains(r, c)
  {
    if Contains(r, c) {
      var i :| OccursAt(t, r, i);
      OccursTrans(t, r, c, i, Find(r, c));
    }
  }

  /** A slice ending at `end` holds no `close` when no `close` starts before `end`. */
  lemma SliceLacks(s: string, close: string, start: nat, end: nat)
    requires start <= end <= |s| && |close| > 0
    requires forall i :: 0 <= i < end ==> !OccursAt(s, close, i)
    ensures !Contains(s[start..end], close)
  {
    var t := s[start..end];
    if Contains(t, close) {
      assert OccursAt(s, t, start);
      OccursTrans(s, t, close, start, Find(t, close));
    }
  }

  /** The trimmed text strictly between `start` and `end` is a trimmed piece of `s`, and it
      holds no `close` when no `close` starts before `end`. */
  lemma TagPiece(s: string, close: string, start: nat, end: nat)
    requires start < end <= |s| && |close| > 0
    requires forall i :: 0 <= i < end ==> !OccursAt(s, close, i)
    ensures IsInfix(Strip(s[start..end]), s) && Trimmed(Strip(s[start..end]))
    ensures !Contains(Strip(s[start..end]), close)
  {
    var t := s[start..end];
    assert IsInfix(t, s) by {
      assert OccursAt(s, t, start);
    }
    SliceLacks(s, close, start, end);
    StrippedPiece(t, s);
    StripIsPiece(t);
    AbsentFromPiece(t, Strip(t), close);
  }

  /** The text between the first `open` and the first `close`, stripped; None unless both
      occur and the first `open` ends strictly before the first `close` starts. */
  function Between(s: string, open: string, close: string): (r: Option<string>)
    requires |close| > 0
    ensures r.Some? <==> BothTags(s, open, close) && Find(s, open) + |open| < Find(s, close)
    ensures r.Some? ==> IsInfix(r.value, s) && Trimmed(r.value) && !Contains(r.value, close)
  {
    if !BothTags(s, open, close) then None
    else
      var start := Find(s, open) + |open|;
      var end := Find(s, close);
      if start < end then
        TagPiece(s, close, start, end);
        Some(Strip(s[start..end]))
      else None
  }

  /** The position in `markers` of the first one, from `from` on, that occurs in `s`, or -1. */
  function FirstMarker(s: string, markers: seq<string>, from: nat): (r: int)
    requires from <= |markers|
    ensures r == -1 <==> forall j :: from <= j < |markers| ==> !Contains(s, markers[j])
    ensures r >= 0 ==>
      && from <= r < |markers|
      && Contains(s, markers[r])
      && forall j :: from <= j < r ==> !Contains(s, markers[j])
    decreases |markers| - from
  {
    if from == |markers| then -1
    else if Contains(s, markers[from]) then from
    else FirstMarker(s, markers, from + 1)
  }

  /** `response[marker_pos:marker_pos + 2000].strip()` for the first occurrence of `m`. */
  function MarkerText(s: string, m: string): (r: string)
    requires Contains(s, m)
    ensures IsInfix(r, s) && Trimmed(r)
    ensures StrippedFrom(r, Slice(s, Find(s, m), Find(s, m) + MarkerWindow))
  {
    var t := Slice(s, Find(s, m), Find(s, m) + MarkerWindow);
    StrippedPiece(t, s);
    StripIsStrippedFrom(t);
    Strip(t)
  }

  /** `response[:1000].strip()`. */
  function FallbackText(s: string): (r: string)
    ensures IsInfix(r, s) && Trimmed(r)
    ensures |r| <= FallbackWindow
    ensures StrippedFrom(r, Slice(s, 0, FallbackWindow))
  {
    var t := Slice(s, 0, FallbackWindow);
    StrippedPiece(t, s);
    StripIsStrippedFrom(t);
    Strip(t)
  }

  /** The marker search over `markers`, then the fallback. */
  function MarkerSearch(s: string, markers: seq<string>): (r: string)
    ensures IsInfix(r, s) && Trimmed(r)
  {
    var i := FirstMarker(s, markers, 0);
    if i >= 0 then MarkerText(s, markers[i]) else FallbackText(s)
  }

  /** The search over the reasoning phrases, reached when no tag pair yields text. */
  function FromMarkers(s: string): (r: string)
    ensures IsInfix(r, s) && Trimmed(r)
  {
    MarkerSearch(s, Markers)
  }

  /** `extract_reasoning`. A `<thinking>` pair whose tags are out of order sends the search
      straight to the markers: the `<reasoning>` tags are only tried when a `<thinking>` tag
      is missing. Whatever the branch, the result is a trimmed piece of the response. */
  function ExtractReasoning(s: string): (r: string)
    ensures IsInfix(r, s) && Trimmed(r)
  {
    if BothTags(s, ThinkingOpen, ThinkingClose) then
      var t := Between(s, ThinkingOpen, ThinkingClose);
      if t.Some? then t.value else FromMarkers(s)
    else if BothTags(s, ReasoningOpen, ReasoningClose) then
      var t := Between(s, ReasoningOpen, ReasoningClose);
      if t.Some? then t.value else FromMarkers(s)
    else FromMarkers(s)
  }

  /** With both thinking tags in order, the result is the trimmed text between the first
      opening tag and the first closing tag, and never holds a closing tag. */
  lemma ThinkingTagsUsed(s: string)
    requires BothTags(s, ThinkingOpen, ThinkingClose)
    requires Find(s, ThinkingOpen) + |ThinkingOpen| < Find(s, ThinkingClose)
    ensures ExtractReasoning(s) == Strip(s[Find(s, ThinkingOpen) + |ThinkingOpen|..Find(s, ThinkingClose)])
    ensures !Contains(ExtractReasoning(s), ThinkingClose)
  {
    var b := Between(s, ThinkingOpen, ThinkingClose);
    assert b.Some?;
  }

  /** Thinking tags that are both present but out of order (or adjacent) skip the reasoning
      tags, even when those are usable. */
  lemma MisorderedThinkingSkipsReasoning(s: string)
    requires BothTags(s, ThinkingOpen, ThinkingClose)
    requires Find(s, ThinkingOpen) + |ThinkingOpen| >= Find(s, ThinkingClose)
    ensures ExtractReasoning(s) == FromMarkers(s)
  {
    var b := Between(s, ThinkingOpen, ThinkingClose);
    assert b.None?;
  }

  /** Without a thinking pair, a reasoning pair in order gives the trimmed text between its
      first tags. */
  lemma ReasoningTagsUsed(s: string)
    requires !BothTags(s, ThinkingOpen, ThinkingClose)
    requires BothTags(s, ReasoningOpen, ReasoningClose)
    requires Find(s, ReasoningOpen) + |ReasoningOpen| < Find(s, ReasoningClose)
    ensures ExtractReasoning(s) == Strip(s[Find(s, ReasoningOpen) + |ReasoningOpen|..Find(s, ReasoningClose)])
    ensures !Contains(ExtractReasoning(s), ReasoningClose)
  {
    var b := Between(s, ReasoningOpen, ReasoningClose);
    assert b.Some?;
  }

  /** Without a reasoning pair in order, and with no `<thinking>` pair in order either,
      neither tag branch returns, so the result is the phrase search. */
  lemma NoTagTextUsesMarkers(s: string)
    requires Between(s, ThinkingOpen, ThinkingClose).None?
    requires Between(s, ReasoningOpen, ReasoningClose).None?
    ensures ExtractReasoning(s) == FromMarkers(s)
  {
  }

  /** Without a thinking pair, reasoning tags that are both present but out of order (or
      adjacent) fall through to the phrase search. */
  lemma MisorderedReasoningUsesMarkers(s: string)
    requires !BothTags(s, ThinkingOpen, ThinkingClose)
    requires BothTags(s, ReasoningOpen, ReasoningClose)
    requires Find(s, ReasoningOpen) + |ReasoningOpen| >= Find(s, ReasoningClose)
    ensures ExtractReasoning(s) == FromMarkers(s)
  {
    NoTagTextUsesMarkers(s);
  }

  /** Whitespace at the end of a text that starts with `m` cannot reach into `m` when `m`
      ends in a visible character, so `rstrip` keeps the prefix. */
  lemma RStripKeepsPrefix(t: string, m: string)
    requires StartsWith(t, m) && |m| > 0 && !IsSpace(m[|m| - 1])
    ensures StartsWith(RStrip(t), m)
  {
    RStripDropsSpaces(t);
    var r := RStrip(t);
    assert t[|m| - 1] == m[|m| - 1];
    assert |r| >= |m|;
    assert r[..|m|] == t[..|m|];
  }

  /** `strip` keeps a prefix that begins and ends with visible characters. */
  lemma StripKeepsPrefix(t: string, m: string)
    requires StartsWith(t, m) && |m| > 0 && !IsSpace(m[0]) && !IsSpace(m[|m| - 1])
    ensures StartsWith(Strip(t), m)
  {
    assert t[0] == m[0];
    assert LStrip(t) == t;
    RStripKeepsPrefix(t, m);
  }

  /** A window of at least `|m|` characters opened where `m` occurs starts with `m`. */
  lemma WindowStartsWith(s: string, m: string, p: nat, w: nat)
    requires OccursAt(s, m, p) && |m| <= w
    ensures StartsWith(Slice(s, p, p + w), m)
  {
    var t := Slice(s, p, p + w);
    if p + w <= |s| {
      assert t == s[p..p + w];
    } else {
      assert t == s[p..|s|];
    }
    assert t[..|m|] == s[p..p + |m|];
  }

  /** A phrase that begins and ends with a visible character and fits in the window. */
  predicate Visible(m: string) {
    0 < |m| <= MarkerWindow && !IsSpace(m[0]) && !IsSpace(m[|m| - 1])
  }

  /** Every reasoning phrase is visible at both ends and fits in the window. */
  lemma MarkersVisible()
    ensures forall i :: 0 <= i < |Markers| ==> Visible(Markers[i])
  {
  }

  /** The trimmed window of `w` characters opened where a visible-ended `m` occurs is at most
      `w` long and starts with `m`. */
  lemma MarkerWindowContents(s: string, m: string, p: nat)
    requires OccursAt(s, m, p) && Visible(m)
    ensures |Strip(Slice(s, p, p + MarkerWindow))| <= MarkerWindow
    ensures StartsWith(Strip(Slice(s, p, p + MarkerWindow)), m)
  {
    var t := Slice(s, p, p + MarkerWindow);
    assert StartsWith(t, m) by {
      WindowStartsWith(s, m, p, MarkerWindow);
    }
    StripKeepsPrefix(t, m);
  }

  /** The text taken at a visible phrase is at most a window long and starts with the phrase. */
  lemma MarkerTextStartsWithMarker(s: string, m: string)
    requires Contains(s, m) && Visible(m)
    ensures |MarkerText(s, m)| <= MarkerWindow && StartsWith(MarkerText(s, m), m)
  {
    MarkerWindowContents(s, m, Find(s, m));
  }

  /** The marker search over visible phrases, when one occurs, takes the text at the first
      phrase in list order that occurs: at most a window long, starting with that phrase. */
  lemma MarkerSearchFound(s: string, markers: seq<string>)
    requires forall k :: 0 <= k < |markers| ==> Visible(markers[k])
    requires FirstMarker(s, markers, 0) >= 0
    ensures var m := markers[FirstMarker(s, markers, 0)];
      && MarkerSearch(s, markers) == MarkerText(s, m)
      && MarkerSearch(s, markers) == Strip(Slice(s, Find(s, m), Find(s, m) + MarkerWindow))
      && |MarkerSearch(s, markers)| <= MarkerWindow
      && StartsWith(MarkerSearch(s, markers), m)
  {
    var m := markers[FirstMarker(s, markers, 0)];
    MarkerTextStartsWithMarker(s, m);
  }

  /** The marker branch: the first marker in list order that occurs anywhere in `s` (not
      the one occurring earliest) wins, and the result is at most 2000 characters starting
      with that marker at its first occurrence. */
  lemma MarkerBranch(s: string)
    requires FirstMarker(s, Markers, 0) >= 0
    ensures var i := FirstMarker(s, Markers, 0);
      && (forall j :: 0 <= j < i ==> !Contains(s, Markers[j]))
      && FromMarkers(s) == MarkerText(s, Markers[i])
      && FromMarkers(s) == Strip(Slice(s, Find(s, Markers[i]), Find(s, Markers[i]) + MarkerWindow))
      && |FromMarkers(s)| <= MarkerWindow
      && StartsWith(FromMarkers(s), Markers[i])
  {
    MarkersVisible();
    MarkerSearchFound(s, Markers);
  }

  /** The fallback: with no marker anywhere, the result is the trimmed first 1000 characters. */
  lemma FallbackBranch(s: string)
    requires forall j :: 0 <= j < |Markers| ==> !Contains(s, Markers[j])
    ensures FromMarkers(s) == FallbackText(s)
    ensures FromMarkers(s) == Strip(Slice(s, 0, FallbackWindow))
  {
    assert FirstMarker(s, Markers, 0) == -1;
  }
}

=== FILE: reasoning_repo.dfy ===
/** Reasoning logs of `SharedState` (src/core/state_manager.py): logging an agent's reasoning
    under a time-and-agent id, and the filtered, newest-first, truncated query. */
module ReasoningRepo {
  import opened Wrappers
  import opened OrderedMaps
  import opened StateSchema
  import opened Text
  import Seqs

  /** `f"log_{int(time.time())}_{agent}"`. Two logs by one agent in the same second share it. */
  function LogId(now: real, agent: string): string {
    "log_" + IntToString(Trunc(now)) + "_" + agent
  }

  /** `tags.split(",") if tags else []`: the comma-free pieces that join back to the tag string. */
  function ParseTags(tags: Option<string>): (r: seq<string>)
    ensures Truthy(tags) ==> Join(r, ",") == tags.value && forall i :: 0 <= i < |r| ==> ',' !in r[i]
    ensures !Truthy(tags) ==> r == []
  {
    if Truthy(tags) then Split(tags.value, ',') else []
  }

  /** `log_reasoning`: stores the entry under its id, overwriting any entry already there,
      and returns the id; nothing else changes. */
  function LogReasoning(d: Document, agent: string, taskId: string, reasoning: string, tags: Option<string>,
                        now: real): (r: (Document, string))
    ensures r.1 == LogId(now, agent)
    ensures r.0 == d.(reasoningLogs := r.0.reasoningLogs)
    ensures Get(r.0.reasoningLogs, r.1) == Some(ReasoningLog(r.1, agent, taskId, reasoning, ParseTags(tags), now))
    ensures forall k :: k != r.1 ==> Get(r.0.reasoningLogs, k) == Get(d.reasoningLogs, k)
    ensures HasKey(d.reasoningLogs, r.1) ==> Keys(r.0.reasoningLogs) == Keys(d.reasoningLogs)
    ensures !HasKey(d.reasoningLogs, r.1) ==> Keys(r.0.reasoningLogs) == Keys(d.reasoningLogs) + [r.1]
    ensures forall l :: l in Values(r.0.reasoningLogs) ==>
      l == ReasoningLog(r.1, agent, taskId, reasoning, ParseTags(tags), now) || l in Values(d.reasoningLogs)
    ensures Valid(d) ==> Valid(r.0)
  {
    var id := LogId(now, agent);
    var entry := ReasoningLog(id, agent, taskId, reasoning, ParseTags(tags), now);
    var logs := Put(d.reasoningLogs, id, entry);
    assert !HasKey(d.reasoningLogs, id) ==> Keys(logs) == Keys(d.reasoningLogs) + [id] by {
      if !HasKey(d.reasoningLogs, id) {
        assert Keys(logs) == Keys(d.reasoningLogs) + [id];
      }
    }
    PutValues(d.reasoningLogs, id, entry);
    (d.(reasoningLogs := logs), id)
  }

  /** Two logs by the same agent within the same second get the same id: the second
      replaces the first, and the number of logs does not grow. */
  lemma SameSecondLogOverwrites(d: Document, agent: string, task1: string, reasoning1: string, tags1: Option<string>,
                                now1: real, task2: string, reasoning2: string, tags2: Option<string>, now2: real)
    requires Trunc(now1) == Trunc(now2)
    ensures var r1 := LogReasoning(d, agent, task1, reasoning1, tags1, now1);
      var r2 := LogReasoning(r1.0, agent, task2, reasoning2, tags2, now2);
      && r2.1 == r1.1
      && |r2.0.reasoningLogs| == |r1.0.reasoningLogs|
      && Get(r2.0.reasoningLogs, r1.1).value.reasoning == reasoning2
  {
    var r1 := LogReasoning(d, agent, task1, reasoning1, tags1, now1);
    var r2 := LogReasoning(r1.0, agent, task2, reasoning2, tags2, now2);
    assert HasKey(r1.0.reasoningLogs, r2.1);
    assert |Keys(r2.0.reasoningLogs)| == |Keys(r1.0.reasoningLogs)|;
  }

  /** The filters of `get_reasoning_logs`, each skipped when absent; the tag filter keeps a
      log carrying any of the requested tags. */
  predicate LogMatches(l: ReasoningLog, agent: Option<string>, taskId: Option<string>, tags: Option<seq<string>>) {
    && (agent.None? || l.agent == agent.value)
    && (taskId.None? || l.taskId == taskId.value)
    && (tags.None? || exists t :: t in tags.value && t in l.tags)
  }

  /** The stored logs passing the filters, in insertion order (`.values()` order) and each as
      often as it is stored. */
  function Matching(d: Document, agent: Option<string>, taskId: Option<string>, tags: Option<seq<string>>)
    : (r: seq<ReasoningLog>)
    ensures forall l :: l in r <==> l in Values(d.reasoningLogs) && LogMatches(l, agent, taskId, tags)
    ensures Seqs.Subseq(r, Values(d.reasoningLogs))
    ensures forall l :: multiset(r)[l] == if LogMatches(l, agent, taskId, tags) then multiset(Values(d.reasoningLogs))[l] else 0
  {
    Seqs.Filter(Values(d.reasoningLogs), (l: ReasoningLog) => LogMatches(l, agent, taskId, tags))
  }

  /** The sort key of `get_reasoning_logs`. */
  function LogTimestamp(l: ReasoningLog): real {
    l.timestamp
  }

  /** `get_reasoning_logs`: the matching logs, newest first (a stable sort), cut to `limit`
      with Python slice semantics. The result is the newest `limit` matches: every match left
      out is no newer than anything returned, and among matches with equal timestamps the
      ones returned are the first in insertion order. */
  function GetReasoningLogs(d: Document, agent: Option<string>, taskId: Option<string>, tags: Option<seq<string>>,
                            limit: int): (r: seq<ReasoningLog>)
    ensures Seqs.SortedDesc(r, LogTimestamp)
    ensures forall l :: l in r ==> l in Values(d.reasoningLogs) && LogMatches(l, agent, taskId, tags)
    ensures multiset(r) <= multiset(Matching(d, agent, taskId, tags))
    ensures |r| == Seqs.SliceLen(|Matching(d, agent, taskId, tags)|, limit)
    ensures forall x :: x in multiset(Matching(d, agent, taskId, tags)) - multiset(r) ==>
      forall i :: 0 <= i < |r| ==> LogTimestamp(r[i]) >= LogTimestamp(x)
    ensures forall t :: Seqs.Filter(r, Seqs.KeyIs(LogTimestamp, t)) <= Seqs.Filter(Matching(d, agent, taskId, tags), Seqs.KeyIs(LogTimestamp, t))
  {
    var matching := Matching(d, agent, taskId, tags);
    Seqs.TopDesc(matching, LogTimestamp, limit)
  }

  /** The entry just logged is among the stored values. */
  lemma LoggedEntryStored(d: Document, agent: string, taskId: string, reasoning: string, tags: Option<string>, now: real)
    ensures var r := LogReasoning(d, agent, taskId, reasoning, tags, now);
      ReasoningLog(r.1, agent, taskId, reasoning, ParseTags(tags), now) in Values(r.0.reasoningLogs)
  {
    var r := LogReasoning(d, agent, taskId, reasoning, tags, now);
    var i := IndexOf(r.0.reasoningLogs, r.1);
    assert Values(r.0.reasoningLogs)[i] == r.0.reasoningLogs[i].1;
  }

  /** Every stored log is the new log or an older one. */
  lemma NewLogIsNewest(d: Document, agent: string, taskId: string, reasoning: string, tags: Option<string>, now: real)
    requires forall l :: l in Values(d.reasoningLogs) ==> l.timestamp < now
    ensures var r := LogReasoning(d, agent, taskId, reasoning, tags, now);
      var e := ReasoningLog(r.1, agent, taskId, reasoning, ParseTags(tags), now);
      forall x :: x in Values(r.0.reasoningLogs) ==> x == e || x.timestamp < e.timestamp
  {
  }

  /** A stored log of `agent` newer than every other stored log heads the query by that agent
      for any positive limit. */
  lemma NewestMatchFirst(d: Document, agent: string, e: ReasoningLog, limit: int)
    requires limit >= 1 && e in Values(d.reasoningLogs) && e.agent == agent
    requires forall l :: l in Values(d.reasoningLogs) ==> l == e || l.timestamp < e.timestamp
    ensures var q := GetReasoningLogs(d, Some(agent), None, None, limit);
      |q| >= 1 && q[0] == e
  {
    var m := Matching(d, Some(agent), None, None);
    assert e in m;
    Seqs.TopDescHead(m, LogTimestamp, limit, e);
  }

  /** A log newer than every stored log heads the query by its agent for any positive limit. */
  lemma NewestLogListedFirst(d: Document, agent: string, taskId: string, reasoning: string, tags: Option<string>,
                             now: real, limit: int)
    requires forall l :: l in Values(d.reasoningLogs) ==> l.timestamp < now
    requires limit >= 1
    ensures var r := LogReasoning(d, agent, taskId, reasoning, tags, now);
      var q := GetReasoningLogs(r.0, Some(agent), None, None, limit);
      |q| >= 1 && q[0] == ReasoningLog(r.1, agent, taskId, reasoning, ParseTags(tags), now)
  {
    var r := LogReasoning(d, agent, taskId, reasoning, tags, now);
    var e := ReasoningLog(r.1, agent, taskId, reasoning, ParseTags(tags), now);
    LoggedEntryStored(d, agent, taskId, reasoning, tags, now);
    NewLogIsNewest(d, agent, taskId, reasoning, tags, now);
    NewestMatchFirst(r.0, agent, e, limit);
  }
}

=== FILE: scheduler.dfy ===
/** The capability scheduler `find_best_agent_for_task` (src/core/state_manager.py).

    Every active agent is scored `0.7 * match + 0.3 / (1 + |tasks_current|)`, where `match`
    is 1 for an empty requirement set and otherwise the fraction of required capabilities
    the agent has. The first agent, in registry order, whose score is strictly greater than
    the best so far (initially -1) wins. Scores are exact reals here, not IEEE doubles. */
module Scheduler {
  import opened Wrappers
  import opened OrderedMaps
  import opened StateSchema

  /** Python `set(xs)`. */
  function ToSet(xs: seq<string>): set<string> {
    set x | x in xs
  }

  /** The capability-match part of the score. */
  function MatchScore(capabilities: seq<string>, required: seq<string>): (r: real)
    ensures 0.0 <= r <= 1.0
    ensures |ToSet(required)| == 0 ==> r == 1.0
    ensures |ToSet(required)| > 0 ==> r * (|ToSet(required)| as real) == |ToSet(capabilities) * ToSet(required)| as real
  {
    var req := ToSet(required);
    if |req| == 0 then 1.0
    else
      var common := ToSet(capabilities) * req;
      assert common <= req;
      SubsetCard(common, req);
      (|common| as real) / (|req| as real)
  }

  /** A subset is no larger than its superset. */
  lemma SubsetCard(a: set<string>, b: set<string>)
    requires a <= b
    ensures |a| <= |b|
  {
    assert b == a + (b - a);
  }

  /** The workload part of the score: fewer current tasks scores higher. */
  function WorkloadScore(a: Agent): (r: real)
    ensures 0.0 < r <= 1.0
  {
    1.0 / ((|a.tasksCurrent| + 1) as real)
  }

  /** The combined score; always in (0, 1], so it beats the initial best of -1. */
  function Score(a: Agent, required: seq<string>): (r: real)
    ensures 0.0 < r <= 1.0
  {
    0.7 * MatchScore(a.capabilities, required) + 0.3 * WorkloadScore(a)
  }

  predicate IsActive(a: Agent) {
    a.status == "active"
  }

  /** The scoring of `find_best_agent_for_task` for one set of requirements. */
  function ScoreOf(required: seq<string>): (f: Agent -> real)
    ensures forall a :: f(a) == Score(a, required)
  {
    a => Score(a, required)
  }

  /** Position `k` holds an active agent scoring at least as well as every active agent and
      strictly better than every active agent before it. */
  ghost predicate IsChoice(agents: OMap<string, Agent>, score: Agent -> real, k: int, n: int) {
    && 0 <= k < n <= |agents|
    && IsActive(agents[k].1)
    && (forall j :: 0 <= j < n && IsActive(agents[j].1) ==> score(agents[j].1) <= score(agents[k].1))
    && (forall j :: 0 <= j < k && IsActive(agents[j].1) ==> score(agents[j].1) < score(agents[k].1))
  }

  /** The loop of `find_best_agent_for_task` over the first `n` agents, starting from a best
      score of -1: the position of the agent it would hold as best, or None. Every score lies
      above -1, so the first active agent is always taken. */
  function BestAmong(agents: OMap<string, Agent>, score: Agent -> real, n: nat): (r: Option<nat>)
    requires n <= |agents|
    requires forall a :: score(a) > -1.0
    ensures r.None? <==> forall j :: 0 <= j < n ==> !IsActive(agents[j].1)
    ensures r.Some? ==> IsChoice(agents, score, r.value, n)
    decreases n
  {
    if n == 0 then None
    else
      var prev := BestAmong(agents, score, n - 1);
      var bestScore := if prev.None? then -1.0 else score(agents[prev.value].1);
      var a := agents[n - 1].1;
      if IsActive(a) && score(a) > bestScore then Some(n - 1) else prev
  }

  /** `find_best_agent_for_task`: None exactly when no agent is active; otherwise the id of
      the first active agent with the greatest score. */
  function FindBestAgentForTask(d: Document, required: seq<string>): (r: Option<string>)
    ensures r.None? <==> forall j :: 0 <= j < |d.agents| ==> !IsActive(d.agents[j].1)
    ensures r.Some? ==> exists k :: IsChoice(d.agents, ScoreOf(required), k, |d.agents|) && d.agents[k].0 == r.value
  {
    match BestAmong(d.agents, ScoreOf(required), |d.agents|)
    case None => None
    case Some(k) => Some(d.agents[k].0)
  }

  /** At most one position satisfies `IsChoice`, so the choice is determined by the scores. */
  lemma ChoiceUnique(agents: OMap<string, Agent>, score: Agent -> real, k1: int, k2: int, n: int)
    requires IsChoice(agents, score, k1, n) && IsChoice(agents, score, k2, n)
    ensures k1 == k2
  {
  }

  /** An agent with more current tasks has a smaller workload score. */
  lemma WorkloadDecreasing(a: Agent, b: Agent)
    requires |a.tasksCurrent| > |b.tasksCurrent|
    ensures WorkloadScore(a) < WorkloadScore(b)
  {
    var x, y := (|a.tasksCurrent| + 1) as real, (|b.tasksCurrent| + 1) as real;
    var wa, wb := 1.0 / x, 1.0 / y;
    assert wa * x == 1.0 && wb * y == 1.0;
    assert wb * (x - y) > 0.0;
    assert (wb - wa) * x > 0.0;
  }

  /** With no requirements the match part is full, so the least-loaded active agent wins. */
  lemma {:induction false} NoRequirementsPrefersLeastLoaded(d: Document, i: int)
    requires 0 <= i < |d.agents| && IsActive(d.agents[i].1)
    ensures FindBestAgentForTask(d, []).Some?
    ensures exists k :: (0 <= k < |d.agents| && d.agents[k].0 == FindBestAgentForTask(d, []).value
      && |d.agents[k].1.tasksCurrent| <= |d.agents[i].1.tasksCurrent|)
  {
    assert FindBestAgentForTask(d, []).Some?;
    var k :| IsChoice(d.agents, ScoreOf([]), k, |d.agents|) && d.agents[k].0 == FindBestAgentForTask(d, []).value;
    var a, b := d.agents[k].1, d.agents[i].1;
    assert ScoreOf([])(b) <= ScoreOf([])(a);
    assert ToSet([]) == {};
    assert MatchScore(a.capabilities, []) == 1.0 && MatchScore(b.capabilities, []) == 1.0;
    assert Score(b, []) <= Score(a, []);
    if |a.tasksCurrent| > |b.tasksCurrent| {
      WorkloadDecreasing(a, b);
    }
  }

  /** The match scores `PythonTaskGoesToA1` relies on. */
  lemma ScenarioMatchScores()
    ensures MatchScore(["python", "api"], ["python"]) == 1.0
    ensures MatchScore(["css"], ["python"]) == 0.0
  {
    var py: string := "python";
    assert "api" != py && "css" != py;
    assert ToSet([py]) == {py};
    assert ToSet([py, "api"]) * {py} == {py};
    assert ToSet(["css"]) * {py} == {};
  }

  /** Two active, idle agents: `a1` with {python, api} and `a2` with {css}; a task needing
      python goes to `a1`. */
  lemma PythonTaskGoesToA1(d: Document)
    requires d.agents == [
      ("a1", Agent("backend", ["python", "api"], "active", 0.0, 0.0, 0, [])),
      ("a2", Agent("frontend", ["css"], "active", 0.0, 0.0, 0, []))]
    ensures FindBestAgentForTask(d, ["python"]) == Some("a1")
  {
    ScenarioMatchScores();
    var a1, a2 := d.agents[0].1, d.agents[1].1;
    assert WorkloadScore(a1) == 1.0 && WorkloadScore(a2) == 1.0;
    assert Score(a1, ["python"]) == 1.0;
    assert Score(a2, ["python"]) == 0.3;
    var f := ScoreOf(["python"]);
    assert f(a1) == 1.0 && f(a2) == 0.3;
    assert BestAmong(d.agents, f, 1) == Some(0);
    assert BestAmong(d.agents, f, 2) == Some(0);
  }
}

=== FILE: seqs.dfy ===
/** Python list idioms used by the store: comprehension filters, `list.remove`,
    stable `sorted(..., reverse=True)` and the `[:n]` slice. */
module Seqs {

  /** `r` is `s` with some elements left out: the elements of `r` occur in `s`, in the same
      order. */
  predicate Subseq<T(==)>(r: seq<T>, s: seq<T>)
    decreases |s|
  {
    if |r| == 0 then true
    else if |s| == 0 then false
    else (r[0] == s[0] && Subseq(r[1..], s[1..])) || Subseq(r, s[1..])
  }

  /** No element occurs twice. */
  predicate NoDup<T(==)>(s: seq<T>) {
    forall i, j :: 0 <= i < j < |s| ==> s[i] != s[j]
  }

  /** `[x for x in s if p(x)]`, as the comprehension computes it, element by element. */
  function Kept<T>(s: seq<T>, p: T -> bool): seq<T>
    decreases |s|
  {
    if |s| == 0 then [] else (if p(s[0]) then [s[0]] else []) + Kept(s[1..], p)
  }

  /** `[x for x in s if p(x)]`: the elements of `s` that satisfy `p`, in their order in `s`
      and each as often as in `s`. */
  function Filter<T(==,!new)>(s: seq<T>, p: T -> bool): (r: seq<T>)
    ensures |r| <= |s|
    ensures Subseq(r, s)
    ensures forall x :: multiset(r)[x] == if p(x) then multiset(s)[x] else 0
    ensures forall x :: x in r <==> x in s && p(x)
    ensures |r| == |s| <==> forall i :: 0 <= i < |s| ==> p(s[i])
  {
    KeptSelects(s, p);
    Kept(s, p)
  }

  /** What `Kept` keeps: a subsequence with the elements satisfying `p`, as often as in `s`. */
  lemma {:induction false} KeptSelects<T(!new)>(s: seq<T>, p: T -> bool)
    ensures var r := Kept(s, p);
      && |r| <= |s|
      && Subseq(r, s)
      && (forall x :: multiset(r)[x] == if p(x) then multiset(s)[x] else 0)
      && (forall x :: x in r <==> x in s && p(x))
      && (|r| == |s| <==> forall i :: 0 <= i < |s| ==> p(s[i]))
    decreases |s|
  {
    if |s| > 0 {
      KeptSelects(s[1..], p);
      KeptStep(s, p, Kept(s[1..], p));
    }
  }

  /** One step of `Kept`: its contract for `s` from its contract for the tail of `s`. */
  lemma KeptStep<T>(s: seq<T>, p: T -> bool, rest: seq<T>)
    requires |s| > 0
    requires |rest| <= |s| - 1 && Subseq(rest, s[1..])
    requires forall x :: multiset(rest)[x] == if p(x) then multiset(s[1..])[x] else 0
    requires forall x :: x in rest <==> x in s[1..] && p(x)
    requires |rest| == |s| - 1 <==> forall i :: 0 <= i < |s[1..]| ==> p(s[1..][i])
    ensures var r := (if p(s[0]) then [s[0]] else []) + rest;
      && |r| <= |s|
      && Subseq(r, s)
      && (forall x :: multiset(r)[x] == if p(x) then multiset(s)[x] else 0)
      && (forall x :: x in r <==> x in s && p(x))
      && (|r| == |s| <==> forall i :: 0 <= i < |s| ==> p(s[i]))
  {
    assert s == [s[0]] + s[1..];
    assert forall i :: 1 <= i < |s| ==> s[1..][i - 1] == s[i];
    if p(s[0]) {
      assert ([s[0]] + rest)[1..] == rest;
    } else {
      assert [] + rest == rest;
    }
  }

  /** A subsequence takes each element at most as often as the sequence holds it. */
  lemma {:induction false} SubseqMultiset<T>(r: seq<T>, s: seq<T>)
    requires Subseq(r, s)
    ensures multiset(r) <= multiset(s)
    decreases |s|
  {
    if |r| > 0 {
      assert s == [s[0]] + s[1..];
      if r[0] == s[0] && Subseq(r[1..], s[1..]) {
        SubseqMultiset(r[1..], s[1..]);
        assert r == [r[0]] + r[1..];
      } else {
        SubseqMultiset(r, s[1..]);
      }
    }
  }

  /** Joining subsequences of two sequences gives a subsequence of the joined sequences. */
  lemma {:induction false} SubseqAppend<T>(a: seq<T>, b: seq<T>, c: seq<T>, e: seq<T>)
    requires Subseq(a, c) && Subseq(b, e)
    ensures Subseq(a + b, c + e)
    decreases |c|
  {
    if |a| == 0 {
      assert a + b == b;
      SubseqExtend(b, c, e);
    } else {
      assert (a + b)[0] == a[0] && (a + b)[1..] == a[1..] + b;
      assert (c + e)[0] == c[0] && (c + e)[1..] == c[1..] + e;
      if a[0] == c[0] && Subseq(a[1..], c[1..]) {
        SubseqAppend(a[1..], b, c[1..], e);
      } else {
        SubseqAppend(a, b, c[1..], e);
      }
    }
  }

  /** A subsequence of `e` is one of any `c + e`. */
  lemma {:induction false} SubseqExtend<T>(b: seq<T>, c: seq<T>, e: seq<T>)
    requires Subseq(b, e)
    ensures Subseq(b, c + e)
    decreases |c|
  {
    if |c| == 0 {
      assert c + e == e;
    } else if |b| > 0 {
      assert (c + e)[1..] == c[1..] + e;
      SubseqExtend(b, c[1..], e);
    }
  }

  /** A sequence that holds nothing but `x`, and `x` once, is `[x]`. */
  lemma OnlyElement<T>(s: seq<T>, x: T)
    requires forall y :: y in s ==> y == x
    requires multiset(s)[x] == 1
    ensures s == [x]
  {
    assert multiset(s) == multiset{x} by {
      forall y ensures multiset(s)[y] == multiset{x}[y] {
        if y != x {
          assert y !in s;
        }
      }
    }
    assert |s| == |multiset(s)| == 1;
    assert s[0] in s;
  }

  /** The elements of `s`, each once, at its first occurrence. */
  function Dedup<T(==,!new)>(s: seq<T>): (r: seq<T>)
    ensures NoDup(r)
    ensures forall x :: x in r <==> x in s
    ensures Subseq(r, s)
    decreases |s|
  {
    if |s| == 0 then []
    else
      var d := Dedup(s[..|s| - 1]);
      var x := s[|s| - 1];
      assert s == s[..|s| - 1] + [x];
      assert forall y :: y in s <==> y in s[..|s| - 1] || y == x;
      if x in d then
        SubseqAppend(d, [], s[..|s| - 1], [x]);
        assert d + [] == d;
        d
      else
        SubseqAppend(d, [x], s[..|s| - 1], [x]);
        d + [x]
  }

  /** A subsequence of a sequence without repetitions has none either. */
  lemma {:induction false} SubseqNoDup<T>(r: seq<T>, s: seq<T>)
    requires Subseq(r, s) && NoDup(s)
    ensures NoDup(r)
    decreases |s|
  {
    if |r| > 0 {
      assert NoDup(s[1..]) by {
        forall i, j | 0 <= i < j < |s[1..]| ensures s[1..][i] != s[1..][j] {
          assert s[1..][i] == s[i + 1] && s[1..][j] == s[j + 1];
        }
      }
      if r[0] == s[0] && Subseq(r[1..], s[1..]) {
        SubseqNoDup(r[1..], s[1..]);
        SubseqMultiset(r[1..], s[1..]);
        assert s[0] !in s[1..] by {
          forall j | 0 <= j < |s[1..]| ensures s[1..][j] != s[0] {
            assert s[1..][j] == s[j + 1];
          }
        }
        forall i, j | 0 <= i < j < |r| ensures r[i] != r[j] {
          assert r[j] == r[1..][j - 1];
          assert r[j] in multiset(r[1..]);
          if i > 0 {
            assert r[i] == r[1..][i - 1];
          }
        }
      } else {
        SubseqNoDup(r, s[1..]);
      }
    }
  }

  /** `Filter` is the only subsequence of `s` holding exactly the elements that satisfy `p`,
      as often as `s` does: its contract determines it. */
  lemma FilterUnique<T(!new)>(s: seq<T>, p: T -> bool, r: seq<T>)
    requires Subseq(r, s)
    requires forall x :: multiset(r)[x] == if p(x) then multiset(s)[x] else 0
    ensures r == Filter(s, p)
  {
    KeptUnique(s, p, r);
  }

  /** The induction behind `FilterUnique`. */
  lemma {:induction false} KeptUnique<T(!new)>(s: seq<T>, p: T -> bool, r: seq<T>)
    requires Subseq(r, s)
    requires forall x :: multiset(r)[x] == if p(x) then multiset(s)[x] else 0
    ensures r == Kept(s, p)
    decreases |s|
  {
    if |s| == 0 {
      assert multiset(r) == multiset{};
    } else {
      var x := s[0];
      assert s == [x] + s[1..];
      if p(x) {
        assert multiset(r)[x] >= 1;
        assert r[0] == x && Subseq(r[1..], s[1..]) by {
          if !(r[0] == x && Subseq(r[1..], s[1..])) {
            assert Subseq(r, s[1..]);
            SubseqMultiset(r, s[1..]);
            assert false;
          }
        }
        assert r == [x] + r[1..];
        KeptUnique(s[1..], p, r[1..]);
      } else {
        if |r| > 0 {
          assert r[0] in multiset(r);
          assert Subseq(r, s[1..]);
        }
        KeptUnique(s[1..], p, r);
        assert [] + Kept(s[1..], p) == Kept(s[1..], p);
      }
    }
  }

  /** Filtering distributes over concatenation. */
  lemma FilterAppend<T(!new)>(a: seq<T>, b: seq<T>, p: T -> bool)
    ensures Filter(a + b, p) == Filter(a, p) + Filter(b, p)
  {
    KeptAppend(a, b, p);
  }

  /** The induction behind `FilterAppend`. */
  lemma {:induction false} KeptAppend<T>(a: seq<T>, b: seq<T>, p: T -> bool)
    ensures Kept(a + b, p) == Kept(a, p) + Kept(b, p)
    decreases |a|
  {
    if |a| == 0 {
      assert a + b == b;
    } else {
      assert (a + b)[0] == a[0] && (a + b)[1..] == a[1..] + b;
      KeptAppend(a[1..], b, p);
      var h := if p(a[0]) then [a[0]] else [];
      assert Kept(a + b, p) == h + (Kept(a[1..], p) + Kept(b, p));
      assert Kept(a, p) == h + Kept(a[1..], p);
    }
  }

  /** Filtering keeps a sequence whose elements all pass. */
  lemma FilterAll<T(!new)>(s: seq<T>, p: T -> bool)
    requires forall x :: x in s ==> p(x)
    ensures Filter(s, p) == s
  {
    KeptAll(s, p);
  }

  /** The induction behind `FilterAll`. */
  lemma {:induction false} KeptAll<T>(s: seq<T>, p: T -> bool)
    requires forall x :: x in s ==> p(x)
    ensures Kept(s, p) == s
    decreases |s|
  {
    if |s| > 0 {
      assert s[0] in s;
      assert forall x :: x in s[1..] ==> x in s;
      KeptAll(s[1..], p);
      assert s == [s[0]] + s[1..];
    }
  }

  /** Filtering a sequence with a first element `x`. */
  lemma FilterCons<T(!new)>(x: T, t: seq<T>, p: T -> bool)
    ensures Filter([x] + t, p) == (if p(x) then [x] else []) + Filter(t, p)
  {
    assert ([x] + t)[1..] == t;
  }

  /** `s.remove(x)` on a list: drops the first occurrence of `x`, if any. */
  function RemoveFirst<T(==)>(s: seq<T>, x: T): (r: seq<T>)
    ensures x in s ==> |r| == |s| - 1 && multiset(r) == multiset(s) - multiset{x}
    ensures x !in s ==> r == s
  {
    if |s| == 0 then s
    else if s[0] == x then
      assert s == [s[0]] + s[1..];
      s[1..]
    else
      assert s == [s[0]] + s[1..];
      [s[0]] + RemoveFirst(s[1..], x)
  }

  /** `s` is ordered by `key`, largest first. */
  ghost predicate SortedDesc<T>(s: seq<T>, key: T -> real) {
    forall i, j :: 0 <= i < j < |s| ==> key(s[i]) >= key(s[j])
  }

  /** Putting an element no smaller than all of a sorted sequence in front keeps it sorted. */
  lemma ConsSorted<T>(a: T, t: seq<T>, key: T -> real)
    requires SortedDesc(t, key)
    requires forall j :: 0 <= j < |t| ==> key(t[j]) <= key(a)
    ensures SortedDesc([a] + t, key)
  {
    forall i, j | 0 <= i < j < |[a] + t| ensures key(([a] + t)[i]) >= key(([a] + t)[j]) {
      assert ([a] + t)[j] == t[j - 1];
      if i > 0 {
        assert ([a] + t)[i] == t[i - 1];
      }
    }
  }

  /** Places `x` before the first element of `s` whose key is not larger than its own, so
      among equal keys the inserted element comes first. */
  function InsertDesc<T>(x: T, s: seq<T>, key: T -> real): (r: seq<T>)
    requires SortedDesc(s, key)
    ensures SortedDesc(r, key)
    ensures multiset(r) == multiset(s) + multiset{x}
    ensures |r| == |s| + 1
    decreases |s|
  {
    if |s| == 0 || key(s[0]) <= key(x) then
      ConsSorted(x, s, key);
      [x] + s
    else
      var rest := InsertDesc(x, s[1..], key);
      assert s == [s[0]] + s[1..];
      forall j | 0 <= j < |rest|
        ensures key(rest[j]) <= key(s[0])
      {
        assert rest[j] in multiset(rest);
        assert rest[j] == x || rest[j] in s[1..];
      }
      ConsSorted(s[0], rest, key);
      [s[0]] + rest
  }

  /** `sorted(s, key=key, reverse=True)`: a stable sort, largest key first. */
  function SortDesc<T>(s: seq<T>, key: T -> real): (r: seq<T>)
    ensures SortedDesc(r, key)
    ensures multiset(r) == multiset(s)
    ensures |r| == |s|
    decreases |s|
  {
    if |s| == 0 then []
    else
      assert s == [s[0]] + s[1..];
      InsertDesc(s[0], SortDesc(s[1..], key), key)
  }

  /** The test "has key `k`", for filtering out the elements a stable sort must keep in order. */
  function KeyIs<T>(key: T -> real, k: real): T -> bool {
    (x: T) => key(x) == k
  }

  /** Inserting into a sorted sequence puts `x` ahead of every element with the same key and
      moves no other element past one with its own key. */
  lemma InsertDescStable<T(!new)>(x: T, s: seq<T>, key: T -> real, k: real)
    requires SortedDesc(s, key)
    ensures Filter(InsertDesc(x, s, key), KeyIs(key, k)) == (if key(x) == k then [x] else []) + Filter(s, KeyIs(key, k))
  {
    InsertKept(x, s, key, KeyIs(key, k), k);
  }

  /** The induction behind `InsertDescStable`, for any test `p` that is "has key `k`". */
  lemma {:induction false} InsertKept<T>(x: T, s: seq<T>, key: T -> real, p: T -> bool, k: real)
    requires SortedDesc(s, key)
    requires forall y :: p(y) <==> key(y) == k
    ensures Kept(InsertDesc(x, s, key), p) == (if p(x) then [x] else []) + Kept(s, p)
    decreases |s|
  {
    if |s| == 0 || key(s[0]) <= key(x) {
      assert ([x] + s)[0] == x && ([x] + s)[1..] == s;
    } else {
      SortedTail(s, key);
      InsertKept(x, s[1..], key, p, k);
      assert InsertDesc(x, s, key) == [s[0]] + InsertDesc(x, s[1..], key);
      PassOver(x, s, InsertDesc(x, s[1..], key), key, p, k);
    }
  }

  /** The tail of a sorted sequence is sorted. */
  lemma SortedTail<T>(s: seq<T>, key: T -> real)
    requires SortedDesc(s, key) && |s| > 0
    ensures SortedDesc(s[1..], key)
  {
    forall i, j | 0 <= i < j < |s[1..]| ensures key(s[1..][i]) >= key(s[1..][j]) {
      assert s[1..][i] == s[i + 1] && s[1..][j] == s[j + 1];
    }
  }

  /** Insertion passing over a head with a larger key than `x`'s: the head and `x` never have
      the same key, so their order among equal keys is not at stake. */
  lemma PassOver<T>(x: T, s: seq<T>, rest: seq<T>, key: T -> real, p: T -> bool, k: real)
    requires |s| > 0 && key(s[0]) > key(x)
    requires forall y :: p(y) <==> key(y) == k
    requires Kept(rest, p) == (if p(x) then [x] else []) + Kept(s[1..], p)
    ensures Kept([s[0]] + rest, p) == (if p(x) then [x] else []) + Kept(s, p)
  {
    assert ([s[0]] + rest)[0] == s[0] && ([s[0]] + rest)[1..] == rest;
    var t := Kept(s[1..], p);
    var h := if p(s[0]) then [s[0]] else [];
    assert Kept(s, p) == h + t;
    assert Kept([s[0]] + rest, p) == h + Kept(rest, p);
    if p(x) {
      assert h == [];
      assert Kept([s[0]] + rest, p) == [x] + t;
    } else {
      assert Kept(rest, p) == t;
    }
  }

  /** `SortDesc` is stable: the elements with any one key keep their relative order. */
  lemma {:induction false} SortDescStable<T(!new)>(s: seq<T>, key: T -> real, k: real)
    ensures Filter(SortDesc(s, key), KeyIs(key, k)) == Filter(s, KeyIs(key, k))
    decreases |s|
  {
    if |s| > 0 {
      var p := KeyIs(key, k);
      assert s == [s[0]] + s[1..];
      SortDescStable(s[1..], key, k);
      InsertDescStable(s[0], SortDesc(s[1..], key), key, k);
      FilterCons(s[0], s[1..], p);
    }
  }

  /** The length of Python's `s[:n]` for a sequence of length `len`: `n` capped at `len`, and
      a negative `n` counting from the end. */
  function SliceLen(len: nat, n: int): (r: nat)
    ensures r <= len
    ensures 0 <= n ==> r == if n <= len then n else len
  {
    if n >= 0 then (if n <= len then n else len)
    else if len + n >= 0 then len + n
    else 0
  }

  /** Python `s[:n]`: a negative `n` counts from the end. */
  function Take<T>(s: seq<T>, n: int): (r: seq<T>)
    ensures |r| == SliceLen(|s|, n)
    ensures r == s[..|r|]
  {
    if n >= 0 then (if n <= |s| then s[..n] else s)
    else if |s| + n >= 0 then s[..|s| + n]
    else []
  }

  /** The concatenation of `f(x)` over the elements `x` of `xs`, in order. */
  function FlatMap<A, B>(xs: seq<A>, f: A -> seq<B>): seq<B>
    decreases |xs|
  {
    if |xs| == 0 then [] else f(xs[0]) + FlatMap(xs[1..], f)
  }

  /** Mapping a concatenation concatenates the mapped parts. */
  lemma {:induction false} FlatMapAppend<A, B>(xs: seq<A>, ys: seq<A>, f: A -> seq<B>)
    ensures FlatMap(xs + ys, f) == FlatMap(xs, f) + FlatMap(ys, f)
    decreases |xs|
  {
    if |xs| == 0 {
      assert xs + ys == ys;
    } else {
      assert (xs + ys)[1..] == xs[1..] + ys;
      FlatMapAppend(xs[1..], ys, f);
    }
  }

  /** Splitting a sequence splits its multiset. */
  lemma SplitMultiset<T>(s: seq<T>, n: nat)
    requires n <= |s|
    ensures multiset(s) == multiset(s[..n]) + multiset(s[n..])
  {
    assert s == s[..n] + s[n..];
  }

  /** Sequences with the same multiset have the same members. */
  lemma SameMembers<T>(a: seq<T>, b: seq<T>)
    requires multiset(a) == multiset(b)
    ensures forall x :: x in a <==> x in b
  {
    forall x ensures x in a <==> x in b {
      assert x in a <==> x in multiset(a);
      assert x in b <==> x in multiset(b);
    }
  }

  /** The first `n` elements of a sorted sequence are sorted, and are its top `n`: each is at
      least as large as every element after them. */
  lemma SortedPrefixTop<T>(s: seq<T>, key: T -> real, n: nat)
    requires SortedDesc(s, key) && n <= |s|
    ensures SortedDesc(s[..n], key)
    ensures forall x :: x in s[n..] ==> forall i :: 0 <= i < n ==> key(s[i]) >= key(x)
  {
    forall x | x in s[n..]
      ensures forall i :: 0 <= i < n ==> key(s[i]) >= key(x)
    {
      var j :| 0 <= j < |s[n..]| && s[n..][j] == x;
      assert s[n + j] == x;
    }
  }

  /** What is left out of a prefix lies in the rest. */
  lemma DropsLieAfter<T>(s: seq<T>, n: nat)
    requires n <= |s|
    ensures forall x :: x in multiset(s) - multiset(s[..n]) ==> x in s[n..]
  {
    SplitMultiset(s, n);
    forall x | x in multiset(s) - multiset(s[..n]) ensures x in s[n..] {
      assert x in multiset(s[n..]);
    }
  }

  /** The head of a sorted sequence has the largest key. */
  lemma SortedHeadMax<T>(s: seq<T>, key: T -> real)
    requires SortedDesc(s, key) && |s| >= 1
    ensures forall x :: x in s ==> key(s[0]) >= key(x)
  {
    forall x | x in s ensures key(s[0]) >= key(x) {
      var j :| 0 <= j < |s| && s[j] == x;
    }
  }

  /** A prefix of a sorted sequence is sorted, is part of it, and holds its top elements:
      nothing left out is larger than anything kept, and the head is the largest of all. */
  lemma PrefixTop<T>(sorted: seq<T>, key: T -> real, k: nat)
    requires SortedDesc(sorted, key) && k <= |sorted|
    ensures SortedDesc(sorted[..k], key)
    ensures multiset(sorted[..k]) <= multiset(sorted)
    ensures forall x :: x in multiset(sorted) - multiset(sorted[..k]) ==>
      forall i :: 0 <= i < k ==> key(sorted[..k][i]) >= key(x)
    ensures k >= 1 ==> forall x :: x in sorted ==> key(sorted[..k][0]) >= key(x)
  {
    SplitMultiset(sorted, k);
    SortedPrefixTop(sorted, key, k);
    DropsLieAfter(sorted, k);
    if k >= 1 {
      SortedHeadMax(sorted, key);
    }
  }

  /** `sorted(s, key=key, reverse=True)[:n]`: the `n` largest elements, largest first. */
  function TopDesc<T(==,!new)>(s: seq<T>, key: T -> real, n: int): (r: seq<T>)
    ensures SortedDesc(r, key)
    ensures multiset(r) <= multiset(s)
    ensures forall x :: x in r ==> x in s
    ensures |r| == SliceLen(|s|, n)
    ensures forall x :: x in multiset(s) - multiset(r) ==> forall i :: 0 <= i < |r| ==> key(r[i]) >= key(x)
    ensures |r| >= 1 ==> forall x :: x in s ==> key(r[0]) >= key(x)
    ensures forall k :: Filter(r, KeyIs(key, k)) <= Filter(s, KeyIs(key, k))
  {
    var sorted := SortDesc(s, key);
    var r := Take(sorted, n);
    PrefixTop(sorted, key, |r|);
    SameMembers(sorted, s);
    assert forall x :: x in r ==> x in sorted;
    forall k ensures Filter(r, KeyIs(key, k)) <= Filter(s, KeyIs(key, k)) {
      SortDescStable(s, key, k);
      PrefixFilter(sorted, |r|, KeyIs(key, k));
    }
    r
  }

  /** Filtering a prefix gives a prefix of the filtered sequence. */
  lemma PrefixFilter<T(!new)>(s: seq<T>, m: nat, p: T -> bool)
    requires m <= |s|
    ensures Filter(s[..m], p) <= Filter(s, p)
  {
    assert s == s[..m] + s[m..];
    FilterAppend(s[..m], s[m..], p);
  }

  /** An element strictly larger than all others heads every non-empty top list. */
  lemma TopDescHead<T(!new)>(s: seq<T>, key: T -> real, n: int, e: T)
    requires e in s && n >= 1
    requires forall x :: x in s ==> x == e || key(x) < key(e)
    ensures |TopDesc(s, key, n)| >= 1 && TopDesc(s, key, n)[0] == e
  {
    var r := TopDesc(s, key, n);
    assert |r| >= 1;
    assert r[0] in multiset(s);
  }
}

=== FILE: state_schema.dfy ===
/** The shared-state document of `SharedState` (src/core/state_manager.py) and its entities.

    The document is one JSON object with six collections. Dictionaries are ordered
    association lists (`OrderedMaps`); list-valued fields the code creates lazily
    (`subtasks`, `status_history`, `tasks_current`) are modelled as always present,
    with an absent list read as empty. */
module StateSchema {
  import opened Wrappers
  import opened OrderedMaps

  /** `config.MAX_AGENTS`. */
  const MaxAgents: nat := 10

  /** The `name` of each entry of `config.AGENTS`, in declaration order. */
  const ConfiguredAgents: seq<string> := ["team_lead", "agent1", "agent2", "agent3"]

  /** One `status_history` record of a task. */
  datatype HistoryEntry = HistoryEntry(status: string, message: string, timestamp: real)

  /** A task. `priority` is absent on subtasks, which the code creates without one;
      `parentId` is present only on subtasks. */
  datatype Task = Task(
    id: string,
    description: string,
    assignedTo: Option<string>,
    status: string,
    priority: Option<string>,
    createdAt: real,
    updatedAt: real,
    requiredCapabilities: seq<string>,
    parentId: Option<string>,
    subtasks: seq<string>,
    statusHistory: seq<HistoryEntry>)

  /** A registered agent, stored under its id. */
  datatype Agent = Agent(
    agentType: string,
    capabilities: seq<string>,
    status: string,
    lastActive: real,
    createdAt: real,
    tasksCompleted: int,
    tasksCurrent: seq<string>)

  /** One message of the `messages` list. */
  datatype Message = Message(
    id: string,
    sender: string,
    receiver: string,
    content: string,
    channel: string,
    priority: string,
    timestamp: real,
    read: bool)

  /** A registered branch, stored under its name. */
  datatype Branch = Branch(description: string, owner: string, createdAt: real, status: string)

  datatype Comment = Comment(author: string, content: string, timestamp: real)

  datatype Approval = Approval(author: string, timestamp: real)

  /** A pull request, stored under its id. */
  datatype PullRequest = PullRequest(
    title: string,
    description: string,
    sourceBranch: string,
    targetBranch: string,
    author: string,
    status: string,
    createdAt: real,
    updatedAt: real,
    comments: seq<Comment>,
    approvals: seq<Approval>)

  /** A reasoning log entry, stored under its id. */
  datatype ReasoningLog = ReasoningLog(
    id: string,
    agent: string,
    taskId: string,
    reasoning: string,
    tags: seq<string>,
    timestamp: real)

  /** The whole persisted state. */
  datatype Document = Document(
    tasks: OMap<string, seq<Task>>,
    agents: OMap<string, Agent>,
    messages: seq<Message>,
    branches: OMap<string, Branch>,
    pullRequests: OMap<string, PullRequest>,
    reasoningLogs: OMap<string, ReasoningLog>)

  /** The state `_initialize_state_file` writes. */
  const Initial: Document := Document([], [], [], [], [], [])

  /** Every dictionary of the document has distinct keys. */
  ghost predicate Valid(d: Document) {
    && DistinctKeys(d.tasks)
    && DistinctKeys(d.agents)
    && DistinctKeys(d.branches)
    && DistinctKeys(d.pullRequests)
    && DistinctKeys(d.reasoningLogs)
  }

  /** Python `int(x)` on a float: truncation toward zero. */
  function Trunc(x: real): (r: int)
    ensures 0.0 <= x ==> r as real <= x < r as real + 1.0
    ensures x < 0.0 ==> r as real - 1.0 < x <= r as real
  {
    if x >= 0.0 then x.Floor else -((-x).Floor)
  }
}

=== FILE: task_analyzer.dfy ===
/** `TaskAnalyzer` (src/utils/task_analyzer.py): classifies a task description into a task
    type, proposes the subtask template of that type, and renders one `create_subtask`
    command line per proposed subtask.

    Regular-expression search is not modelled: every operation that searches takes the
    matcher `matches(pattern, text)` (Python's `re.search(pattern, text) is not None`) as a
    parameter, so the properties hold for every matcher. */
module TaskAnalyzer {
  import opened Wrappers
  import opened OrderedMaps
  import opened Text

  /** One entry of a subtask template. */
  datatype Subtask = Subtask(description: string, agent: string, capabilities: string)

  /** The dictionary `analyze_task` returns. */
  datatype Analysis = Analysis(taskId: string, taskType: string, subtasks: seq<Subtask>, commands: seq<string>)

  const SelfEnhancement: string := "self_enhancement"
  const General: string := "general"

  /** `TASK_PATTERNS`, in dictionary order. */
  const TaskPatterns: OMap<string, seq<string>> := [
    (SelfEnhancement, [
      "self.?enhancement", "enhanc(e|ing).*capabilit(y|ies)", "creat(e|ing) tool(s| kit)?",
      "tool(s| kit)? (for|to) enhance", "search.*internet", "web search", "coding sandbox",
      "web brows(er|ing)", "browse.*web", "internet.*tool", "internet.*search", "search.*web",
      "way to search", "coding test", "run coding", "deploy.*main file", "browser.*internet",
      "way to browser"]),
    ("data_analysis", [
      "data analysis", "analyze.*data", "process.*dataset", "dashboard", "visualiz(e|ation)",
      "statistic(s|al)"]),
    ("frontend_development", [
      "frontend", "ui", "user interface", "web.*design", "css", "html", "react", "vue", "angular"]),
    ("backend_development", [
      "backend", "server", "api", "database", "endpoint", "rest", "graphql"])
  ]

  /** `SUBTASK_TEMPLATES`, in dictionary order. */
  const SubtaskTemplates: OMap<string, seq<Subtask>> := [
    (SelfEnhancement, [
      Subtask("Develop a web search tool that allows Claude to search the internet for up-to-date information using search APIs",
              "agent3", "api,python,integration"),
      Subtask("Create a code sandbox environment that allows Claude to test code before deploying it to main files, including execution and validation features",
              "agent3", "python,api"),
      Subtask("Implement a web browsing interface that allows Claude to navigate websites, extract content, and interact with web pages",
              "agent2", "javascript,visualization"),
      Subtask("Create a unified user interface that integrates all enhancement tools with a clean, intuitive frontend",
              "agent1", "css,javascript")]),
    ("data_analysis", [
      Subtask("Load and clean the dataset, handling missing values and outliers", "agent2", "python,data_processing"),
      Subtask("Perform exploratory data analysis and generate statistical insights", "agent3", "python,analytics"),
      Subtask("Create data visualizations and charts to represent key findings", "agent1", "visualization,javascript"),
      Subtask("Prepare final report with insights and recommendations based on the analysis", "team_lead", "analytics,documentation")]),
    ("frontend_development", [
      Subtask("Design UI mockups and layout for the application", "agent1", "design,css"),
      Subtask("Implement core UI components and responsive design", "agent2", "javascript,css"),
      Subtask("Create client-side logic and data handling", "agent3", "javascript,api")]),
    ("backend_development", [
      Subtask("Design database schema and data models", "agent2", "database,python"),
      Subtask("Implement API endpoints and server logic", "agent3", "api,python"),
      Subtask("Create authentication and authorization system", "agent1", "security,api")])
  ]

  /** The explicit self-enhancement indicators checked before any pattern is scored. */
  predicate SelfEnhancementHint(lower: string) {
    || (Contains(lower, "enhance") && (Contains(lower, "capabilities") || Contains(lower, "ability")))
    || (Contains(lower, "search") && Contains(lower, "internet"))
    || (Contains(lower, "coding") && (Contains(lower, "sandbox") || Contains(lower, "test")))
    || (Contains(lower, "browser") && Contains(lower, "internet"))
  }

  /** How many of `patterns` match `text`. */
  function MatchCount(patterns: seq<string>, text: string, matches: (string, string) -> bool): (r: nat)
    ensures r <= |patterns|
    ensures r == 0 <==> forall i :: 0 <= i < |patterns| ==> !matches(patterns[i], text)
    ensures r == |patterns| <==> forall i :: 0 <= i < |patterns| ==> matches(patterns[i], text)
    decreases |patterns|
  {
    if |patterns| == 0 then 0
    else
      var rest := MatchCount(patterns[1..], text, matches);
      assert forall i :: 1 <= i < |patterns| ==> patterns[i] == patterns[1..][i - 1];
      (if matches(patterns[0], text) then 1 else 0) + rest
  }

  /** The weight of one matching pattern: double for self-enhancement. */
  function Weight(taskType: string): (r: nat)
    ensures r == (if taskType == SelfEnhancement then 2 else 1)
  {
    if taskType == SelfEnhancement then 2 else 1
  }

  /** `type_scores`: one score per entry of a pattern table, in order. */
  function Scores(table: OMap<string, seq<string>>, text: string, matches: (string, string) -> bool): (r: seq<nat>)
    ensures |r| == |table|
    ensures forall i :: 0 <= i < |r| ==> r[i] == Weight(table[i].0) * MatchCount(table[i].1, text, matches)
  {
    seq(|table|, i requires 0 <= i < |table| => Weight(table[i].0) * MatchCount(table[i].1, text, matches))
  }

  /** Position `k` among the first `n` scores holds a greatest score, and every earlier score
      is strictly smaller: what Python's `max` returns (it keeps the first of equal maxima). */
  predicate FirstBest(scores: seq<nat>, k: int, n: int) {
    && 0 <= k < n <= |scores|
    && (forall j :: 0 <= j < n ==> scores[j] <= scores[k])
    && (forall j :: 0 <= j < k ==> scores[j] < scores[k])
  }

  /** `max(..., key=score)` over the first `n` scores, as a position. */
  function ArgMax(scores: seq<nat>, n: nat): (r: nat)
    requires 0 < n <= |scores|
    ensures FirstBest(scores, r, n)
    decreases n
  {
    if n == 1 then 0
    else
      var p := ArgMax(scores, n - 1);
      if scores[n - 1] > scores[p] then n - 1 else p
  }

  /** Only one position is the first greatest, so `ArgMax` is determined by the scores. */
  lemma FirstBestUnique(scores: seq<nat>, k1: int, k2: int, n: int)
    requires FirstBest(scores, k1, n) && FirstBest(scores, k2, n)
    ensures k1 == k2
  {
    assert scores[k1] == scores[k2];
  }

  /** Some score is non-zero: Python's `any(type_scores.values())`. */
  predicate AnyPositive(scores: seq<nat>) {
    exists i :: 0 <= i < |scores| && scores[i] > 0
  }

  /** The scoring of `_identify_task_type` over a pattern table: "general" when no score is
      positive; otherwise the type with the greatest score, the earliest on a tie. */
  function Classify(table: OMap<string, seq<string>>, lower: string, matches: (string, string) -> bool): (r: string)
    ensures !AnyPositive(Scores(table, lower, matches)) ==> r == General
    ensures AnyPositive(Scores(table, lower, matches)) ==>
      exists k :: FirstBest(Scores(table, lower, matches), k, |table|) && r == table[k].0
  {
    var scores := Scores(table, lower, matches);
    if AnyPositive(scores) then
      var k := ArgMax(scores, |scores|);
      table[k].0
    else General
  }

  /** Over a table without a "general" type, the result is "general" exactly when no pattern
      of any type matches. */
  lemma ClassifyGeneralIffNoMatch(table: OMap<string, seq<string>>, lower: string, matches: (string, string) -> bool)
    requires General !in Keys(table)
    ensures Classify(table, lower, matches) == General <==>
      forall i, j :: 0 <= i < |table| && 0 <= j < |table[i].1| ==> !matches(table[i].1[j], lower)
  {
    var scores := Scores(table, lower, matches);
    if AnyPositive(scores) {
      var k := ArgMax(scores, |scores|);
      assert Classify(table, lower, matches) == table[k].0;
      assert Keys(table)[k] == table[k].0;
      var i :| 0 <= i < |scores| && scores[i] > 0;
      assert MatchCount(table[i].1, lower, matches) > 0;
    } else {
      forall i | 0 <= i < |table|
        ensures forall j :: 0 <= j < |table[i].1| ==> !matches(table[i].1[j], lower)
      {
        assert scores[i] == 0;
      }
    }
  }

  /** The type names of `TASK_PATTERNS`; "general" is not among them. */
  lemma TypeNames()
    ensures Keys(TaskPatterns) == [SelfEnhancement, "data_analysis", "frontend_development", "backend_development"]
    ensures General !in Keys(TaskPatterns)
  {
  }

  /** `_identify_task_type` over `TASK_PATTERNS`. */
  function IdentifyTaskType(lower: string, matches: (string, string) -> bool): (r: string)
    ensures r == General <==>
      forall i, j :: 0 <= i < |TaskPatterns| && 0 <= j < |TaskPatterns[i].1| ==> !matches(TaskPatterns[i].1[j], lower)
    ensures r != General ==> exists k :: FirstBest(Scores(TaskPatterns, lower, matches), k, |TaskPatterns|) && r == TaskPatterns[k].0
  {
    TypeNames();
    ClassifyGeneralIffNoMatch(TaskPatterns, lower, matches);
    Classify(TaskPatterns, lower, matches)
  }

  /** `_get_suggested_breakdown`: the template of the type, or no subtasks for a type without
      one (in particular "general"). */
  function SuggestedBreakdown(taskType: string): (r: seq<Subtask>)
    ensures HasKey(SubtaskTemplates, taskType) ==> (taskType, r) in SubtaskTemplates
    ensures !HasKey(SubtaskTemplates, taskType) ==> r == []
  {
    Get(SubtaskTemplates, taskType).GetOr([])
  }

  /** The fixed part of every breakdown command. */
  const CommandHead: string := "python3 $REPO_ROOT/src/cli/state_cli.py create_subtask "

  /** The quoted fields of a command: task id, description and agent, then the capabilities
      after `--capabilities`, each in double quotes, none escaped. */
  function QuotedFields(taskId: string, s: Subtask): string {
    "\"" + taskId + "\"" + " " + "\"" + s.description + "\"" + " " + "\"" + s.agent + "\""
      + " --capabilities " + "\"" + s.capabilities + "\""
  }

  /** The command line creating `s` under `taskId`. */
  function Command(taskId: string, s: Subtask): string {
    CommandHead + QuotedFields(taskId, s)
  }

  /** `generate_breakdown_commands`: one command per subtask, in order. */
  function GenerateBreakdownCommands(taskId: string, subtasks: seq<Subtask>): (r: seq<string>)
    ensures |r| == |subtasks|
    ensures forall i :: 0 <= i < |r| ==> r[i] == Command(taskId, subtasks[i])
  {
    seq(|subtasks|, i requires 0 <= i < |subtasks| => Command(taskId, subtasks[i]))
  }

  /** `analyze_task`: the explicit indicators force "self_enhancement"; otherwise the pattern
      scores decide. The subtasks are the template of that type and the commands render them. */
  function AnalyzeTask(taskId: string, description: string, matches: (string, string) -> bool): (r: Analysis)
    ensures r.taskId == taskId
    ensures SelfEnhancementHint(Lower(description)) ==> r.taskType == SelfEnhancement
    ensures !SelfEnhancementHint(Lower(description)) ==> r.taskType == IdentifyTaskType(Lower(description), matches)
    ensures r.subtasks == SuggestedBreakdown(r.taskType)
    ensures r.commands == GenerateBreakdownCommands(taskId, r.subtasks)
  {
    var lower := Lower(description);
    var taskType := if SelfEnhancementHint(lower) then SelfEnhancement else IdentifyTaskType(lower, matches);
    var subtasks := SuggestedBreakdown(taskType);
    Analysis(taskId, taskType, subtasks, GenerateBreakdownCommands(taskId, subtasks))
  }

  /** The fields of a command after its fixed head, in the order they appear between its
      double quotes. */
  function CommandParts(taskId: string, s: Subtask): seq<string> {
    ["", taskId, " ", s.description, " ", s.agent, " --capabilities ", s.capabilities, ""]
  }

  /** Joining with a separator, one part at a time from the right. */
  lemma {:induction false} JoinSnoc(ps: seq<string>, p: string, sep: string)
    requires |ps| >= 1
    ensures Join(ps + [p], sep) == Join(ps, sep) + sep + p
    decreases |ps|
  {
    if |ps| == 1 {
      assert (ps + [p])[1..] == [p];
    } else {
      assert (ps + [p])[1..] == ps[1..] + [p];
      JoinSnoc(ps[1..], p, sep);
    }
  }

  /** The quoted fields are the fields joined by double quotes. */
  lemma QuotedFieldsJoin(taskId: string, s: Subtask)
    ensures QuotedFields(taskId, s) == Join(CommandParts(taskId, s), "\"")
  {
    var q := "\"";
    var p1 := [""];
    var p2 := p1 + [taskId];
    JoinSnoc(p1, taskId, q);
    var p3 := p2 + [" "];
    JoinSnoc(p2, " ", q);
    var p4 := p3 + [s.description];
    JoinSnoc(p3, s.description, q);
    var p5 := p4 + [" "];
    JoinSnoc(p4, " ", q);
    var p6 := p5 + [s.agent];
    JoinSnoc(p5, s.agent, q);
    var p7 := p6 + [" --capabilities "];
    JoinSnoc(p6, " --capabilities ", q);
    var p8 := p7 + [s.capabilities];
    JoinSnoc(p7, s.capabilities, q);
    var p9 := p8 + [""];
    JoinSnoc(p8, "", q);
    assert "" + q == q;
    assert QuotedFields(taskId, s) + q + "" == QuotedFields(taskId, s) + q;
    assert CommandParts(taskId, s) == p9;
  }

  /** Reads a command back into its task id and subtask: the fixed head, then the fields
      between double quotes. */
  function ParseCommand(cmd: string): (r: Option<(string, Subtask)>)
    ensures r.Some? ==> StartsWith(cmd, CommandHead)
    ensures r.Some? ==> '"' !in r.value.0 && QuoteFree(r.value.1)
  {
    if !StartsWith(cmd, CommandHead) then None
    else
      var ps := Split(cmd[|CommandHead|..], '"');
      if |ps| == 9 && ps[0] == "" && ps[2] == " " && ps[4] == " " && ps[6] == " --capabilities " && ps[8] == ""
      then Some((ps[1], Subtask(ps[3], ps[5], ps[7])))
      else None
  }

  /** No field of the subtask holds a double quote. */
  predicate QuoteFree(s: Subtask) {
    '"' !in s.description && '"' !in s.agent && '"' !in s.capabilities
  }

  /** A command whose fields hold no double quote reads back as the task id and subtask it
      was built from. */
  lemma CommandRoundTrip(taskId: string, s: Subtask)
    requires '"' !in taskId && QuoteFree(s)
    ensures ParseCommand(Command(taskId, s)) == Some((taskId, s))
  {
    var ps := CommandParts(taskId, s);
    var cmd := Command(taskId, s);
    QuotedFieldsJoin(taskId, s);
    StartsWithConcat(CommandHead, QuotedFields(taskId, s));
    assert cmd[|CommandHead|..] == QuotedFields(taskId, s);
    assert '"' !in " --capabilities ";
    assert forall i :: 0 <= i < |ps| ==> '"' !in ps[i];
    var sp := Split(cmd[|CommandHead|..], '"');
    assert sp == ps by {
      SplitJoin(ps, '"');
    }
    assert sp[1] == taskId && sp[3] == s.description && sp[5] == s.agent && sp[7] == s.capabilities;
  }

  /** Fields are not escaped, so a double quote inside a description can make two different
      subtasks render the same command. */
  lemma QuotedFieldsAmbiguous(taskId: string)
    ensures Command(taskId, Subtask("a\" \"b", "c", "d")) == Command(taskId, Subtask("a", "b\" \"c", "d"))
  {
  }

  /** The generated commands read back, in order, as the subtasks they were generated from,
      when no field holds a double quote. */
  lemma CommandsReadBack(taskId: string, subtasks: seq<Subtask>)
    requires '"' !in taskId
    requires forall i :: 0 <= i < |subtasks| ==> QuoteFree(subtasks[i])
    ensures var cs := GenerateBreakdownCommands(taskId, subtasks);
      forall i :: 0 <= i < |cs| ==> ParseCommand(cs[i]) == Some((taskId, subtasks[i]))
  {
    forall i | 0 <= i < |subtasks|
      ensures ParseCommand(Command(taskId, subtasks[i])) == Some((taskId, subtasks[i]))
    {
      CommandRoundTrip(taskId, subtasks[i]);
    }
  }

  /** The explicit indicators win over any pattern scores: with them, the type is
      self-enhancement and the four self-enhancement subtasks are proposed. */
  lemma HintForcesSelfEnhancement(taskId: string, description: string, matches: (string, string) -> bool)
    requires SelfEnhancementHint(Lower(description))
    ensures AnalyzeTask(taskId, description, matches).taskType == SelfEnhancement
    ensures AnalyzeTask(taskId, description, matches).subtasks == SubtaskTemplates[0].1
  {
    assert SuggestedBreakdown(SelfEnhancement) == SubtaskTemplates[0].1;
  }

  /** Without indicators and with no pattern matching, the task is "general" and gets neither
      subtasks nor commands. */
  lemma NoMatchIsGeneral(taskId: string, description: string, matches: (string, string) -> bool)
    requires !SelfEnhancementHint(Lower(description))
    requires forall i, j :: 0 <= i < |TaskPatterns| && 0 <= j < |TaskPatterns[i].1| ==>
      !matches(TaskPatterns[i].1[j], Lower(description))
    ensures AnalyzeTask(taskId, description, matches) == Analysis(taskId, General, [], [])
  {
    assert !HasKey(SubtaskTemplates, General);
  }
}

=== FILE: task_repo.dfy ===
/** Task management of `SharedState` (src/core/state_manager.py): add, subtask creation,
    status updates, deletion and the filtered query. Tasks live in per-branch buckets,
    `tasks: branch -> list of task`, whose order is creation order. */
module TaskRepo {
  import opened Wrappers
  import opened OrderedMaps
  import opened StateSchema
  import opened Text
  import Seqs

  /** `f"task_{int(time.time())}_{len(bucket)}"`: unique neither across buckets nor over time. */
  function TaskId(now: real, position: nat): string {
    "task_" + IntToString(Trunc(now)) + "_" + NatToString(position)
  }

  /** `f"subtask_{int(time.time())}_{uuid4().hex[:8]}"`, with the hex digits given. */
  function SubtaskId(now: real, hex: string): string {
    "subtask_" + IntToString(Trunc(now)) + "_" + hex
  }

  /** The bucket of `branch`, empty when there is none. */
  function Bucket(tasks: OMap<string, seq<Task>>, branch: string): seq<Task> {
    Get(tasks, branch).GetOr([])
  }

  /** A new task record in status "pending". */
  function PendingTask(id: string, description: string, assignedTo: Option<string>, priority: Option<string>,
                       capabilities: seq<string>, parentId: Option<string>, now: real): Task {
    Task(id, description, assignedTo, "pending", priority, now, now, capabilities, parentId, [], [])
  }

  /** The assignment side effect of add_task and create_subtask: a non-empty assignee that is
      registered gets the new id appended to its current tasks; otherwise nothing changes. */
  function AssignTo(agents: OMap<string, Agent>, assignedTo: Option<string>, taskId: string): (r: OMap<string, Agent>)
    ensures !(Truthy(assignedTo) && HasKey(agents, assignedTo.value)) ==> r == agents
    ensures Truthy(assignedTo) && HasKey(agents, assignedTo.value) ==>
      && Keys(r) == Keys(agents)
      && Get(r, assignedTo.value).value.tasksCurrent == Get(agents, assignedTo.value).value.tasksCurrent + [taskId]
      && Get(r, assignedTo.value) == Some(Get(agents, assignedTo.value).value.(tasksCurrent := Get(r, assignedTo.value).value.tasksCurrent))
      && (forall a :: a != assignedTo.value ==> Get(r, a) == Get(agents, a))
    ensures DistinctKeys(agents) ==> DistinctKeys(r)
  {
    if Truthy(assignedTo) && HasKey(agents, assignedTo.value) then
      var a := Get(agents, assignedTo.value).value;
      Put(agents, assignedTo.value, a.(tasksCurrent := a.tasksCurrent + [taskId]))
    else agents
  }

  /** `add_task`: appends one pending task to the bucket of `branch` (creating the bucket at
      the end of the dictionary if needed), leaves every other bucket alone, and returns the
      new id, built from the clock and the bucket's former length. */
  function AddTask(d: Document, branch: string, description: string, assignedTo: Option<string>,
                   priority: string, requiredCapabilities: Option<seq<string>>, now: real): (r: (Document, string))
    ensures r.1 == TaskId(now, |Bucket(d.tasks, branch)|)
    ensures Bucket(r.0.tasks, branch) == Bucket(d.tasks, branch)
      + [PendingTask(r.1, description, assignedTo, Some(priority), requiredCapabilities.GetOr([]), None, now)]
    ensures forall b :: b != branch ==> Get(r.0.tasks, b) == Get(d.tasks, b)
    ensures Keys(r.0.tasks) == if HasKey(d.tasks, branch) then Keys(d.tasks) else Keys(d.tasks) + [branch]
    ensures r.0 == d.(tasks := r.0.tasks, agents := AssignTo(d.agents, assignedTo, r.1))
    ensures Valid(d) ==> Valid(r.0)
  {
    var bucket := Bucket(d.tasks, branch);
    var id := TaskId(now, |bucket|);
    var task := PendingTask(id, description, assignedTo, Some(priority), requiredCapabilities.GetOr([]), None, now);
    (d.(tasks := Put(d.tasks, branch, bucket + [task]), agents := AssignTo(d.agents, assignedTo, id)), id)
  }

  /** No task of the bucket has id `taskId`. */
  predicate Absent(bucket: seq<Task>, taskId: string) {
    forall t :: t in bucket ==> t.id != taskId
  }

  /** Some bucket named in `scope` holds a task with id `taskId`. */
  ghost predicate InScope(tasks: OMap<string, seq<Task>>, scope: seq<string>, taskId: string) {
    exists k :: 0 <= k < |scope| && !Absent(Bucket(tasks, scope[k]), taskId)
  }

  /** The position of the first task with id `taskId` in a bucket, or -1. */
  function TaskIndex(bucket: seq<Task>, taskId: string): (r: int)
    ensures r == -1 <==> Absent(bucket, taskId)
    ensures r >= 0 ==> r < |bucket| && bucket[r].id == taskId && forall j :: 0 <= j < r ==> bucket[j].id != taskId
    decreases |bucket|
  {
    if |bucket| == 0 then -1
    else if bucket[0].id == taskId then 0
    else
      var i := TaskIndex(bucket[1..], taskId);
      assert forall j :: 1 <= j < |bucket| ==> bucket[j] == bucket[1..][j - 1];
      if i < 0 then -1 else i + 1
  }

  /** The nested search loop of create_subtask and update_task_status: the first task with id
      `taskId`, scanning the buckets named in `scope` in order, as (scope index, position). */
  function FindTask(tasks: OMap<string, seq<Task>>, scope: seq<string>, taskId: string): (r: Option<(nat, nat)>)
    ensures r.None? <==> !InScope(tasks, scope, taskId)
    ensures r.Some? ==> FoundAt(tasks, scope, taskId, r.value.0, r.value.1)
    decreases |scope|
  {
    if |scope| == 0 then None
    else
      var i := TaskIndex(Bucket(tasks, scope[0]), taskId);
      if i >= 0 then Some((0, i))
      else
        var rest := FindTask(tasks, scope[1..], taskId);
        FindTaskStep(tasks, scope, taskId, rest);
        if rest.None? then None else Some((rest.value.0 + 1, rest.value.1))
  }

  /** The found location, with nothing matching before it in scan order. */
  predicate FoundAt(tasks: OMap<string, seq<Task>>, scope: seq<string>, taskId: string, k: nat, j: nat) {
    && k < |scope|
    && j < |Bucket(tasks, scope[k])|
    && Bucket(tasks, scope[k])[j].id == taskId
    && (forall j' :: 0 <= j' < j ==> Bucket(tasks, scope[k])[j'].id != taskId)
    && (forall k' :: 0 <= k' < k ==> Absent(Bucket(tasks, scope[k']), taskId))
  }

  /** A bucket list holds the id when its first bucket or the remaining ones do. */
  lemma InScopeCons(tasks: OMap<string, seq<Task>>, scope: seq<string>, taskId: string)
    requires |scope| > 0
    ensures InScope(tasks, scope, taskId) <==> !Absent(Bucket(tasks, scope[0]), taskId) || InScope(tasks, scope[1..], taskId)
  {
    var tail := scope[1..];
    if InScope(tasks, scope, taskId) {
      var k :| 0 <= k < |scope| && !Absent(Bucket(tasks, scope[k]), taskId);
      if k > 0 {
        assert tail[k - 1] == scope[k];
      }
    }
    if InScope(tasks, tail, taskId) {
      var k :| 0 <= k < |tail| && !Absent(Bucket(tasks, tail[k]), taskId);
      assert scope[k + 1] == tail[k];
    }
  }

  /** A location found among the remaining buckets is found one bucket later among all of
      them when the first bucket lacks the id. */
  lemma FoundAtShift(tasks: OMap<string, seq<Task>>, scope: seq<string>, taskId: string, k: nat, j: nat)
    requires |scope| > 0 && Absent(Bucket(tasks, scope[0]), taskId)
    requires FoundAt(tasks, scope[1..], taskId, k, j)
    ensures FoundAt(tasks, scope, taskId, k + 1, j)
  {
    var tail := scope[1..];
    assert scope[k + 1] == tail[k];
    forall k' | 0 <= k' < k + 1 ensures Absent(Bucket(tasks, scope[k']), taskId) {
      if k' > 0 {
        assert scope[k'] == tail[k' - 1];
      }
    }
  }

  /** A search of the remaining buckets, shifted by one, is a search of all of them when the
      first bucket lacks the id. */
  lemma FindTaskStep(tasks: OMap<string, seq<Task>>, scope: seq<string>, taskId: string, rest: Option<(nat, nat)>)
    requires |scope| > 0 && Absent(Bucket(tasks, scope[0]), taskId)
    requires rest.None? <==> !InScope(tasks, scope[1..], taskId)
    requires rest.Some? ==> FoundAt(tasks, scope[1..], taskId, rest.value.0, rest.value.1)
    ensures rest.None? <==> !InScope(tasks, scope, taskId)
    ensures rest.Some? ==> FoundAt(tasks, scope, taskId, rest.value.0 + 1, rest.value.1)
  {
    InScopeCons(tasks, scope, taskId);
    if rest.Some? {
      FoundAtShift(tasks, scope, taskId, rest.value.0, rest.value.1);
    }
  }

  /** The parent at position `i` records the subtask's id, and the subtask goes at the end. */
  function WithSubtask(bucket: seq<Task>, i: nat, sub: Task): (r: seq<Task>)
    requires i < |bucket|
    ensures |r| == |bucket| + 1 && r[|bucket|] == sub
    ensures r[i] == bucket[i].(subtasks := bucket[i].subtasks + [sub.id])
    ensures forall j :: 0 <= j < |bucket| && j != i ==> r[j] == bucket[j]
  {
    bucket[i := bucket[i].(subtasks := bucket[i].subtasks + [sub.id])] + [sub]
  }

  /** `create_subtask`: None, with nothing changed, when no bucket holds the parent; otherwise
      the subtask is appended to the bucket of the first task with the parent's id, whose
      `subtasks` list records the new id. */
  function CreateSubtask(d: Document, parentId: string, description: string, assignedTo: Option<string>,
                         requiredCapabilities: Option<seq<string>>, now: real, hex: string): (r: (Document, Option<string>))
    ensures r.1.None? <==> !InScope(d.tasks, Keys(d.tasks), parentId)
    ensures r.1.None? ==> r.0 == d
    ensures r.1.Some? ==>
      var loc := FindTask(d.tasks, Keys(d.tasks), parentId).value;
      var b := Keys(d.tasks)[loc.0];
      var sub := PendingTask(r.1.value, description, assignedTo, None, requiredCapabilities.GetOr([]), Some(parentId), now);
      && r.1.value == SubtaskId(now, hex)
      && Keys(r.0.tasks) == Keys(d.tasks)
      && Bucket(r.0.tasks, b) == WithSubtask(Bucket(d.tasks, b), loc.1, sub)
      && (forall b' :: b' != b ==> Get(r.0.tasks, b') == Get(d.tasks, b'))
      && r.0 == d.(tasks := r.0.tasks, agents := AssignTo(d.agents, assignedTo, r.1.value))
  {
    var found := FindTask(d.tasks, Keys(d.tasks), parentId);
    if found.None? then (d, None)
    else
      var loc := found.value;
      var b := Keys(d.tasks)[loc.0];
      var id := SubtaskId(now, hex);
      var sub := PendingTask(id, description, assignedTo, None, requiredCapabilities.GetOr([]), Some(parentId), now);
      var bucket' := WithSubtask(Bucket(d.tasks, b), loc.1, sub);
      ReplaceBucket(d.tasks, b, bucket');
      (d.(tasks := Put(d.tasks, b, bucket'), agents := AssignTo(d.agents, assignedTo, id)), Some(id))
  }

  /** Assigning an existing bucket keeps the keys and every other bucket. */
  lemma ReplaceBucket(tasks: OMap<string, seq<Task>>, b: string, bucket: seq<Task>)
    requires b in Keys(tasks)
    ensures Keys(Put(tasks, b, bucket)) == Keys(tasks)
    ensures Bucket(Put(tasks, b, bucket), b) == bucket
    ensures forall b' :: b' != b ==> Get(Put(tasks, b, bucket), b') == Get(tasks, b')
  {
    assert HasKey(tasks, b);
  }

  /** `create_subtask` keeps every collection free of duplicate keys. */
  lemma CreateSubtaskValid(d: Document, parentId: string, description: string, assignedTo: Option<string>,
                           requiredCapabilities: Option<seq<string>>, now: real, hex: string)
    requires Valid(d)
    ensures Valid(CreateSubtask(d, parentId, description, assignedTo, requiredCapabilities, now, hex).0)
  {
    var r := CreateSubtask(d, parentId, description, assignedTo, requiredCapabilities, now, hex);
    if r.1.Some? {
      assert DistinctKeys(r.0.tasks) by {
        var loc := FindTask(d.tasks, Keys(d.tasks), parentId).value;
        var b := Keys(d.tasks)[loc.0];
        var sub := PendingTask(r.1.value, description, assignedTo, None, requiredCapabilities.GetOr([]), Some(parentId), now);
        assert r.0.tasks == Put(d.tasks, b, WithSubtask(Bucket(d.tasks, b), loc.1, sub));
      }
    }
  }

  /** The buckets update_task_status searches: only `branch` when it is given and exists,
      otherwise all of them. */
  function StatusScope(tasks: OMap<string, seq<Task>>, branch: Option<string>): (r: seq<string>)
    ensures forall b :: b in r ==> HasKey(tasks, b)
  {
    if Truthy(branch) && HasKey(tasks, branch.value) then [branch.value] else Keys(tasks)
  }

  /** A task after a status update: new status and time, plus a history entry when a
      non-empty message is given. */
  function WithStatus(t: Task, newStatus: string, message: Option<string>, now: real): Task {
    t.(status := newStatus, updatedAt := now,
       statusHistory := if Truthy(message) then t.statusHistory + [HistoryEntry(newStatus, message.value, now)] else t.statusHistory)
  }

  /** The completion side effect of update_task_status on the registry. */
  function CreditCompletion(agents: OMap<string, Agent>, t: Task, newStatus: string, taskId: string): (r: OMap<string, Agent>)
    ensures !(newStatus == "completed" && Truthy(t.assignedTo) && HasKey(agents, t.assignedTo.value)) ==> r == agents
    ensures newStatus == "completed" && Truthy(t.assignedTo) && HasKey(agents, t.assignedTo.value) ==>
      var before := Get(agents, t.assignedTo.value).value;
      && Keys(r) == Keys(agents)
      && Get(r, t.assignedTo.value).Some?
      && var after := Get(r, t.assignedTo.value).value;
      && after.tasksCompleted == before.tasksCompleted + 1
      && (taskId in before.tasksCurrent ==> multiset(after.tasksCurrent) == multiset(before.tasksCurrent) - multiset{taskId})
      && (taskId !in before.tasksCurrent ==> after.tasksCurrent == before.tasksCurrent)
      && after == before.(tasksCompleted := after.tasksCompleted, tasksCurrent := after.tasksCurrent)
      && (forall a :: a != t.assignedTo.value ==> Get(r, a) == Get(agents, a))
    ensures DistinctKeys(agents) ==> DistinctKeys(r)
  {
    if newStatus == "completed" && Truthy(t.assignedTo) && HasKey(agents, t.assignedTo.value) then
      var a := Get(agents, t.assignedTo.value).value;
      Put(agents, t.assignedTo.value, a.(tasksCompleted := a.tasksCompleted + 1, tasksCurrent := Seqs.RemoveFirst(a.tasksCurrent, taskId)))
    else agents
  }

  /** `update_task_status`: false, with nothing changed, exactly when no searched bucket holds
      the id; otherwise only the first matching task is updated. */
  function UpdateTaskStatus(d: Document, taskId: string, newStatus: string, branch: Option<string>,
                            message: Option<string>, now: real): (r: (Document, bool))
    ensures r.1 <==> InScope(d.tasks, StatusScope(d.tasks, branch), taskId)
    ensures !r.1 ==> r.0 == d
    ensures r.1 ==>
      var scope := StatusScope(d.tasks, branch);
      var loc := FindTask(d.tasks, scope, taskId).value;
      var b := scope[loc.0];
      var t := Bucket(d.tasks, b)[loc.1];
      && Keys(r.0.tasks) == Keys(d.tasks)
      && Bucket(r.0.tasks, b) == Bucket(d.tasks, b)[loc.1 := WithStatus(t, newStatus, message, now)]
      && (forall b' :: b' != b ==> Get(r.0.tasks, b') == Get(d.tasks, b'))
      && r.0 == d.(tasks := r.0.tasks, agents := CreditCompletion(d.agents, t, newStatus, taskId))
  {
    var scope := StatusScope(d.tasks, branch);
    match FindTask(d.tasks, scope, taskId)
    case None => (d, false)
    case Some((k, i)) =>
      var b := scope[k];
      var bucket := Bucket(d.tasks, b);
      var t := bucket[i];
      var tasks' := Put(d.tasks, b, bucket[i := WithStatus(t, newStatus, message, now)]);
      (d.(tasks := tasks', agents := CreditCompletion(d.agents, t, newStatus, taskId)), true)
  }

  /** `update_task_status` keeps every collection free of duplicate keys. */
  lemma UpdateTaskStatusValid(d: Document, taskId: string, newStatus: string, branch: Option<string>,
                              message: Option<string>, now: real)
    requires Valid(d)
    ensures Valid(UpdateTaskStatus(d, taskId, newStatus, branch, message, now).0)
  {
    var r := UpdateTaskStatus(d, taskId, newStatus, branch, message, now);
    if r.1 {
      var scope := StatusScope(d.tasks, branch);
      var loc := FindTask(d.tasks, scope, taskId).value;
      var b := scope[loc.0];
      var t := Bucket(d.tasks, b)[loc.1];
      assert r.0.tasks == Put(d.tasks, b, Bucket(d.tasks, b)[loc.1 := WithStatus(t, newStatus, message, now)]);
    }
  }

  /** The buckets delete_task, delete_all_tasks and get_tasks work on: only `branch` when it is
      given (none when it does not exist), otherwise all of them. */
  function BranchScope(tasks: OMap<string, seq<Task>>, branch: Option<string>): (r: seq<string>)
    ensures forall b :: b in r ==> HasKey(tasks, b)
  {
    if Truthy(branch) then (if HasKey(tasks, branch.value) then [branch.value] else []) else Keys(tasks)
  }

  /** The two scopes differ only for a named branch that has no bucket: a status update then
      searches every bucket while the other operations see none. */
  lemma ScopesCompared(tasks: OMap<string, seq<Task>>, branch: Option<string>)
    ensures Truthy(branch) && !HasKey(tasks, branch.value) ==>
      StatusScope(tasks, branch) == Keys(tasks) && BranchScope(tasks, branch) == []
    ensures Truthy(branch) && HasKey(tasks, branch.value) ==>
      StatusScope(tasks, branch) == BranchScope(tasks, branch) == [branch.value]
    ensures !Truthy(branch) ==> StatusScope(tasks, branch) == BranchScope(tasks, branch) == Keys(tasks)
  {
  }

  /** The test "id is not `taskId`". */
  function IdIsNot(taskId: string): Task -> bool {
    (t: Task) => t.id != taskId
  }

  /** The test "not a child of `taskId`". */
  function NotChildOf(taskId: string): Task -> bool {
    (t: Task) => t.parentId != Some(taskId)
  }

  /** `[task for task in ts if task.get("id") != taskId]`: the other tasks, in bucket order and
      each as often as the bucket holds it. */
  function WithoutId(ts: seq<Task>, taskId: string): (r: seq<Task>)
    ensures forall t :: t in r <==> t in ts && t.id != taskId
    ensures Seqs.Subseq(r, ts)
    ensures forall t :: multiset(r)[t] == if t.id != taskId then multiset(ts)[t] else 0
    ensures |r| < |ts| <==> !Absent(ts, taskId)
    ensures Absent(ts, taskId) ==> r == ts
  {
    var r := Seqs.Filter(ts, IdIsNot(taskId));
    assert Absent(ts, taskId) ==> r == ts by {
      if Absent(ts, taskId) {
        Seqs.FilterAll(ts, IdIsNot(taskId));
      }
    }
    r
  }

  /** `[task for task in ts if task.get("parent_id") != taskId]`: the tasks that are not
      children of `taskId`, in bucket order and each as often as the bucket holds it. */
  function WithoutChildren(ts: seq<Task>, taskId: string): (r: seq<Task>)
    ensures forall t :: t in r <==> t in ts && t.parentId != Some(taskId)
    ensures Seqs.Subseq(r, ts)
    ensures forall t :: multiset(r)[t] == if t.parentId != Some(taskId) then multiset(ts)[t] else 0
    ensures |r| <= |ts|
  {
    Seqs.Filter(ts, NotChildOf(taskId))
  }

  /** The first loop of delete_task over the buckets named in `scope`: each loses its tasks
      with id `taskId`; the flag says whether some bucket got shorter. */
  function DropId(tasks: OMap<string, seq<Task>>, scope: seq<string>, taskId: string): (r: (OMap<string, seq<Task>>, bool))
    requires forall b :: b in scope ==> HasKey(tasks, b)
    ensures Keys(r.0) == Keys(tasks)
    ensures forall b :: Bucket(r.0, b) == if b in scope then WithoutId(Bucket(tasks, b), taskId) else Bucket(tasks, b)
    ensures r.1 <==> InScope(tasks, scope, taskId)
    ensures DistinctKeys(tasks) ==> DistinctKeys(r.0)
    decreases |scope|
  {
    if |scope| == 0 then (tasks, false)
    else
      var before := Bucket(tasks, scope[0]);
      var kept := WithoutId(before, taskId);
      var tasks1 := Put(tasks, scope[0], kept);
      assert Keys(tasks1) == Keys(tasks);
      forall b | b in scope[1..] ensures HasKey(tasks1, b) {
        assert b in scope;
        assert HasKey(tasks, b);
      }
      assert forall k :: 1 <= k < |scope| ==> scope[1..][k - 1] == scope[k];
      var rest := DropId(tasks1, scope[1..], taskId);
      DropIdStep(tasks, scope, taskId, scope[1..], tasks1, rest.0);
      DropIdFound(tasks, scope, taskId, scope[1..], tasks1, rest.1);
      (rest.0, rest.1 || |kept| < |before|)
  }

  /** One step of `DropId`: the buckets for `scope` from the buckets for its tail. */
  lemma DropIdStep(tasks: OMap<string, seq<Task>>, scope: seq<string>, taskId: string,
                   tail: seq<string>, tasks1: OMap<string, seq<Task>>, tasks2: OMap<string, seq<Task>>)
    requires |scope| > 0 && tail == scope[1..]
    requires Get(tasks1, scope[0]) == Some(WithoutId(Bucket(tasks, scope[0]), taskId))
    requires forall b :: b != scope[0] ==> Get(tasks1, b) == Get(tasks, b)
    requires forall b :: Bucket(tasks2, b) == if b in tail then WithoutId(Bucket(tasks1, b), taskId) else Bucket(tasks1, b)
    ensures forall b :: Bucket(tasks2, b) == if b in scope then WithoutId(Bucket(tasks, b), taskId) else Bucket(tasks, b)
  {
    forall b
      ensures Bucket(tasks2, b) == if b in scope then WithoutId(Bucket(tasks, b), taskId) else Bucket(tasks, b)
    {
      assert b in scope <==> b == scope[0] || b in tail by {
        assert scope == [scope[0]] + tail;
      }
      if b == scope[0] {
        var kept := WithoutId(Bucket(tasks, b), taskId);
        assert Bucket(tasks1, b) == kept;
        assert WithoutId(kept, taskId) == kept;
      } else {
        assert Bucket(tasks1, b) == Bucket(tasks, b);
      }
    }
  }

  /** One step of `DropId`: the flag for `scope` from the flag for its tail. */
  lemma DropIdFound(tasks: OMap<string, seq<Task>>, scope: seq<string>, taskId: string,
                    tail: seq<string>, tasks1: OMap<string, seq<Task>>, found: bool)
    requires |scope| > 0 && tail == scope[1..]
    requires Get(tasks1, scope[0]) == Some(WithoutId(Bucket(tasks, scope[0]), taskId))
    requires forall b :: b != scope[0] ==> Get(tasks1, b) == Get(tasks, b)
    requires found <==> InScope(tasks1, tail, taskId)
    ensures found || |WithoutId(Bucket(tasks, scope[0]), taskId)| < |Bucket(tasks, scope[0])| <==> InScope(tasks, scope, taskId)
  {
    var before := Bucket(tasks, scope[0]);
    var kept := WithoutId(before, taskId);
    if InScope(tasks, scope, taskId) && |kept| == |before| {
      var k :| 0 <= k < |scope| && !Absent(Bucket(tasks, scope[k]), taskId);
      assert scope[k] != scope[0];
      assert scope[k] == tail[k - 1];
      assert Bucket(tasks1, tail[k - 1]) == Bucket(tasks, scope[k]);
    }
    if found {
      var k :| 0 <= k < |tail| && !Absent(Bucket(tasks1, tail[k]), taskId);
      var b := scope[k + 1];
      assert b == tail[k];
      assert b != scope[0];
      assert Bucket(tasks1, b) == Bucket(tasks, b);
    }
  }

  /** The second loop of delete_task: every bucket loses the tasks whose parent is `taskId`. */
  function DropChildren(tasks: OMap<string, seq<Task>>, taskId: string): (r: OMap<string, seq<Task>>)
    ensures Keys(r) == Keys(tasks)
    ensures forall b :: Bucket(r, b) == WithoutChildren(Bucket(tasks, b), taskId)
    ensures DistinctKeys(tasks) ==> DistinctKeys(r)
  {
    var r := MapValues(tasks, (ts: seq<Task>) => WithoutChildren(ts, taskId));
    assert forall b :: !HasKey(tasks, b) ==> Bucket(tasks, b) == [];
    r
  }

  /** `delete_task`: removes the tasks with id `taskId` from the scoped buckets, reporting
      whether any was there, and then removes from every bucket the tasks whose parent is
      `taskId` (direct children only, whether or not the parent was found). */
  function DeleteTask(d: Document, taskId: string, branch: Option<string>): (r: (Document, bool))
    ensures r.1 <==> InScope(d.tasks, BranchScope(d.tasks, branch), taskId)
    ensures r.0 == d.(tasks := r.0.tasks)
    ensures Keys(r.0.tasks) == Keys(d.tasks)
    ensures forall b :: Bucket(r.0.tasks, b) == WithoutChildren(
      if b in BranchScope(d.tasks, branch) then WithoutId(Bucket(d.tasks, b), taskId) else Bucket(d.tasks, b), taskId)
    ensures forall b :: forall t :: t in Bucket(r.0.tasks, b) <==>
      (t in Bucket(d.tasks, b) && t.parentId != Some(taskId) && !(b in BranchScope(d.tasks, branch) && t.id == taskId))
    ensures Valid(d) ==> Valid(r.0)
  {
    var dropped := DropId(d.tasks, BranchScope(d.tasks, branch), taskId);
    (d.(tasks := DropChildren(dropped.0, taskId)), dropped.1)
  }

  /** `delete_all_tasks`: empties every scoped bucket, keeping its key, and reports whether any
      of them held a task. */
  function DeleteAllTasks(d: Document, branch: Option<string>): (r: (Document, bool))
    ensures Valid(d) ==> (r.1 <==> exists b :: b in BranchScope(d.tasks, branch) && Bucket(d.tasks, b) != [])
    ensures !r.1 ==> r.0 == d
    ensures r.0 == d.(tasks := r.0.tasks)
    ensures Keys(r.0.tasks) == Keys(d.tasks)
    ensures forall b :: Bucket(r.0.tasks, b) == if b in BranchScope(d.tasks, branch) then [] else Bucket(d.tasks, b)
    ensures Valid(d) ==> Valid(r.0)
  {
    if Truthy(branch) then
      if HasKey(d.tasks, branch.value) && Bucket(d.tasks, branch.value) != [] then
        (d.(tasks := Put(d.tasks, branch.value, [])), true)
      else (d, false)
    else
      var cleared := MapValues(d.tasks, (ts: seq<Task>) => []);
      var deleted := exists j | 0 <= j < |d.tasks| :: d.tasks[j].1 != [];
      assert !deleted ==> cleared == d.tasks;
      assert Valid(d) ==> (deleted <==> exists b :: b in Keys(d.tasks) && Bucket(d.tasks, b) != []) by {
        if Valid(d) {
          forall j | 0 <= j < |d.tasks|
            ensures Bucket(d.tasks, Keys(d.tasks)[j]) == d.tasks[j].1
          {
            GetAt(d.tasks, j);
          }
        }
      }
      (if deleted then d.(tasks := cleared) else d, deleted)
  }

  /** The filters of `get_tasks`, each skipped when absent. */
  predicate TaskMatches(t: Task, agent: Option<string>, status: Option<string>, parentTaskId: Option<string>) {
    && (status.None? || t.status == status.value)
    && (agent.None? || t.assignedTo == agent)
    && (parentTaskId.None? || t.parentId == parentTaskId)
  }

  /** Each task paired with the name of its bucket, as `get_tasks` annotates it. */
  function Tagged(b: string, ts: seq<Task>): (r: seq<(string, Task)>)
    ensures forall b', t :: (b', t) in r <==> b' == b && t in ts
  {
    var r := seq(|ts|, i requires 0 <= i < |ts| => (b, ts[i]));
    assert forall b', t :: b' == b && t in ts ==> (b', t) in r by {
      forall b', t | b' == b && t in ts
        ensures (b', t) in r
      {
        var i :| 0 <= i < |ts| && ts[i] == t;
        assert r[i] == (b', t);
      }
    }
    r
  }

  /** The filters of `get_tasks` as a test on tasks. */
  function Matches(agent: Option<string>, status: Option<string>, parentTaskId: Option<string>): Task -> bool {
    (t: Task) => TaskMatches(t, agent, status, parentTaskId)
  }

  /** Every task of the buckets named in `scope`, paired with its bucket name: bucket by bucket
      in scope order, and in bucket order within a bucket. */
  function Listing(tasks: OMap<string, seq<Task>>, scope: seq<string>): seq<(string, Task)>
    decreases |scope|
  {
    if |scope| == 0 then [] else Tagged(scope[0], Bucket(tasks, scope[0])) + Listing(tasks, scope[1..])
  }

  /** The matching tasks of the buckets named in `scope`, each paired with its bucket name. */
  function Collect(tasks: OMap<string, seq<Task>>, scope: seq<string>, agent: Option<string>,
                   status: Option<string>, parentTaskId: Option<string>): (r: seq<(string, Task)>)
    ensures forall b :: forall t :: (b, t) in r <==> b in scope && t in Bucket(tasks, b) && TaskMatches(t, agent, status, parentTaskId)
    decreases |scope|
  {
    if |scope| == 0 then []
    else
      var here := Picked(scope[0], Bucket(tasks, scope[0]), agent, status, parentTaskId);
      var rest := Collect(tasks, scope[1..], agent, status, parentTaskId);
      assert forall b :: b in scope <==> b == scope[0] || b in scope[1..] by {
        assert scope == [scope[0]] + scope[1..];
      }
      here + rest
  }

  /** `Collect` keeps the matching entries of `Listing`, in its order and each as often as it
      holds them. */
  lemma {:induction false} CollectListing(tasks: OMap<string, seq<Task>>, scope: seq<string>, agent: Option<string>,
                                          status: Option<string>, parentTaskId: Option<string>)
    ensures Seqs.Subseq(Collect(tasks, scope, agent, status, parentTaskId), Listing(tasks, scope))
    ensures forall x :: (multiset(Collect(tasks, scope, agent, status, parentTaskId))[x]
      == if TaskMatches(x.1, agent, status, parentTaskId) then multiset(Listing(tasks, scope))[x] else 0)
    decreases |scope|
  {
    if |scope| > 0 {
      var here := Picked(scope[0], Bucket(tasks, scope[0]), agent, status, parentTaskId);
      var rest := Collect(tasks, scope[1..], agent, status, parentTaskId);
      assert Collect(tasks, scope, agent, status, parentTaskId) == here + rest;
      CollectListing(tasks, scope[1..], agent, status, parentTaskId);
      PickedListing(scope[0], Bucket(tasks, scope[0]), agent, status, parentTaskId);
      CollectStep(here, rest, Tagged(scope[0], Bucket(tasks, scope[0])), Listing(tasks, scope[1..]), agent, status, parentTaskId);
    }
  }

  /** The matching tasks of one bucket, tagged with its name. */
  function Picked(b: string, bucket: seq<Task>, agent: Option<string>, status: Option<string>,
                  parentTaskId: Option<string>): (r: seq<(string, Task)>)
    ensures forall c, t :: (c, t) in r <==> c == b && t in bucket && TaskMatches(t, agent, status, parentTaskId)
  {
    Tagged(b, Seqs.Filter(bucket, Matches(agent, status, parentTaskId)))
  }

  /** `Picked` keeps the matching entries of the whole tagged bucket, in its order and each as
      often as it holds them. */
  lemma PickedListing(b: string, bucket: seq<Task>, agent: Option<string>, status: Option<string>,
                      parentTaskId: Option<string>)
    ensures Seqs.Subseq(Picked(b, bucket, agent, status, parentTaskId), Tagged(b, bucket))
    ensures forall x :: (multiset(Picked(b, bucket, agent, status, parentTaskId))[x]
      == if TaskMatches(x.1, agent, status, parentTaskId) then multiset(Tagged(b, bucket))[x] else 0)
  {
    var kept := Seqs.Filter(bucket, Matches(agent, status, parentTaskId));
    TaggedSubseq(b, kept, bucket);
    TaggedCount(b, kept);
    TaggedCount(b, bucket);
  }

  /** One step of `Collect`: the order and multiplicity facts for a bucket followed by the
      rest of the scope. */
  lemma CollectStep(here: seq<(string, Task)>, rest: seq<(string, Task)>, tagged: seq<(string, Task)>, listed: seq<(string, Task)>,
                    agent: Option<string>, status: Option<string>, parentTaskId: Option<string>)
    requires Seqs.Subseq(here, tagged)
    requires forall x :: (multiset(here)[x] == if TaskMatches(x.1, agent, status, parentTaskId) then multiset(tagged)[x] else 0)
    requires Seqs.Subseq(rest, listed)
    requires forall x :: (multiset(rest)[x] == if TaskMatches(x.1, agent, status, parentTaskId) then multiset(listed)[x] else 0)
    ensures Seqs.Subseq(here + rest, tagged + listed)
    ensures forall x :: (multiset(here + rest)[x]
      == if TaskMatches(x.1, agent, status, parentTaskId) then multiset(tagged + listed)[x] else 0)
  {
    Seqs.SubseqAppend(here, rest, tagged, listed);
  }

  /** `Tagged` of a non-empty sequence, one element split off. */
  lemma TaggedCons(b: string, ts: seq<Task>)
    requires |ts| > 0
    ensures Tagged(b, ts) == [(b, ts[0])] + Tagged(b, ts[1..])
  {
    assert Tagged(b, ts)[1..] == Tagged(b, ts[1..]);
  }

  /** Tagging keeps a subsequence a subsequence. */
  lemma {:induction false} TaggedSubseq(b: string, r: seq<Task>, s: seq<Task>)
    requires Seqs.Subseq(r, s)
    ensures Seqs.Subseq(Tagged(b, r), Tagged(b, s))
    decreases |s|
  {
    if |r| > 0 {
      TaggedCons(b, s);
      TaggedCons(b, r);
      if r[0] == s[0] && Seqs.Subseq(r[1..], s[1..]) {
        TaggedSubseq(b, r[1..], s[1..]);
      } else {
        TaggedSubseq(b, r, s[1..]);
      }
    }
  }

  /** Tagging with `b` holds each `(b, t)` as often as the sequence holds `t`, and nothing else. */
  lemma {:induction false} TaggedCount(b: string, ts: seq<Task>)
    ensures forall x :: multiset(Tagged(b, ts))[x] == if x.0 == b then multiset(ts)[x.1] else 0
    decreases |ts|
  {
    if |ts| == 0 {
      assert Tagged(b, ts) == [];
    } else {
      TaggedCons(b, ts);
      TaggedCount(b, ts[1..]);
      assert ts == [ts[0]] + ts[1..];
    }
  }

  /** Adding a subtask to a bucket with no child of `parentId` leaves the subtask as that
      parent's only child there, held once. */
  lemma GrownOnlyChild(bucket: seq<Task>, i: nat, sub: Task, parentId: string)
    requires i < |bucket| && sub.parentId == Some(parentId)
    requires forall t :: t in bucket ==> t.parentId != Some(parentId)
    ensures forall t :: t in WithSubtask(bucket, i, sub) && t.parentId == Some(parentId) ==> t == sub
    ensures multiset(WithSubtask(bucket, i, sub))[sub] == 1
  {
    var grown := WithSubtask(bucket, i, sub);
    var front := grown[..|bucket|];
    assert grown == front + [sub];
    forall t | t in front ensures t.parentId != Some(parentId) {
      var j :| 0 <= j < |front| && front[j] == t;
      assert bucket[j] in bucket;
    }
    assert sub !in front;
  }

  /** Over distinct bucket names, the listing holds each tagged task as often as that bucket
      holds the task. */
  lemma {:induction false} ListingCount(tasks: OMap<string, seq<Task>>, scope: seq<string>, x: (string, Task))
    requires Seqs.NoDup(scope)
    ensures multiset(Listing(tasks, scope))[x] == if x.0 in scope then multiset(Bucket(tasks, x.0))[x.1] else 0
    decreases |scope|
  {
    if |scope| > 0 {
      assert Seqs.NoDup(scope[1..]);
      ListingCount(tasks, scope[1..], x);
      TaggedCount(scope[0], Bucket(tasks, scope[0]));
      assert x.0 in scope <==> x.0 == scope[0] || x.0 in scope[1..] by {
        assert scope == [scope[0]] + scope[1..];
      }
    }
  }

  /** `get_tasks`: the tasks of the scoped buckets that pass every given filter, each annotated
      with the name of its bucket, bucket by bucket in dictionary order and in bucket order
      within a bucket, each as often as the buckets hold it. */
  function GetTasks(d: Document, agent: Option<string>, branch: Option<string>, status: Option<string>,
                    parentTaskId: Option<string>): (r: seq<(string, Task)>)
    ensures forall b :: forall t :: (b, t) in r <==>
      b in BranchScope(d.tasks, branch) && t in Bucket(d.tasks, b) && TaskMatches(t, agent, status, parentTaskId)
    ensures Seqs.Subseq(r, Listing(d.tasks, BranchScope(d.tasks, branch)))
    ensures forall x :: (multiset(r)[x]
      == if TaskMatches(x.1, agent, status, parentTaskId) then multiset(Listing(d.tasks, BranchScope(d.tasks, branch)))[x] else 0)
  {
    CollectListing(d.tasks, BranchScope(d.tasks, branch), agent, status, parentTaskId);
    Collect(d.tasks, BranchScope(d.tasks, branch), agent, status, parentTaskId)
  }

  /** The buckets named in `scope` agree, so `Collect` over them agrees. */
  lemma {:induction false} CollectSameBuckets(tasks1: OMap<string, seq<Task>>, tasks2: OMap<string, seq<Task>>, scope: seq<string>,
                                              agent: Option<string>, status: Option<string>, parentTaskId: Option<string>)
    requires forall k :: 0 <= k < |scope| ==> Bucket(tasks1, scope[k]) == Bucket(tasks2, scope[k])
    ensures Collect(tasks1, scope, agent, status, parentTaskId) == Collect(tasks2, scope, agent, status, parentTaskId)
    decreases |scope|
  {
    if |scope| > 0 {
      assert forall k :: 0 <= k < |scope[1..]| ==> scope[1..][k] == scope[k + 1];
      CollectSameBuckets(tasks1, tasks2, scope[1..], agent, status, parentTaskId);
    }
  }

  /** Branch isolation: adding a task to one branch does not change what `get_tasks` reports
      for any other named branch. */
  lemma AddTaskIsolation(d: Document, branch: string, description: string, assignedTo: Option<string>,
                         priority: string, requiredCapabilities: Option<seq<string>>, now: real,
                         other: string, agent: Option<string>, status: Option<string>, parentTaskId: Option<string>)
    requires other != branch && other != ""
    ensures
      var d' := AddTask(d, branch, description, assignedTo, priority, requiredCapabilities, now).0;
      GetTasks(d', agent, Some(other), status, parentTaskId) == GetTasks(d, agent, Some(other), status, parentTaskId)
  {
    var d' := AddTask(d, branch, description, assignedTo, priority, requiredCapabilities, now).0;
    assert HasKey(d'.tasks, other) <==> HasKey(d.tasks, other);
    SameBucketSameListing(d', d, other, agent, status, parentTaskId);
  }

  /** A task added to a branch that had no bucket is the one task `get_tasks` reports for that
      branch, with the fields it was given, position 0 in its id and status "pending". */
  lemma AddedTaskListed(d: Document, branch: string, description: string, assignedTo: Option<string>,
                        priority: string, requiredCapabilities: Option<seq<string>>, now: real)
    requires branch != "" && !HasKey(d.tasks, branch)
    ensures
      var r := AddTask(d, branch, description, assignedTo, priority, requiredCapabilities, now);
      GetTasks(r.0, None, Some(branch), None, None)
        == [(branch, PendingTask(TaskId(now, 0), description, assignedTo, Some(priority), requiredCapabilities.GetOr([]), None, now))]
  {
    var r := AddTask(d, branch, description, assignedTo, priority, requiredCapabilities, now);
    var t := PendingTask(TaskId(now, 0), description, assignedTo, Some(priority), requiredCapabilities.GetOr([]), None, now);
    assert Bucket(r.0.tasks, branch) == [t];
    assert HasKey(r.0.tasks, branch);
    Seqs.FilterAll([t], Matches(None, None, None));
    assert Picked(branch, [t], None, None, None) == [(branch, t)];
    var scope := BranchScope(r.0.tasks, Some(branch));
    assert scope == [branch] && scope[1..] == [];
    assert Collect(r.0.tasks, scope, None, None, None) == Picked(branch, [t], None, None, None) + [];
  }

  /** Two documents whose bucket `other` agrees, present or absent, list the same tasks for it. */
  lemma SameBucketSameListing(d1: Document, d2: Document, other: string,
                              agent: Option<string>, status: Option<string>, parentTaskId: Option<string>)
    requires other != ""
    requires HasKey(d1.tasks, other) <==> HasKey(d2.tasks, other)
    requires Bucket(d1.tasks, other) == Bucket(d2.tasks, other)
    ensures GetTasks(d1, agent, Some(other), status, parentTaskId) == GetTasks(d2, agent, Some(other), status, parentTaskId)
  {
    var scope := BranchScope(d2.tasks, Some(other));
    assert BranchScope(d1.tasks, Some(other)) == scope;
    CollectSameBuckets(d1.tasks, d2.tasks, scope, agent, status, parentTaskId);
  }

  /** A subtask created under an existing parent is listed among that parent's children; when
      the parent had no children before, it is the only one listed, once. */
  lemma SubtaskListedUnderParent(d: Document, parentId: string, description: string, assignedTo: Option<string>,
                                 requiredCapabilities: Option<seq<string>>, now: real, hex: string)
    requires InScope(d.tasks, Keys(d.tasks), parentId)
    ensures
      var r := CreateSubtask(d, parentId, description, assignedTo, requiredCapabilities, now, hex);
      var sub := PendingTask(SubtaskId(now, hex), description, assignedTo, None, requiredCapabilities.GetOr([]), Some(parentId), now);
      && r.1 == Some(SubtaskId(now, hex))
      && exists b :: (b, sub) in GetTasks(r.0, None, None, None, Some(parentId))
    ensures
      var r := CreateSubtask(d, parentId, description, assignedTo, requiredCapabilities, now, hex);
      var sub := PendingTask(SubtaskId(now, hex), description, assignedTo, None, requiredCapabilities.GetOr([]), Some(parentId), now);
      DistinctKeys(d.tasks) && NoChildren(d.tasks, parentId) ==>
        exists b :: b in Keys(d.tasks) && GetTasks(r.0, None, None, None, Some(parentId)) == [(b, sub)]
  {
    var r := CreateSubtask(d, parentId, description, assignedTo, requiredCapabilities, now, hex);
    var sub := PendingTask(SubtaskId(now, hex), description, assignedTo, None, requiredCapabilities.GetOr([]), Some(parentId), now);
    var b := SubtaskStored(d, parentId, description, assignedTo, requiredCapabilities, now, hex);
    ChildListed(r.0, b, sub, parentId);
    if DistinctKeys(d.tasks) && NoChildren(d.tasks, parentId) {
      OnlyChild(d, parentId, description, assignedTo, requiredCapabilities, now, hex);
    }
  }

  /** No stored task names `parentId` as its parent. */
  ghost predicate NoChildren(tasks: OMap<string, seq<Task>>, parentId: string) {
    forall b, t :: b in Keys(tasks) && t in Bucket(tasks, b) ==> t.parentId != Some(parentId)
  }

  /** The first subtask of a parent is its only listed child. */
  lemma OnlyChild(d: Document, parentId: string, description: string, assignedTo: Option<string>,
                  requiredCapabilities: Option<seq<string>>, now: real, hex: string)
    requires InScope(d.tasks, Keys(d.tasks), parentId)
    requires DistinctKeys(d.tasks) && NoChildren(d.tasks, parentId)
    ensures
      var r := CreateSubtask(d, parentId, description, assignedTo, requiredCapabilities, now, hex);
      var sub := PendingTask(SubtaskId(now, hex), description, assignedTo, None, requiredCapabilities.GetOr([]), Some(parentId), now);
      exists b :: b in Keys(d.tasks) && GetTasks(r.0, None, None, None, Some(parentId)) == [(b, sub)]
  {
    var r := CreateSubtask(d, parentId, description, assignedTo, requiredCapabilities, now, hex);
    var sub := PendingTask(SubtaskId(now, hex), description, assignedTo, None, requiredCapabilities.GetOr([]), Some(parentId), now);
    var loc := FindTask(d.tasks, Keys(d.tasks), parentId).value;
    var b := Keys(d.tasks)[loc.0];
    GrownTasksOnlyChild(d.tasks, r.0.tasks, b, loc.1, sub, parentId);
    assert Seqs.NoDup(Keys(r.0.tasks));
    SoleChildListed(r.0, b, sub, parentId);
  }

  /** Adding the first child of `parentId` to bucket `b`, and changing no other bucket, leaves
      it the only child anywhere, held once. */
  lemma GrownTasksOnlyChild(tasks: OMap<string, seq<Task>>, grown: OMap<string, seq<Task>>, b: string, i: nat, sub: Task, parentId: string)
    requires Keys(grown) == Keys(tasks) && b in Keys(tasks)
    requires i < |Bucket(tasks, b)| && Bucket(grown, b) == WithSubtask(Bucket(tasks, b), i, sub)
    requires forall c :: c != b ==> Get(grown, c) == Get(tasks, c)
    requires NoChildren(tasks, parentId) && sub.parentId == Some(parentId)
    ensures forall c, t :: c in Keys(grown) && t in Bucket(grown, c) && t.parentId == Some(parentId) ==> c == b && t == sub
    ensures multiset(Bucket(grown, b))[sub] == 1
  {
    assert forall t :: t in Bucket(tasks, b) ==> t.parentId != Some(parentId);
    GrownOnlyChild(Bucket(tasks, b), i, sub, parentId);
    assert forall c :: c != b ==> Bucket(grown, c) == Bucket(tasks, c);
  }

  /** When one bucket holds the only child of `parentId`, and holds it once, listing the
      parent's children over all buckets gives just that child. */
  lemma SoleChildListed(d: Document, b: string, sub: Task, parentId: string)
    requires Seqs.NoDup(Keys(d.tasks)) && b in Keys(d.tasks) && sub.parentId == Some(parentId)
    requires forall c, t :: c in Keys(d.tasks) && t in Bucket(d.tasks, c) && t.parentId == Some(parentId) ==> c == b && t == sub
    requires multiset(Bucket(d.tasks, b))[sub] == 1
    ensures GetTasks(d, None, None, None, Some(parentId)) == [(b, sub)]
  {
    var listed := Collect(d.tasks, Keys(d.tasks), None, None, Some(parentId));
    assert GetTasks(d, None, None, None, Some(parentId)) == listed by {
      assert BranchScope(d.tasks, None) == Keys(d.tasks);
    }
    ChildrenAre(d.tasks, b, sub, parentId);
    CollectListing(d.tasks, Keys(d.tasks), None, None, Some(parentId));
    ListingCount(d.tasks, Keys(d.tasks), (b, sub));
    Seqs.OnlyElement(listed, (b, sub));
  }

  /** When `sub` in bucket `b` is the only child of `parentId`, listing the parent's children
      over all buckets gives nothing else. */
  lemma ChildrenAre(tasks: OMap<string, seq<Task>>, b: string, sub: Task, parentId: string)
    requires forall c, t :: c in Keys(tasks) && t in Bucket(tasks, c) && t.parentId == Some(parentId) ==> c == b && t == sub
    ensures forall y :: y in Collect(tasks, Keys(tasks), None, None, Some(parentId)) ==> y == (b, sub)
  {
    var listed := Collect(tasks, Keys(tasks), None, None, Some(parentId));
    forall y | y in listed ensures y == (b, sub) {
      assert y == (y.0, y.1);
      assert y.0 in Keys(tasks) && y.1 in Bucket(tasks, y.0) && TaskMatches(y.1, None, None, Some(parentId));
    }
  }

  /** A stored task is listed among the children of its parent. */
  lemma ChildListed(d: Document, b: string, t: Task, parentId: string)
    requires b in Keys(d.tasks) && t in Bucket(d.tasks, b) && t.parentId == Some(parentId)
    ensures exists b' :: (b', t) in GetTasks(d, None, None, None, Some(parentId))
  {
    Listed(d, b, t, None, None, None, Some(parentId));
  }

  /** A created subtask is stored in an existing bucket, which is returned. */
  lemma SubtaskStored(d: Document, parentId: string, description: string, assignedTo: Option<string>,
                      requiredCapabilities: Option<seq<string>>, now: real, hex: string) returns (b: string)
    requires InScope(d.tasks, Keys(d.tasks), parentId)
    ensures
      var r := CreateSubtask(d, parentId, description, assignedTo, requiredCapabilities, now, hex);
      && r.1 == Some(SubtaskId(now, hex))
      && b in Keys(r.0.tasks)
      && PendingTask(SubtaskId(now, hex), description, assignedTo, None, requiredCapabilities.GetOr([]), Some(parentId), now)
        in Bucket(r.0.tasks, b)
  {
    var r := CreateSubtask(d, parentId, description, assignedTo, requiredCapabilities, now, hex);
    var loc := FindTask(d.tasks, Keys(d.tasks), parentId).value;
    b := Keys(d.tasks)[loc.0];
    var bucket := Bucket(d.tasks, b);
    assert Bucket(r.0.tasks, b)[|bucket|] == PendingTask(SubtaskId(now, hex), description, assignedTo, None, requiredCapabilities.GetOr([]), Some(parentId), now);
  }

  /** A task of a scoped bucket that passes the filters is reported by `get_tasks`. */
  lemma Listed(d: Document, b: string, t: Task, branch: Option<string>,
               agent: Option<string>, status: Option<string>, parentTaskId: Option<string>)
    requires b in BranchScope(d.tasks, branch) && t in Bucket(d.tasks, b)
    requires TaskMatches(t, agent, status, parentTaskId)
    ensures (b, t) in GetTasks(d, agent, branch, status, parentTaskId)
  {
  }

  /** Task ids are not unique: the first tasks of two branches added within the same second
      get the same id. */
  lemma SameSecondIdsCollide(d: Document, a: string, b: string, description: string, now: real, later: real)
    requires a != b && !HasKey(d.tasks, a) && !HasKey(d.tasks, b)
    requires Trunc(now) == Trunc(later)
    ensures
      var r1 := AddTask(d, a, description, None, "medium", None, now);
      var r2 := AddTask(r1.0, b, description, None, "medium", None, later);
      r1.1 == r2.1
  {
    var r1 := AddTask(d, a, description, None, "medium", None, now);
    assert Bucket(d.tasks, a) == [] && Bucket(r1.0.tasks, b) == [];
  }

  /** Task ids are not unique: after the first of two tasks is deleted, the next task added to
      the bucket in the same second gets the id the remaining task already has. */
  lemma IdReusedAfterDelete(d: Document, branch: string, description: string, now: real)
    requires branch != "" && HasKey(d.tasks, branch)
    requires |Bucket(d.tasks, branch)| == 2
    requires Bucket(d.tasks, branch)[1].id == TaskId(now, 1)
    requires Bucket(d.tasks, branch)[0].id != Bucket(d.tasks, branch)[1].id
    requires Bucket(d.tasks, branch)[1].parentId != Some(Bucket(d.tasks, branch)[0].id)
    ensures
      var y := Bucket(d.tasks, branch)[1];
      var d1 := DeleteTask(d, Bucket(d.tasks, branch)[0].id, Some(branch)).0;
      var r := AddTask(d1, branch, description, None, "medium", None, now);
      && r.1 == y.id
      && |Bucket(r.0.tasks, branch)| == 2
      && Bucket(r.0.tasks, branch)[0] == y
      && Bucket(r.0.tasks, branch)[1].id == y.id
  {
    var x, y := Bucket(d.tasks, branch)[0], Bucket(d.tasks, branch)[1];
    assert Bucket(d.tasks, branch) == [x, y];
    DeleteFirstOfTwo(d, branch, x, y);
    AddToSingleton(DeleteTask(d, x.id, Some(branch)).0, branch, y, description, now);
  }

  /** Adding to a one-task bucket in the second the task's own id was minted for position 1
      repeats that id. */
  lemma AddToSingleton(d: Document, branch: string, y: Task, description: string, now: real)
    requires Bucket(d.tasks, branch) == [y] && y.id == TaskId(now, 1)
    ensures
      var r := AddTask(d, branch, description, None, "medium", None, now);
      && r.1 == y.id
      && Bucket(r.0.tasks, branch) == [y, PendingTask(y.id, description, None, Some("medium"), [], None, now)]
  {
  }

  /** `delete_task` on the first of a two-task bucket leaves the second. */
  lemma DeleteFirstOfTwo(d: Document, branch: string, x: Task, y: Task)
    requires branch != "" && HasKey(d.tasks, branch)
    requires Bucket(d.tasks, branch) == [x, y]
    requires x.id != y.id && y.parentId != Some(x.id)
    ensures Bucket(DeleteTask(d, x.id, Some(branch)).0.tasks, branch) == [y]
  {
    assert branch in BranchScope(d.tasks, Some(branch));
    DropFirstOfTwo(x, y);
  }

  /** Deleting the first of two tasks, where the second is not its child, leaves the second. */
  lemma DropFirstOfTwo(x: Task, y: Task)
    requires x.id != y.id && y.parentId != Some(x.id)
    ensures WithoutChildren(WithoutId([x, y], x.id), x.id) == [y]
  {
    assert [x, y] == [x] + [y] && [y] == [y] + [];
    Seqs.FilterCons(x, [y], IdIsNot(x.id));
    Seqs.FilterCons(y, [], IdIsNot(x.id));
    assert WithoutId([x, y], x.id) == [y];
    Seqs.FilterAll([y], NotChildOf(x.id));
  }

  /** Dictionaries with the same keys give the same scope. */
  lemma BranchScopeSameKeys(tasks1: OMap<string, seq<Task>>, tasks2: OMap<string, seq<Task>>, branch: Option<string>)
    requires Keys(tasks1) == Keys(tasks2)
    ensures BranchScope(tasks1, branch) == BranchScope(tasks2, branch)
  {
  }

  /** After `delete_task`, `get_tasks` over the same scope reports neither the task nor its
      direct children. */
  lemma DeletedTaskNotListed(d: Document, taskId: string, branch: Option<string>,
                             agent: Option<string>, status: Option<string>, parentTaskId: Option<string>)
    ensures forall p :: p in GetTasks(DeleteTask(d, taskId, branch).0, agent, branch, status, parentTaskId) ==>
      p.1.id != taskId && p.1.parentId != Some(taskId)
  {
    var d' := DeleteTask(d, taskId, branch).0;
    var scope := BranchScope(d.tasks, branch);
    assert BranchScope(d'.tasks, branch) == scope by {
      BranchScopeSameKeys(d'.tasks, d.tasks, branch);
    }
    var q := GetTasks(d', agent, branch, status, parentTaskId);
    forall p | p in q
      ensures p.1.id != taskId && p.1.parentId != Some(taskId)
    {
      var b, t := p.0, p.1;
      assert (b, t) in q;
      assert b in scope && t in Bucket(d'.tasks, b);
    }
  }

  /** After `delete_all_tasks`, `get_tasks` over the same scope reports nothing. */
  lemma NothingListedAfterDeleteAll(d: Document, branch: Option<string>,
                                    agent: Option<string>, status: Option<string>, parentTaskId: Option<string>)
    ensures forall p :: p !in GetTasks(DeleteAllTasks(d, branch).0, agent, branch, status, parentTaskId)
  {
    var d' := DeleteAllTasks(d, branch).0;
    var r := GetTasks(d', agent, branch, status, parentTaskId);
    assert forall b :: HasKey(d'.tasks, b) <==> HasKey(d.tasks, b);
    assert BranchScope(d'.tasks, branch) == BranchScope(d.tasks, branch);
    forall b, t ensures (b, t) !in r {
      if b in BranchScope(d'.tasks, branch) {
        assert Bucket(d'.tasks, b) == [];
      }
    }
    forall p ensures p !in r {
      assert (p.0, p.1) !in r;
    }
  }

  /** A position with the id and no earlier occurrence in the scan order is what `FindTask`
      returns. */
  lemma FindTaskIsFirst(tasks: OMap<string, seq<Task>>, scope: seq<string>, taskId: string, k: nat, j: nat)
    requires FoundAt(tasks, scope, taskId, k, j)
    ensures FindTask(tasks, scope, taskId) == Some((k, j))
  {
    var b := Bucket(tasks, scope[k]);
    assert !Absent(b, taskId) by {
      assert b[j] in b;
    }
    var r := FindTask(tasks, scope, taskId);
    assert InScope(tasks, scope, taskId);
    var b2 := Bucket(tasks, scope[r.value.0]);
    assert !Absent(b2, taskId) by {
      assert b2[r.value.1] in b2;
    }
    assert r.value.0 == k;
  }

  /** Replacing the first match by a task with the same id keeps it the first match, when the
      scope names each bucket once. */
  lemma FirstMatchKept(tasks: OMap<string, seq<Task>>, tasks1: OMap<string, seq<Task>>, scope: seq<string>,
                       taskId: string, k: nat, j: nat, t: Task)
    requires FindTask(tasks, scope, taskId) == Some((k, j))
    requires forall k1, k2 :: 0 <= k1 < k2 < |scope| ==> scope[k1] != scope[k2]
    requires t.id == taskId
    requires Bucket(tasks1, scope[k]) == Bucket(tasks, scope[k])[j := t]
    requires forall b :: b != scope[k] ==> Bucket(tasks1, b) == Bucket(tasks, b)
    ensures FindTask(tasks1, scope, taskId) == Some((k, j))
  {
    forall k' | 0 <= k' < k
      ensures Absent(Bucket(tasks1, scope[k']), taskId)
    {
      assert Bucket(tasks1, scope[k']) == Bucket(tasks, scope[k']);
    }
    FindTaskIsFirst(tasks1, scope, taskId, k, j);
  }

  /** The scope of update_task_status names each bucket once. */
  lemma StatusScopeDistinct(tasks: OMap<string, seq<Task>>, branch: Option<string>)
    requires DistinctKeys(tasks)
    ensures var scope := StatusScope(tasks, branch);
      forall k1, k2 :: 0 <= k1 < k2 < |scope| ==> scope[k1] != scope[k2]
  {
  }

  /** A second `update_task_status` with the same id and branch finds the same task again,
      now carrying the first update. */
  lemma UpdateFindsSameTask(d: Document, taskId: string, newStatus: string, branch: Option<string>,
                            message: Option<string>, now: real)
    requires Valid(d) && InScope(d.tasks, StatusScope(d.tasks, branch), taskId)
    ensures
      var scope := StatusScope(d.tasks, branch);
      var loc := FindTask(d.tasks, scope, taskId).value;
      var d1 := UpdateTaskStatus(d, taskId, newStatus, branch, message, now).0;
      && StatusScope(d1.tasks, branch) == scope
      && FindTask(d1.tasks, scope, taskId) == Some(loc)
      && Bucket(d1.tasks, scope[loc.0])[loc.1] == WithStatus(Bucket(d.tasks, scope[loc.0])[loc.1], newStatus, message, now)
  {
    var scope := StatusScope(d.tasks, branch);
    var loc := FindTask(d.tasks, scope, taskId).value;
    var d1 := UpdateTaskStatus(d, taskId, newStatus, branch, message, now).0;
    var t := Bucket(d.tasks, scope[loc.0])[loc.1];
    UpdatedBuckets(d, taskId, newStatus, branch, message, now);
    StatusScopeDistinct(d.tasks, branch);
    FirstMatchKept(d.tasks, d1.tasks, scope, taskId, loc.0, loc.1, WithStatus(t, newStatus, message, now));
  }

  /** A successful status update keeps the scope and changes only the found task's bucket, at
      the found position. */
  lemma UpdatedBuckets(d: Document, taskId: string, newStatus: string, branch: Option<string>,
                       message: Option<string>, now: real)
    requires InScope(d.tasks, StatusScope(d.tasks, branch), taskId)
    ensures
      var scope := StatusScope(d.tasks, branch);
      var loc := FindTask(d.tasks, scope, taskId).value;
      var d1 := UpdateTaskStatus(d, taskId, newStatus, branch, message, now).0;
      var b := scope[loc.0];
      && StatusScope(d1.tasks, branch) == scope
      && Bucket(d1.tasks, b) == Bucket(d.tasks, b)[loc.1 := WithStatus(Bucket(d.tasks, b)[loc.1], newStatus, message, now)]
      && forall b' :: b' != b ==> Bucket(d1.tasks, b') == Bucket(d.tasks, b')
  {
    var d1 := UpdateTaskStatus(d, taskId, newStatus, branch, message, now).0;
    assert Keys(d1.tasks) == Keys(d.tasks);
  }

  /** Completing a task credits its registered assignee on every call: two completions of the
      same task count twice. */
  lemma CompletionCountsEveryCall(d: Document, taskId: string, branch: Option<string>, message: Option<string>,
                                  now: real, later: real, agent: string)
    requires Valid(d) && InScope(d.tasks, StatusScope(d.tasks, branch), taskId)
    requires
      var scope := StatusScope(d.tasks, branch);
      var loc := FindTask(d.tasks, scope, taskId).value;
      Bucket(d.tasks, scope[loc.0])[loc.1].assignedTo == Some(agent)
    requires agent != "" && HasKey(d.agents, agent)
    ensures
      var d1 := UpdateTaskStatus(d, taskId, "completed", branch, message, now).0;
      var d2 := UpdateTaskStatus(d1, taskId, "completed", branch, message, later).0;
      && HasKey(d2.agents, agent)
      && Get(d2.agents, agent).value.tasksCompleted == Get(d.agents, agent).value.tasksCompleted + 2
  {
    var scope := StatusScope(d.tasks, branch);
    var loc := FindTask(d.tasks, scope, taskId).value;
    var t := Bucket(d.tasks, scope[loc.0])[loc.1];
    var d1 := UpdateTaskStatus(d, taskId, "completed", branch, message, now).0;
    UpdateFindsSameTask(d, taskId, "completed", branch, message, now);
    var t1 := Bucket(d1.tasks, scope[loc.0])[loc.1];
    assert d1.agents == CreditCompletion(d.agents, t, "completed", taskId);
    assert t1.assignedTo == Some(agent);
    assert Get(d1.agents, agent).value.tasksCompleted == Get(d.agents, agent).value.tasksCompleted + 1;
    assert HasKey(d1.agents, agent);
    assert t1 in Bucket(d1.tasks, scope[loc.0]);
    var d2 := UpdateTaskStatus(d1, taskId, "completed", branch, message, later).0;
    assert d2.agents == CreditCompletion(d1.agents, t1, "completed", taskId);
  }
}

=== FILE: text.dfy ===
/** The handful of Python `str` operations the modelled code relies on:
    `strip`, `find`/`in`, `startswith`/`endswith`, slicing, `split`/`join`,
    `lower`, and integer formatting. */
module Text {

  /** Python `str.isspace` for one character (the Unicode whitespace set). */
  predicate IsSpace(c: char) {
    c == ' ' || ('\t' <= c <= '\r') || ('\U{1c}' <= c <= '\U{1f}')
    || c == '\U{85}' || c == '\U{a0}' || c == '\U{1680}'
    || ('\U{2000}' <= c <= '\U{200a}') || c == '\U{2028}' || c == '\U{2029}'
    || c == '\U{202f}' || c == '\U{205f}' || c == '\U{3000}'
  }

  /** `s.lstrip()`: the suffix of `s` that starts at its first non-whitespace character. */
  function LStrip(s: string): (r: string)
    ensures |r| <= |s| && r == s[|s| - |r|..]
    ensures r == [] || !IsSpace(r[0])
    decreases |s|
  {
    if |s| > 0 && IsSpace(s[0]) then LStrip(s[1..]) else s
  }

  /** `lstrip` removes whitespace only. */
  lemma {:induction false} LStripDropsSpaces(s: string)
    ensures forall i :: 0 <= i < |s| - |LStrip(s)| ==> IsSpace(s[i])
    decreases |s|
  {
    if |s| > 0 && IsSpace(s[0]) {
      LStripDropsSpaces(s[1..]);
      assert forall i :: 1 <= i < |s| ==> s[i] == s[1..][i - 1];
    }
  }

  /** `s.rstrip()`: the prefix of `s` that ends at its last non-whitespace character. */
  function RStrip(s: string): (r: string)
    ensures |r| <= |s| && r == s[..|r|]
    ensures r == [] || !IsSpace(r[|r| - 1])
    decreases |s|
  {
    if |s| > 0 && IsSpace(s[|s| - 1]) then RStrip(s[..|s| - 1]) else s
  }

  /** `rstrip` removes whitespace only. */
  lemma {:induction false} RStripDropsSpaces(s: string)
    ensures forall i :: |RStrip(s)| <= i < |s| ==> IsSpace(s[i])
    decreases |s|
  {
    if |s| > 0 && IsSpace(s[|s| - 1]) {
      RStripDropsSpaces(s[..|s| - 1]);
    }
  }

  /** `s.strip()`: the slice of `s` left after removing whitespace at both ends. */
  function Strip(s: string): (r: string)
    ensures r == [] || (!IsSpace(r[0]) && !IsSpace(r[|r| - 1]))
    ensures |s| - |LStrip(s)| + |r| <= |s|
    ensures r == s[|s| - |LStrip(s)|..|s| - |LStrip(s)| + |r|]
  {
    RStrip(LStrip(s))
  }

  /** `strip` removes whitespace only: everything outside the slice it keeps is whitespace. */
  lemma StripDropsSpaces(s: string)
    ensures forall k :: 0 <= k < |s| - |LStrip(s)| ==> IsSpace(s[k])
    ensures forall k :: |s| - |LStrip(s)| + |Strip(s)| <= k < |s| ==> IsSpace(s[k])
  {
    var l := LStrip(s);
    LStripDropsSpaces(s);
    RStripDropsSpaces(l);
    forall k | |s| - |l| + |Strip(s)| <= k < |s| ensures IsSpace(s[k]) {
      assert s[k] == l[k - (|s| - |l|)];
    }
  }

  /** `r` is the slice of `w` starting at `lo`, with only whitespace before and after it. */
  ghost predicate StrippedAt(r: string, w: string, lo: nat) {
    && lo + |r| <= |w| && r == w[lo..lo + |r|]
    && (forall k :: 0 <= k < lo ==> IsSpace(w[k]))
    && (forall k :: lo + |r| <= k < |w| ==> IsSpace(w[k]))
  }

  /** `r` is what is left of `w` once some whitespace is cut from each end. */
  ghost predicate StrippedFrom(r: string, w: string) {
    exists lo: nat :: StrippedAt(r, w, lo)
  }

  /** `strip` cuts only whitespace, so its result is stripped from its argument. */
  lemma StripIsStrippedFrom(w: string)
    ensures StrippedFrom(Strip(w), w)
  {
    StripDropsSpaces(w);
    var lo := |w| - |LStrip(w)|;
    assert StrippedAt(Strip(w), w, lo);
  }

  /** Only one piece stripped from `w` has no whitespace at either end, so a trimmed result
      stripped from `w` is `w.strip()`. */
  lemma StrippedFromUnique(r1: string, r2: string, w: string)
    requires StrippedFrom(r1, w) && (r1 == [] || (!IsSpace(r1[0]) && !IsSpace(r1[|r1| - 1])))
    requires StrippedFrom(r2, w) && (r2 == [] || (!IsSpace(r2[0]) && !IsSpace(r2[|r2| - 1])))
    ensures r1 == r2
  {
    var lo1: nat :| StrippedAt(r1, w, lo1);
    var lo2: nat :| StrippedAt(r2, w, lo2);
    if r1 != [] && r2 != [] {
      assert r1[0] == w[lo1] && r2[0] == w[lo2];
      assert lo1 == lo2;
      assert r1[|r1| - 1] == w[lo1 + |r1| - 1] && r2[|r2| - 1] == w[lo2 + |r2| - 1];
    }
  }

  /** A string with no whitespace at either end is its own strip. */
  lemma StripNoop(s: string)
    requires s == [] || (!IsSpace(s[0]) && !IsSpace(s[|s| - 1]))
    ensures Strip(s) == s
  {
  }

  /** `t` occurs in `s` starting at index `i`. */
  predicate OccursAt(s: string, t: string, i: int) {
    0 <= i && i + |t| <= |s| && s[i..i + |t|] == t
  }

  /** `s.find(t, from)`: the first occurrence at or after `from`, or -1. */
  function FindFrom(s: string, t: string, from: nat): (r: int)
    requires from <= |s|
    ensures r == -1 || (from <= r && OccursAt(s, t, r))
    ensures r == -1 ==> forall i :: from <= i ==> !OccursAt(s, t, i)
    ensures r >= 0 ==> forall i :: from <= i < r ==> !OccursAt(s, t, i)
    decreases |s| - from
  {
    if OccursAt(s, t, from) then from
    else if from == |s| then -1
    else FindFrom(s, t, from + 1)
  }

  /** `s.find(t)`: the first index at which `t` occurs in `s`, or -1. */
  function Find(s: string, t: string): (r: int)
    ensures r == -1 <==> forall i :: !OccursAt(s, t, i)
    ensures r >= 0 ==> OccursAt(s, t, r) && forall i :: 0 <= i < r ==> !OccursAt(s, t, i)
  {
    FindFrom(s, t, 0)
  }

  /** Python `t in s`. */
  predicate Contains(s: string, t: string) {
    Find(s, t) >= 0
  }

  /** `s.startswith(p)`. */
  predicate StartsWith(s: string, p: string) {
    |p| <= |s| && s[..|p|] == p
  }

  /** A concatenation starts with its first part. */
  lemma StartsWithConcat(p: string, s: string)
    ensures StartsWith(p + s, p)
  {
    assert (p + s)[..|p|] == p;
  }

  /** Equal concatenations with the same first part have the same second part. */
  lemma PrefixCancel(p: string, a: string, b: string)
    requires p + a == p + b
    ensures a == b
  {
    assert a == (p + a)[|p|..];
    assert b == (p + b)[|p|..];
  }

  /** `s.endswith(p)`. */
  predicate EndsWith(s: string, p: string) {
    |p| <= |s| && s[|s| - |p|..] == p
  }

  /** `t` is a contiguous piece of `s`. */
  ghost predicate IsInfix(t: string, s: string) {
    exists i :: OccursAt(s, t, i)
  }

  /** Python `s[lo:hi]` for non-negative bounds: out-of-range bounds are clamped. */
  function Slice(s: string, lo: nat, hi: nat): (r: string)
    ensures |r| <= |s| && IsInfix(r, s)
    ensures lo <= hi ==> |r| <= hi - lo
    ensures lo <= hi <= |s| ==> r == s[lo..hi]
  {
    var a := if lo <= |s| then lo else |s|;
    var b := if hi <= |s| then hi else |s|;
    var r := if a <= b then s[a..b] else [];
    assert OccursAt(s, r, if a <= b then a else 0);
    r
  }

  /** A piece of a piece of `s` is a piece of `s`. */
  lemma OccursTrans(s: string, t: string, r: string, i: int, j: int)
    requires OccursAt(s, t, i) && OccursAt(t, r, j)
    ensures OccursAt(s, r, i + j)
  {
    forall k | 0 <= k < |r| ensures s[i + j + k] == r[k] {
      assert r[k] == t[j + k];
      assert t[j + k] == s[i..i + |t|][j + k];
    }
    assert s[i + j..i + j + |r|] == r;
  }

  /** `strip` keeps a piece of its argument. */
  lemma StripIsPiece(t: string)
    ensures IsInfix(Strip(t), t)
  {
    assert OccursAt(t, Strip(t), |t| - |LStrip(t)|);
  }

  /** A stripped piece of a piece of `s` is still a piece of `s`. */
  lemma StripOfInfix(t: string, s: string)
    requires IsInfix(t, s)
    ensures IsInfix(Strip(t), s)
  {
    var i :| OccursAt(s, t, i);
    var j := |t| - |LStrip(t)|;
    var r := Strip(t);
    assert OccursAt(t, r, j);
    OccursTrans(s, t, r, i, j);
  }

  /** `sep.join(parts)`. */
  function Join(parts: seq<string>, sep: string): string
  {
    if |parts| == 0 then ""
    else if |parts| == 1 then parts[0]
    else parts[0] + sep + Join(parts[1..], sep)
  }

  /** The first index of `c` in `s`, or -1. */
  function IndexOfChar(s: string, c: char): (r: int)
    ensures r >= -1 && (r == -1 <==> c !in s)
    ensures r >= 0 ==> r < |s| && s[r] == c && c !in s[..r]
  {
    if |s| == 0 then -1
    else if s[0] == c then 0
    else
      var k := IndexOfChar(s[1..], c);
      assert s[1..][..if k < 0 then 0 else k] == s[1..if k < 0 then 1 else k + 1];
      if k < 0 then -1 else k + 1
  }

  /** The first occurrence of `c` is at `i` when `s[i]` is `c` and no earlier character is. */
  lemma {:induction false} IndexOfCharAt(s: string, c: char, i: int)
    requires 0 <= i < |s| && s[i] == c
    requires forall j :: 0 <= j < i ==> s[j] != c
    ensures IndexOfChar(s, c) == i
    decreases |s|
  {
    if i > 0 {
      assert s[0] != c;
      assert forall j :: 0 <= j < i - 1 ==> s[1..][j] == s[j + 1];
      IndexOfCharAt(s[1..], c, i - 1);
    }
  }

  /** `s.split(sep)`: the pieces between occurrences of `sep`; joining them back gives `s`. */
  function Split(s: string, sep: char): (r: seq<string>)
    ensures |r| >= 1
    ensures forall i :: 0 <= i < |r| ==> sep !in r[i]
    ensures Join(r, [sep]) == s
    decreases |s|
  {
    var i := IndexOfChar(s, sep);
    if i < 0 then [s]
    else
      var rest := Split(s[i + 1..], sep);
      assert ([s[..i]] + rest)[1..] == rest;
      assert s == s[..i] + [sep] + s[i + 1..];
      [s[..i]] + rest
  }

  /** In `p + [sep] + tail` with `sep` not in `p`, the first separator sits right after `p`. */
  lemma FirstSeparator(p: string, tail: string, sep: char)
    requires sep !in p
    ensures var s := p + [sep] + tail;
      && IndexOfChar(s, sep) == |p|
      && s[..|p|] == p
      && s[|p| + 1..] == tail
  {
    var s := p + [sep] + tail;
    assert s[|p|] == sep;
    forall j | 0 <= j < |p| ensures s[j] != sep {
      assert s[j] == p[j] && p[j] in p;
    }
    IndexOfCharAt(s, sep, |p|);
    assert s[..|p|] == p;
    assert s[|p| + 1..] == tail;
  }

  /** Splitting undoes joining when no piece contains the separator. */
  lemma {:induction false} SplitJoin(parts: seq<string>, sep: char)
    requires |parts| >= 1
    requires forall i :: 0 <= i < |parts| ==> sep !in parts[i]
    ensures Split(Join(parts, [sep]), sep) == parts
  {
    if |parts| == 1 {
      assert IndexOfChar(parts[0], sep) == -1;
    } else {
      var tail := Join(parts[1..], [sep]);
      var s := Join(parts, [sep]);
      assert s == parts[0] + [sep] + tail;
      FirstSeparator(parts[0], tail, sep);
      SplitJoin(parts[1..], sep);
      assert Split(s, sep) == [parts[0]] + Split(tail, sep);
      assert parts == [parts[0]] + parts[1..];
    }
  }

  /** A decimal digit. */
  function DigitChar(d: nat): char
    requires d < 10
  {
    "0123456789"[d]
  }

  /** `str(n)` for a natural number. */
  function NatToString(n: nat): (r: string)
    ensures |r| >= 1
    ensures forall i :: 0 <= i < |r| ==> '0' <= r[i] <= '9'
    decreases n
  {
    if n < 10 then [DigitChar(n)] else NatToString(n / 10) + [DigitChar(n % 10)]
  }

  /** `str(i)` for an integer. */
  function IntToString(i: int): string
  {
    if i < 0 then "-" + NatToString(-i) else NatToString(i)
  }

  /** `c.lower()` for one character; only the ASCII letters are mapped. */
  function LowerChar(c: char): char
  {
    if 'A' <= c <= 'Z' then (c as int + 32) as char else c
  }

  /** `s.lower()` (ASCII letters only). */
  function Lower(s: string): (r: string)
    ensures |r| == |s|
  {
    seq(|s|, i requires 0 <= i < |s| => LowerChar(s[i]))
  }
}

=== FILE: transaction.dfy ===
/** The commit/rollback core of `SharedState._with_file_lock` and its retry backoff.

    A transform receives the loaded document and either finishes, with a new document
    and a return value, or raises after possibly having changed the document already.
    Locking, polling, the `.bak` copy and JSON (de)serialisation are not modelled. */
module Transaction {
  import opened Wrappers
  import opened StateSchema

  /** How a transform ends: it returns, or it raises with a partly updated document. */
  datatype Step<R, E> = Done(doc: Document, value: R) | Raised(partial: Document, error: E)

  /** Runs `transform` on the loaded document; returns what is persisted and what the caller sees. */
  function Run<R, E>(loaded: Document, transform: Document -> Step<R, E>): (r: (Document, Result<R, E>))
    ensures transform(loaded).Done? ==> r == (transform(loaded).doc, Success(transform(loaded).value))
    ensures transform(loaded).Raised? ==> r == (loaded, Failure(transform(loaded).error))
  {
    match transform(loaded)
    case Done(d, v) => (d, Success(v))
    case Raised(_, e) => (loaded, Failure(e))
  }

  /** Atomicity: the persisted document is the snapshot or the complete result of the
      transform, never a partly applied one, and a raise always restores the snapshot. */
  lemma Atomic<R, E>(loaded: Document, transform: Document -> Step<R, E>)
    ensures Run(loaded, transform).1.Failure? <==> transform(loaded).Raised?
    ensures Run(loaded, transform).1.Failure? ==> Run(loaded, transform).0 == loaded
    ensures Run(loaded, transform).1.Success? ==> Run(loaded, transform).0 == transform(loaded).doc
    ensures transform(loaded).Raised? ==>
      (Run(loaded, transform).0 == transform(loaded).partial <==> transform(loaded).partial == loaded)
  {
  }

  /** A transform that edits a task description and then raises leaves the stored document
      as it was loaded (the rollback scenario of the repository's tests). */
  lemma {:induction false} RollbackAfterEdit(loaded: Document, branch: string, description: string)
    requires |loaded.tasks| > 0 && |loaded.tasks[0].1| > 0
    ensures
      var edit := (d: Document) =>
        if |d.tasks| > 0 && |d.tasks[0].1| > 0 then
          var bucket := d.tasks[0].1;
          var edited := d.(tasks := d.tasks[0 := (d.tasks[0].0, bucket[0 := bucket[0].(description := description)])]);
          Raised(edited, "ValueError")
        else Done(d, ());
      Run(loaded, edit) == (loaded, Failure("ValueError"))
  {
  }

  /** `2 ** n` as a real. */
  function Pow2(n: nat): (r: real)
    ensures r >= 1.0
  {
    if n == 0 then 1.0 else 2.0 * Pow2(n - 1)
  }

  /** Maximum backoff in seconds. */
  const MaxRetryDelay: real := 60.0

  /** `get_retry_delay(attempt)`: exponential backoff from `base`, capped at 60 seconds. */
  function RetryDelay(base: real, attempt: nat): (r: real)
    ensures r <= MaxRetryDelay
    ensures r <= base * Pow2(attempt)
    ensures r == MaxRetryDelay || r == base * Pow2(attempt)
  {
    var raw := base * Pow2(attempt);
    if raw < MaxRetryDelay then raw else MaxRetryDelay
  }

  /** Each retry waits twice as long as the previous one until the cap is reached,
      and never less than the previous one. */
  lemma {:induction false} RetryDelayDoubles(base: real, attempt: nat)
    requires base >= 0.0
    ensures RetryDelay(base, attempt + 1) ==
      (if 2.0 * RetryDelay(base, attempt) < MaxRetryDelay then 2.0 * RetryDelay(base, attempt) else MaxRetryDelay)
    ensures RetryDelay(base, attempt) <= RetryDelay(base, attempt + 1)
  {
    assert Pow2(attempt + 1) == 2.0 * Pow2(attempt);
    assert base * Pow2(attempt + 1) == 2.0 * (base * Pow2(attempt));
  }
}

=== FILE: wrappers.dfy ===
/** Optional values and fallible results, used in place of Python's None and exceptions. */
module Wrappers {

  /** Python's `Optional[T]`: a value or None. */
  datatype Option<+T> = None | Some(value: T) {

    /** The wrapped value, or `default` when None. */
    function GetOr(default: T): T {
      match this
      case Some(v) => v
      case None => default
    }
  }

  /** The outcome of code that may raise: a value, or the error it raised. */
  datatype Result<+R, +E> = Success(value: R) | Failure(error: E) {

    predicate IsFailure() {
      Failure?
    }
  }

  /** Python truthiness of an optional string: present and non-empty. */
  predicate Truthy(o: Option<string>) {
    o.Some? && o.value != ""
  }
}
